=== FILE: README.md ===
# chunk — a verified model of the metawav chunk codec

This project models the Go package `chunk` of metawav. The package is a
byte-exact codec for EA IFF 85 style containers: RIFF/WAVE (little-endian),
AIFF/AIFF-C (big-endian), and the Broadcast Wave `bext` chunk of EBU Tech
3285. The model covers the following parts.

- **Current generation** (the root package):
  - FourCC codes and NUL trimming.
  - The 8-byte chunk header, with its padded `FullSize` and `pad`.
  - The 12-byte container header.
  - The chunk scanner behind `ReadRiff`/`ReadAiff`.
  - The `fmt `/PCM, `COMM` and `bext` payload codecs.
  - The 80-bit extended-precision sample rate.
- **Older generation**, kept in separate modules because its rules differ:
  - `chunk/header.go` with an unpadded `FullSize` and the sort by start position.
  - `chunk/containerheader.go` with a fixed-size decoder.
  - `reader/internal/read.go`, a scanner that aligns on the parity of the running offset.
  - The RIFF file editor of `riffheader.go` and `file.go`: `GetHeaderByID`, `DeleteChunk`, `AddChunk` and `UpdateSize`.

## How the model is built

- **Bytes and integers.** Bytes and fixed-width integers are subset types of `int`: `byte`, `uint16`, `uint32`, `uint64` and `int16`. Every place where Go's `uint32` or `uint16` arithmetic wraps is written out with `Wrap32`/`Wrap16`.
- **Streams.** Readers become the byte sequence they would deliver plus a position.
- **Writers.** An `io.WriterAt` becomes a function from byte sequence to byte sequence (`WriteAt`). It never fails. It zero-fills any gap, as a file does.
- **Field reads.** Go's run of `binary.Read` calls is modelled once, in `Fields.ReadFields`, over a list of field widths:
  - input ending at a field boundary stops with `io.EOF`, which `handleError` turns into success;
  - input ending inside a field stops with `io.ErrUnexpectedEOF`;
  - fields not reached keep their zero value.
- **Defects.** Where the Findings table records a defect, the model holds both the code as written and the intended definition, and the rest of the model uses the intended one. The exception is `CommChunks.SampleRate`, which calls the conversion as written, as comm.go does; `Extended.ExtendedToInt` is its reference, and the two agree on every rate the encoder writes.
- **Decoder results.** Decoders return a pair `Decoded(chunk, err)`, because the Go code hands back a partially filled chunk together with an error.
- **Modules.** They follow the source files:

  | module | source |
  |---|---|
  | Binary | `encoding/binary` |
  | Errors | shared error and result types |
  | Fields | the runs of `binary.Read` |
  | Strings | strings.go |
  | FourCCs | fourcc.go |
  | Constants | constants.go |
  | ChunkHeaders | header.go |
  | ContainerHeaders | containerheader.go |
  | Containers | container.go |
  | FmtChunks | fmt.go |
  | CommChunks | comm.go |
  | Extended | internal/functions.go |
  | BextChunks | bext.go |
  | LegacyHeaders | chunk/header.go |
  | LegacyContainerHeaders | chunk/containerheader.go |
  | LegacyReader | reader/internal/read.go |
  | RiffHeaders | riffheader.go |
  | RiffFiles | file.go |

- **Call sites.** Where a call site in the repository does not match the definition it calls, the model follows the definition:
  - container.go:90 expects no error from `DecodeContainerHeader`, which returns one (containerheader.go:48);
  - fmt_test.go:144 calls `EncodePCMFormatChunk`, while the function is named `EncodePCMFormatChunkChunk` (fmt.go:133);
  - riffheader_test.go:7 and file.go:77 pass a fixed array to `DecodeRiffHeader` and expect no error, while it takes a slice and returns one (riffheader.go:25);
  - file.go:55 expects one result from the wav package's `DecodeChunkHeader`, while riffheader.go:31 expects two.

## Model

| member | source | states |
|---|---|---|
| Strings.TrimNullChars | strings.go:5-7 | The result is the contiguous slice of the input that starts right after the leading NULs. It is empty or begins and ends with a non-NUL byte, and every input byte outside it is NUL, so interior NULs are kept. |
| Strings.TrimIdempotent | strings.go:10-14 | Trimming an already trimmed value changes nothing. |
| Strings.NoNulEndsUnchanged | strings.go:5-7 | A value whose first and last bytes are not NUL comes back unchanged. |
| Strings.AllNulTrimsToEmpty | strings.go:10-14 | A value trims to "" exactly when all its bytes are NUL, the empty value included. |
| Strings.TrimIgnoresTrailingNuls | strings.go:5-7 | Appending NUL bytes does not change the trimmed value. This is why the 32-byte buffers of `Format` give the text of the 4-byte code. |
| FourCCs.ToUint32 | fourcc.go:14-16 | Writing the value back big-endian gives the four bytes again, so the conversion is injective. |
| FourCCs.String | fourcc.go:9-11 | The text is the four bytes as they are, NULs included: the big-endian bytes of the code's integer value. |
| FourCCs.StringKeepsNuls | fourcc.go:9-11 | `String` returns all four bytes, NULs included. Trimming would shorten the text exactly when the code starts or ends with a NUL. |
| ChunkHeaders.ID | header.go:17-22 | At most 4 bytes: the first four bytes of the header's encoding with NULs trimmed. |
| ChunkHeaders.FullSize | header.go:36-44 | The chunk's padded room (header, payload and a pad byte for an odd size) modulo 2^32, so it is always even. |
| ChunkHeaders.FullSizeWraps | header.go:36-44 | `FullSize` is the header, the payload and a pad byte for odd sizes, taken modulo 2^32. It is always even. |
| ChunkHeaders.HasPadding | header.go:47-51 | A header has padding exactly when `FullSize` is size + 9 in uint32 arithmetic, and none exactly when it is size + 8. Without wrap-around these are the plain sums. |
| ChunkHeaders.Bytes | header.go:60-66 | The bytes are 8 long. Bytes 0..4 hold the identifier big-endian; bytes 4..8 hold the size in the header's byte order. |
| ChunkHeaders.EncodeChunkHeader | header.go:69-73 | The header starts at 0 and keeps size and order. Its identifier reads back big-endian as the FourCC, and `ID()` is the FourCC with NULs trimmed. |
| ChunkHeaders.DecodeChunkHeader | header.go:76-81 | The header is recorded at the given start position and in the given byte order. |
| ChunkHeaders.DecodeChunkHeaderPrefix | header.go:83-89 | The first 8 bytes of a longer slice decode to a header whose bytes are exactly those 8, at the given start and order. |
| ChunkHeaders.DecodeOfBytes | header.go:76-81 | Decoding a header's bytes at its own start and order gives the header back. |
| ChunkHeaders.BytesOfDecode | header.go:60-81 | Re-encoding a decoded header reproduces the 8 bytes. |
| ChunkHeaders.Pad | header.go:92-99 | The result is even-length, keeps the input as its prefix and adds one zero byte exactly when the length is odd. |
| ChunkHeaders.PadAfterEven | header.go:92-99 | Padding after an even-length prefix pads only what follows it. |
| ContainerHeaders.Format | containerheader.go:16-21 | The format text is the NUL-trimmed big-endian code. The 28 extra zero bytes of the buffer never reach it. |
| ContainerHeaders.ContainerBytes | containerheader.go:30-37 | The bytes are 12 long: the chunk header's 8 bytes, then the format big-endian. |
| ContainerHeaders.EncodeContainerHeader | containerheader.go:40-45 | The chunk header is the encoded one. The format reads back as the given FourCC, and `Format()` is its trimmed text. |
| ContainerHeaders.DecodeContainerHeader | containerheader.go:48-58 | Decoding fails exactly on fewer than 12 bytes. Otherwise the header starts at 0 in the given order and re-encodes to the first 12 bytes; later bytes are ignored. |
| ContainerHeaders.DecodeOfContainerBytes | containerheader.go:30-58 | The bytes of a container header starting at 0 decode back to it. |
| ContainerHeaders.EncodeDecodeContainer | containerheader.go:40-58 | Encoding, writing and decoding gives back the trimmed identifier, the size and the trimmed format. |
| Containers.Read | container.go:40-51 | Reading fails exactly on fewer than 12 bytes: with EOF on none and with UnexpectedEOF otherwise. On success, the container header re-encodes to the first 12 bytes. The header list is the chunk list of the data from byte 12. |
| Containers.ReadRiff | container.go:35-37 | A RIFF read is a little-endian read, with the same failure rule and the chunk list. |
| Containers.ReadAiff | container.go:30-32 | An AIFF read is a big-endian read, with the same failure rule and the chunk list. |
| Containers.ReadChunkHeaders | container.go:53-80 | The scan finds nothing exactly when fewer than 8 bytes remain at its start; otherwise every header it finds takes at least its own 8 bytes of the data. |
| Containers.ReadChunkHeadersIsChunkList | container.go:53-80 | The scan finds the chunk list. Each header is decoded from the 8 bytes at its position and recorded at that position plus the start offset. Each next position is the previous one plus header, payload and the pad byte of an odd size. The scan stops, without error, at the first position with fewer than 8 bytes left. |
| Containers.ChunkListUnique | container.go:53-80 | There is only one chunk list of the data, so the scan's result is determined by it. |
| Containers.ReadChunkHeadersOrderAndParity | container.go:64-76 | Every header carries the container's byte order. From an even first offset, every recorded start is even. |
| Containers.FindHeaders | container.go:17-27 | Every header returned has the ID and comes from the list. |
| Containers.FindHeadersCount | container.go:17-27 | Every matching header is kept as often as it occurs, and every other header is dropped. |
| Containers.FindHeadersAppend | container.go:17-27 | The search distributes over concatenation, so list order is kept. |
| Containers.ReadShortAndEmpty | container.go:82-93 | 11 bytes cannot be read; 12 bytes give a container with no chunks. |
| Containers.ReadOneZeroChunk | container.go:53-80 | 20 zero bytes give one empty chunk at 12. |
| Fields.ReadFieldsSpec | fmt.go:87-97 | Each field read is its bytes when the input covers it, and its zero value otherwise. The run completes exactly when the input holds the whole layout. It ends with EOF exactly when the input stops short at a field boundary. |
| Fields.Filtered | comm.go:158-163 | Only a read that stopped inside a field leaves an error. |
| FmtChunks.FmtBytes | fmt.go:51-66 | The bytes are 22 long and start with the stored header's bytes; the size is not recomputed. |
| FmtChunks.FmtLayout | fmt.go:51-66 | format, channels, samplesPerSec, bytesPerSec and blockAlign sit little-endian at bytes 8, 10, 12, 16 and 20. |
| FmtChunks.EncodeFmtChunk | fmt.go:69-73 | Every argument is stored verbatim, size included, under a little-endian header at start 0. |
| FmtChunks.DecodeFmtChunk | fmt.go:76-100 | There is no chunk, with the short-data error, exactly on fewer than 8 bytes. Otherwise the header is little-endian at 0. The error is UnexpectedEOF, and occurs exactly when the payload ends inside a field. |
| FmtChunks.DecodeFmtFields | fmt.go:83-97 | Each field is the little-endian value of its bytes when the data covers it, and 0 when the data ends before it. |
| FmtChunks.DecodeOfFmtBytes | fmt.go:51-100 | The bytes of a little-endian FMT at start 0 decode back to it without error. |
| FmtChunks.FmtBytesOfDecode | fmt.go:51-100 | Re-encoding what was decoded from 22 or more bytes gives the first 22. |
| FmtChunks.DecodeShortFmt | fmt.go:76-100 | Exactly 8 bytes decode without error to all-zero fields. Exactly 22 bytes are no PCM format. |
| FmtChunks.PcmBytes | fmt.go:119-130 | The PCM bytes are the FMT bytes, then bitsPerSample little-endian. |
| FmtChunks.EncodePcmFormatChunk | fmt.go:133-137 | The FMT part is `EncodeFMTChunk` of the same arguments, plus bitsPerSample. |
| FmtChunks.DecodePcmFormatChunk | fmt.go:140-162 | A chunk comes back exactly on 24 or more bytes, and then without error. Below 22 bytes, the FMT error or the short-data error is returned. At 22 bytes the error is EOF, which is not filtered; at 23 it is UnexpectedEOF. |
| FmtChunks.DecodeOfPcmBytes | fmt.go:119-162 | The bytes of a little-endian PCM format at start 0 decode back to it without error. |
| FmtChunks.PcmBytesOfDecode | fmt.go:119-162 | Re-encoding what was decoded from 24 or more bytes gives the first 24. |
| CommChunks.SampleRate | comm.go:40-42 | The conversion as written: a rate the encoder stored from an integer reads back as that integer. |
| CommChunks.CompressionName | comm.go:50-52 | A missing name reads as empty. A present name is shorter than the room its field takes in the bytes. |
| CommChunks.CommBytesAsWritten | comm.go:61-94 | As written, the bytes are the 30 fixed bytes plus the room of the name field. They are even-sized and start with the header. |
| CommChunks.CompressionTypeKept | comm.go:85 | Copying the trimmed compression type into four zero bytes keeps the type exactly when it does not start with a NUL or is all NULs. |
| CommChunks.CommBytesAsWrittenLayout | comm.go:61-94 | As written, the bytes start with the header. The name sits where the length byte belongs. |
| CommChunks.DecodeCommChunk | comm.go:119-156 | There is no chunk, with the short-data error, exactly on fewer than 8 bytes. Otherwise the header is big-endian at 0. |
| CommChunks.CommFieldsOf | comm.go:132-142 | Each of the six fields (four fixed ones, the type and the length byte) is its bytes at its offset when the payload covers it, and zeros otherwise. |
| CommChunks.DecodeCommErrors | comm.go:119-163 | The error is UnexpectedEOF. It occurs exactly when the data ends inside a fixed field or inside a name that has begun. Data ending at a field boundary, or right after the length byte, is no error. |
| CommChunks.DecodeCommName | comm.go:144-153 | A name is present exactly when the length byte is positive and the whole name follows it. The name is then the bytes after the length byte. |
| CommChunks.DecodeCommFields | comm.go:127-142 | numChannels and sampleSize are the int16 readings of their big-endian bytes; numSampleFrames, the 10-byte rate and the type are their bytes or values. A field the data does not reach is zero. |
| CommChunks.EncodeCommChunkAsWritten | comm.go:97-108 | As written, the header is little-endian and a name longer than 256 bytes is cut to 256. The counts, the sample size and the compression type are stored as given, and the stored sample rate reads back as the given integer. |
| CommChunks.EncodeCommChunk | comm.go:97-108 | As intended, the header is big-endian. Counts, sample rate and type read back. A name longer than 255 bytes is cut to 255. |
| CommChunks.CommBytes | comm.go:61-94 | As intended, the bytes have the same length, are even-sized and start with the header. |
| CommChunks.CommBytesLayout | comm.go:61-94 | As intended, the bytes are even-sized and start with the header. After the fixed payload come the name's length byte and then the name. |
| CommChunks.DecodeOfCommBytes | comm.go:61-156 | As intended, the bytes of a big-endian COMM at start 0 decode back to it without error, when its type does not start with a NUL and its name fits the length byte. An empty name comes back nil. |
| CommChunks.EncodeDecodeComm | comm.go:97-156 | For every compression type, NUL-led ones included, encoding, writing and decoding gives back the header, counts, sample rate, trimmed type and the name cut to 255 bytes. |
| CommChunks.TrimmedTypeBytes | comm.go:85 | A chunk and the same chunk with its type replaced by the trimmed, NUL-padded type are written as the same bytes. |
| CommChunks.NameWithoutLength | comm.go:87-89 | As written, a name whose first byte exceeds its length plus one decodes with UnexpectedEOF and no name. |
| CommChunks.NoCompressionNameLost | comm.go:87-89 | Built and written by the code as written, the library's own "no compression" name is read with its 'n' as the length, and fails to decode. |
| CommChunks.LongNameLosesLength | comm.go:103-105 | A name cut to 256 bytes gets length byte 0, so no name is decoded. |
| CommChunks.LittleEndianHeaderSwapsSize | comm.go:98 | The encoder's little-endian header is read big-endian, so the size comes back byte-swapped: 32 becomes 0x2000_0000. |
| CommChunks.ZeroComm | comm.go:125-142 | A bare zero header decodes to a COMM with every field zero and no name. |
| CommChunks.ZeroCommBytes | comm.go:61-94 | That COMM writes 30 zero bytes, in either writing. |
| Extended.IntToIeee | internal/functions.go:64-99 | The method computes the encoding `IeeeOf`. In machine arithmetic, it collects the bits, shifts them to the top of the mantissa and biases the exponent. |
| Extended.CollectBits | internal/functions.go:72-81 | The loop collects every bit of v and counts the bit length. |
| Extended.IeeeOf | internal/functions.go:64-99 | Zero is ten zero bytes. Any other value has a clear sign, the exponent 16383 + bit length − 1, and a mantissa with its integer bit set that holds v shifted to the top. |
| Extended.IeeeLayout | internal/functions.go:83-96 | For v > 0 the sign is clear and the exponent is 16383 + bit length − 1. The mantissa is v shifted so that its integer bit is set. |
| Extended.ShiftCount | internal/functions.go:83 | 63 − i + 1 in uint16 is 64 − i for 1 ≤ i ≤ 64, including i = 64, where the subtraction wraps first. |
| Extended.ExponentField | internal/functions.go:89 | i − 1 + bias does not wrap for 1 ≤ i ≤ 64. |
| Extended.ExtendedToIntAsWritten | internal/functions.go:11-61 | As written, the result is 0 for a zero sign-and-exponent word, for a set sign bit and for the exponent 0x1111. For any other exponent from the bias up to below 0x7FFF, it equals the intended conversion. |
| Extended.ExtendedToInt | internal/functions.go:11-61 | As intended, a set sign bit gives 0, and so does exponent 0x7FFF (infinity, NaN) or any exponent below the bias. |
| Extended.ExtendedRoundTrip | internal/functions.go:11-99 | Converting any integer and back gives it again, under both the intended and the as-written reading. |
| Extended.InfinityNotCaught | internal/functions.go:35 | As written, exponent 0x7FFF is not caught, and the result is at least 2^63 instead of 0. |
| Extended.ExtendedToIntTruncates | internal/functions.go:42-60 | In the normal range the result r is the integer part of the value the bytes denote: r * 2^63 <= (2^63 + frac) * 2^(e - bias) < (r + 1) * 2^63, under both readings. |
| Extended.ScaledTruncates | internal/functions.go:58-60 | Scaling the mantissa by a power of two and truncating gives the floor of m * 2^e / 2^63. |
| Extended.SmallExponentWraps | internal/functions.go:43 | As written, a positive exponent below the bias wraps, and the result is at least 2^63 instead of 0. |
| Extended.ConversionCounterexamples | internal/functions.go:35-43 | Positive infinity and one half convert to at least 2^63 as written; one half converts to 0 as intended. |
| Extended.KnownRates | internal/functions_test.go:7-18 | The inputs of the library's conversion test (0, 1, 8000, 41400, 4800, 96000, 192000 and 384000) read back under both the written and the intended conversion. |
| BextChunks.OriginRoundTrip | bext.go:332-338 | Writing the origin fields and reading them back gives the origin. |
| BextChunks.LoudnessRoundTrip | bext.go:359-365 | Writing the loudness fields and reading them back gives the loudness values. |
| BextChunks.UmidRoundTrip | bext.go:354 | The UMID written as 64 one-byte fields reads back. |
| BextChunks.DecodeBextChunk | bext.go:382-423 | There is no chunk, with the short-data error, exactly on fewer than 8 bytes. Otherwise the header is little-endian at 0. |
| BextChunks.DecodeBextErrors | bext.go:382-423 | The error is UnexpectedEOF and occurs exactly when the payload is shorter than 602 bytes and ends inside a field. The coding history is every byte after the fixed region, pad byte included. |
| BextChunks.DecodeBextFields | bext.go:382-423 | On a complete fixed region there is no error. Every field comes from its chunk offset, whatever the version: the five texts at 8, 264, 296, 328 and 338; the time reference halves at 346 and 350 and the version at 354, little-endian; the UMID at 356..420; the five loudness values at 420..430; the reserve at 430..610; the coding history from 610 on. |
| BextChunks.WrittenHeader | bext.go:368-371 | The header has ID "bext", is little-endian and starts at 0. Its size is the data size 602 + history length whenever that fits in a uint32. |
| BextChunks.BextBytes | bext.go:329-374 | The bytes take the padded room of 602 + history length data bytes, so their length is even. They start with the written header. |
| BextChunks.WriteBext | bext.go:329-374 | Bytes also sets the chunk's header: afterwards the header is the one the bytes start with, nothing else in the chunk changes, and the bytes are those of the chunk as left. |
| BextChunks.BextBytesLength | bext.go:329-374 | The chunk is 8 + 602 + the history length bytes, plus one for an odd history. |
| BextChunks.BextLayout | bext.go:331-339 | The origin fields, the time reference halves and the version sit at their fixed offsets. The padded history follows at 610. |
| BextChunks.VersionLayout | bext.go:349-366 | After the version: version 0 and unknown versions give zeros. Version 1 gives the UMID and zeros. Version 2 gives the UMID, five loudness values little-endian, and 180 zeros. |
| BextChunks.BextBytesHeader | bext.go:368-371 | The written header has id "bext" and the data size as a uint32. |
| BextChunks.BextSizeExcludesPad | bext.go:368-373 | Unless the size wraps, the chunk is 8 bytes plus size bytes plus the pad of an odd size, so the pad byte is not counted. |
| BextChunks.DecodeOfBextBytes | bext.go:329-423 | Decoding the bytes gives back the written header, the origin, the version and the padded history. The UMID and loudness come back as far as the version writes them, and zero otherwise. |
| BextChunks.TimeReference | bext.go:177-183 | The high 32 bits are timeReferenceLow and the low 32 bits are timeReferenceHigh. |
| BextChunks.SetTimeReference | bext.go:187-190 | The two fields spell the value, and nothing else changes. |
| BextChunks.TimeReferenceRoundTrip | bext.go:177-190 | Setting and reading a time reference round-trips, both ways round. |
| BextChunks.TimeReferenceBytes | bext.go:337-338 | In the bytes, the high 32 bits come first, both halves little-endian. |
| BextChunks.SetUmid | bext.go:221-234 | All 64 bytes are replaced, and nothing else changes. |
| BextChunks.UmidThroughBytes | bext.go:206-234 | A UMID set on a version 1 or 2 chunk survives writing and decoding. On other versions it reads back as zeros. |
| BextChunks.SetDescription | bext.go:108-111 | The field is zeroed and the terminated value copied to its front, and nothing else changes. |
| BextChunks.SetOriginator | bext.go:123-126 | The same, for the 32-byte originator. |
| BextChunks.SetOriginatorReference | bext.go:138-141 | The same, for the 32-byte reference. |
| BextChunks.SetOriginationDate | bext.go:153-156 | The 10-byte field is zeroed and the value copied in, and nothing else changes. |
| BextChunks.SetOriginationTime | bext.go:170-173 | The 8-byte field is zeroed and the value copied in, and nothing else changes. |
| BextChunks.OriginationDateThroughBytes | bext.go:153-156 | A date set and written reads back: exactly, followed by zeros, or cut to 10 bytes. |
| LegacyHeaders.LegacyFullSize | chunk/header.go:45-47 | The older `FullSize` is size + 8 in uint32 arithmetic. Adding the pad byte of an odd size, modulo 2^32, gives the current `FullSize`. |
| LegacyHeaders.LegacyFullSizeUnpadded | chunk/header.go:45-47 | The older `FullSize` falls one short of the padded one exactly for odd sizes, and wraps to 0 at size 0xFFFF_FFF8. |
| LegacyHeaders.LegacyCodec | chunk/header.go:55-75 | An encoded header starts at 0. Its 8 bytes are the identifier and then the size in its order. They decode at any start back to the header at that start. |
| LegacyHeaders.Insert | chunk/header.go:19-23 | Inserting keeps the list sorted by start and adds exactly the one header. |
| LegacyHeaders.SortByStartPos | chunk/header.go:19-23 | The result is sorted by start position and is a permutation of the input. |
| LegacyContainerHeaders.LegacyDecodeContainerHeader | chunk/containerheader.go:38-45 | The header comes from bytes 0..8 at start 0, and the format reads back big-endian as bytes 8..12. |
| LegacyContainerHeaders.LegacyDecodeAgrees | chunk/containerheader.go:38-45 | On 12 bytes the older decoder gives what the current one gives. |
| LegacyContainerHeaders.LegacyEncodeDecode | chunk/containerheader.go:17-35 | Encoding and decoding gives the header back, with trimmed identifier, size and trimmed format. |
| LegacyReader.Read | reader/internal/read.go:11-22 | Reading fails exactly on fewer than 12 bytes: EOF on none, UnexpectedEOF otherwise. The container header re-encodes to the first 12 bytes. |
| LegacyReader.StepAgrees | reader/internal/read.go:37-44 | From an even offset, the bump applied to an odd offset equals the pad of an odd size. The next offset is even. |
| LegacyReader.ReadChunkHeaders | reader/internal/read.go:24-50 | Every header carries the container's order. Nothing is found exactly when fewer than 8 bytes remain; otherwise every header takes at least its own 8 bytes. |
| LegacyReader.ReadChunkHeadersAgree | reader/internal/read.go:24-50 | From an even offset, the older scan finds exactly the headers of the current one, at the same starts. |
| LegacyReader.ReadFindsChunkList | reader/internal/read.go:11-50 | A read finds the chunk list of the data, and every start is even. |
| LegacyReader.ReadSmallInputs | reader/internal/read.go:11-50 | 11 bytes fail, 12 give no chunk, and 20 zero bytes give one. |
| LegacyReader.ReadTwoTestChunks | reader/internal/read.go:24-50 | Two 12-byte "test" chunks give two headers, at 12 and 32. |
| RiffHeaders.ConvertFormat | riffheader.go:67-72 | The text is the trimmed 4-byte big-endian code. |
| RiffHeaders.NewRiffHeader | riffheader.go:17-22 | The header and code are kept, and the text is what a container header with that code reports. |
| RiffHeaders.IsValidRiffHeaderAsWritten | riffheader.go:57-65 | As written, the check never accepts fewer than 12 bytes. |
| RiffHeaders.ValidityCheckWraps | riffheader.go:57-65 | As written, the check never admits a short input and agrees below 2^32 bytes. It rejects a 2^32-byte input. |
| RiffHeaders.DecodeRiffHeader | riffheader.go:25-40 | Decoding fails exactly below 12 bytes. Otherwise the header is little-endian at 0, the 12 bytes re-encode, and the text is the trimmed code bytes. |
| RiffHeaders.DecodeRiffHeaderAsWritten | riffheader.go:25-29 | As written, decoding agrees with the intended one below 2^32 bytes, and whenever it succeeds. |
| RiffHeaders.DecodeRiffHeaderAgrees | riffheader.go:25-40 | A RIFF header is a little-endian container header. |
| RiffHeaders.DecodeRiffHeaderOfBytes | riffheader.go:25-40 | The bytes of a little-endian container header at 0 decode to its RIFF header. |
| RiffHeaders.RiffFullSize | riffheader.go:48-50 | The size is the unpadded size plus the format code, modulo 2^32. It is size + 12 when no wrap occurs, and has the size's parity. |
| RiffFiles.ScanNeverAdvances | file.go:57-63 | As written, a chunk of size 0xFFFF_FFF8 has FullSize 0. The scan then records the same header on every round. |
| RiffFiles.EndlessScanExample | file.go:39-67 | As written, a 20-byte file of that shape yields as many headers as fuel allows. |
| RiffFiles.ReadChunkHeadersAsWritten | file.go:39-67 | As written, the scan is bounded by its fuel: at most that many headers, each little-endian. |
| RiffFiles.ReadChunkHeaders | file.go:39-67 | As intended, every header found is little-endian. |
| RiffFiles.ReadChunkHeadersIsContainerWalk | file.go:39-67 | As intended, the scan is the little-endian container scan, so its result is a chunk list. |
| RiffFiles.AsWrittenAgrees | file.go:39-67 | On a file under 4 GiB whose chunks end below 2^32, the scan as written finds what the intended one finds. |
| RiffFiles.GetHeaderByID | file.go:83-91 | The lookup is none exactly when no header has the ID; otherwise it is a header of the file with that ID. |
| RiffFiles.GetHeaderByIDSpec | file.go:83-91 | The lookup is none exactly when no header has the ID. Otherwise it is the first header with it. |
| RiffFiles.GetHeaderByIDExamples | file.go:83-91 | An empty file has no header; a file holding one "test" header finds it. |
| RiffFiles.DeleteChunk | file.go:93-136 | A missing chunk is the not-found error with nothing written and the file unchanged. Name and header are kept, and the headers are only rearranged. |
| RiffFiles.MoveChunksFails | file.go:106-124 | The moves fail exactly when a later chunk runs past the end of the source, and then with EOF. |
| RiffFiles.MoveChunksWrites | file.go:106-124 | Without wrap-around, the moves are one write of the later chunks, end to end. |
| RiffFiles.DeleteChunkMoves | file.go:93-136 | The headers end sorted. The later chunks are written from the deleted chunk's start. The size field holds the old size minus the deleted `FullSize`, and the result is the file's `FullSize` minus it. |
| RiffFiles.DeleteChunkShortRead | file.go:106-114 | An unreadable later chunk stops deletion with EOF and no size update. |
| RiffFiles.UpdateSize | file.go:185-198 | The size field reads back little-endian as the value. |
| RiffFiles.UpdateSizeKeepsOthers | file.go:185-198 | No byte outside the size field changes. |
| RiffFiles.UpdateSizeDecodes | file.go:185-198 | The header then decodes with the new size, same identifier and format. |
| RiffFiles.AddChunk | file.go:139-182 | The reader's bytes are written contiguously from the file's `FullSize`. The size is the old size plus the bytes, modulo 2^32, and the result does not depend on the buffer size. |
| RiffFiles.CopyChunk | file.go:148-172 | Reads of at most the buffer size (1024 when not positive) add up to one write of the input. The count is the input length modulo 2^32. |
| RiffFiles.WriteAt | file.go:155 | The `io.WriterAt` the code writes through: the bytes land at the offset, every other old byte is kept, and a gap past the end is zero-filled. |
| RiffFiles.WriteAtAppend | file.go:155-161 | Two writes back to back are one write of both. |

## Left out

- **Real I/O.** `io.ReadSeeker`, `io.ReaderAt`, `io.Reader` and `io.WriterAt` are byte sequences.
  - A `WriterAt` never fails, so the write-error branches of file.go:116-120, file.go:155-159 and file.go:175-179 are not modelled.
  - An `io.Reader` hands out the remaining bytes, at most one buffer at a time.
  - `ReadAt` either fills the buffer or fails with EOF.
- **RiffFiles.DeleteChunk and the Go slice.** The Go code sorts `rf.Headers` in place. The model returns the file with its headers sorted.
- **Unstable sort.** `sort.Sort` is not stable; SortByStartPos fixes one order among equal starts.
- **File-system code.** `CreateRiffFile` and `readRiffHeader` (file.go:20-37, file.go:69-80) and wav.go open and stat files.
- **The wav package's own `Header` type and constants.** They are not part of this model.
  - The RIFF file code treats the header as the older chunk header read little-endian.
  - `RiffHeaderSizeBytes` is taken as 12, the container header size.
- **The float path of `IEEEFloatToInt`.** The `float64`/`math.Pow` evaluation (internal/functions.go:50-60) is modelled as the exact truncated integer.
  - The float sum is exact, and so equals the model, when the fraction has no set bit below bit 11, that is, at most 52 significant bits after the integer bit. Every `IeeeOf(v)` with v < 2^53 has such a mantissa.
  - Other mantissas can round up. For 3F FF FF FF FF FF FF FF FF FF the exact value 1.99… truncates to 1, but the float sum reaches 2 − 2^-52, adds 2^-53, and rounds half-to-even to 2.0.
  - `uint(res)` of a value at or above 2^64 is implementation-defined in Go; the model returns the exact value.
- **Extended.ExtendedToInt and zero exponents.** The special case `e == 0` (internal/functions.go:38-39) falls under "exponent below the bias" and gives 0.
- **Helpers that are not shown.** `nullTermToString`, `terminate` and `CreateFourCC` are not part of this model.
  - The text setters take the result of `terminate` as their parameter.
  - `Bytes` of bext writes the identifier "bext" directly.
- **Plain field accessors.** Getters, the `String` methods and the `SetVersion`, loudness and `SetCodingHistory` setters of bext.go only read or write a field.
- **Context files.** These are not modelled:
  - ixml.go: XML marshalling.
  - format.go and common.go: superseded snapshots with `todo` stubs.
  - modifier/file.go: all commented out.
  - reader/riff and reader/aiff: wrappers that pick a byte order, which is a parameter here.
  - chunk/container.go, chunk/fourcc.go, functions.go and strconv/functions.go: duplicates of modelled logic.
- ChunkHeaders.DecodeChunkHeader: its contract states only the start position and order it records. That its result re-encodes to the 8 bytes is stated by ChunkHeaders.BytesOfDecode and ChunkHeaders.DecodeOfBytes instead, because every chunk-list proof unfolds the function and the byte equation in its contract would make those proofs too costly.
- **RiffFiles.ReadChunkHeadersAsWritten.** It is bounded by a fuel parameter, because the code as written can loop forever. Runs longer than the fuel are not modelled.
- **RiffFiles.DeleteChunkMoves.** It states the written bytes only when every later chunk can be read and the running offset does not wrap. Beyond that, MoveChunks defines the result, and DeleteChunkShortRead covers the failing reads.
- **Go `uint`.** It is taken to be 64 bits wide: the `v` parameter of `IntToIEEE`, the `sampleRate` parameter of `EncodeCOMMChunk` and the result of `SampleRate` are `uint64` values or naturals.
- **Logging.** The `fmt.Printf` of a short read in file.go:47-51 writes to standard output only and is not modelled.
- **RiffFiles.DeleteChunk and aliasing.** The reader and the writer are separate byte sequences. A caller passing the same `*os.File` as both sees its own writes in later reads; that aliasing is not modelled.
- **RiffFiles.UpdateSize.** `binary.Write` into a `bytes.Buffer` cannot fail, so its error branch is not modelled.
- **CommChunks.DecodeOfCommBytes.** It requires a compression type that does not start with a NUL, or is all NULs. `Bytes` writes the trimmed type, so any other type reads back shifted.

## Findings

| source | as written | input that shows it | evidently intended | confidence | as-written member | corrected member |
|---|---|---|---|---|---|---|
| comm.go:87-89 | the compression name is copied to payload offset 22, where its length byte belongs; the length is never written | a COMM named "no compression": the decoder reads 'n' (110) as the length and fails with UnexpectedEOF | write the length byte at 22 and the name after it | not executed | CommChunks.NameWithoutLength | CommChunks.DecodeOfCommBytes |
| comm.go:103-105 | names longer than 1 << 8 = 256 bytes are cut to 256, one more than a uint8 length can describe; the doc comment at comm.go:118 also says "max. 256 byte name". As written no length byte is stored at all (row above), so the defect shows only once that fix is in place, and the as-written member uses the corrected bytes | a 300-byte name: cut to 256, its length byte is 256 % 256 = 0 and no name is decoded | cut to 255 bytes | not executed | CommChunks.LongNameLosesLength | CommChunks.EncodeDecodeComm |
| comm.go:98 | the header is encoded little-endian, while AIFF and the decoder (comm.go:127-128) are big-endian | size 32 is read back as 0x2000_0000 | a big-endian header | not executed | CommChunks.LittleEndianHeaderSwapsSize | CommChunks.EncodeCommChunk |
| internal/functions.go:35 | infinity and NaN are recognised by exponent 0x1111 instead of 0x7FFF | positive infinity 7F FF 80 00 00 00 00 00 00 00 converts to at least 2^63 | test for 0x7FFF | not executed | Extended.InfinityNotCaught | Extended.ExtendedToInt |
| internal/functions.go:43 | `e - bias` is uint16 arithmetic and wraps for exponents below the bias | one half, 3F FE 80 00 00 00 00 00 00 00, converts to at least 2^63 instead of 0 | values below 1 truncate to 0 | not executed | Extended.ConversionCounterexamples | Extended.ExtendedToInt |
| file.go:57-63 | the scan offset is a uint32 advanced by the unpadded FullSize, which is 0 for size 0xFFFF_FFF8 | a 20-byte file with a "test" chunk of size 0xFFFF_FFF8 at 12: the same header is read forever | the offset always moves past the chunk | not executed | RiffFiles.EndlessScanExample | RiffFiles.ReadChunkHeadersIsContainerWalk |
| riffheader.go:60 | the length is converted to uint32 before the comparison with the header size | a 2^32-byte input is rejected as an invalid RIFF header | compare the length itself | not executed | RiffHeaders.ValidityCheckWraps | RiffHeaders.DecodeRiffHeader |

=== FILE: bext.dfy ===
/** The Broadcast Wave bext chunk (bext.go), laid out as in section 2.3 of
    EBU Tech 3285: a little-endian header and a 602-byte fixed region,
    then the coding history. Which part of the fixed region is written
    depends on the BWF version: version 0 leaves 254 reserved bytes,
    version 1 adds the 64-byte UMID, version 2 also the five loudness
    values. */
module BextChunks {
  import opened Binary
  import opened Errors
  import opened FourCCs
  import opened Constants
  import opened ChunkHeaders
  import opened Fields
  import Strings

  type Text256 = s: seq<byte> | |s| == 256 witness Zeros(256)
  type Text32 = s: seq<byte> | |s| == 32 witness Zeros(32)
  type Text10 = s: seq<byte> | |s| == 10 witness Zeros(10)
  type Text8 = s: seq<byte> | |s| == 8 witness Zeros(8)
  type Umid = s: seq<byte> | |s| == 64 witness Zeros(64)
  type Reserve = s: seq<byte> | |s| == 180 witness Zeros(180)

  /** The fields every version carries: texts, date, time and the two
      halves of the time reference. */
  datatype Origin = Origin(description: Text256, originator: Text32, originatorReference: Text32,
                           originationDate: Text10, originationTime: Text8,
                           timeReferenceLow: uint32, timeReferenceHigh: uint32)

  /** The version 2 loudness values. */
  datatype Loudness = Loudness(loudnessValue: uint16, loudnessRange: uint16, maxTruePeakLevel: uint16,
                               maxMomentaryLoudness: uint16, maxShortTermLoudness: uint16)

  /** The Bext struct, its flat Go fields grouped by the version that
      introduced them; the 64 one-byte UMID fields are one sequence. */
  datatype Bext = Bext(header: Header, origin: Origin, version: uint16, umid: Umid, loudness: Loudness,
                       reserved: Reserve, codingHistory: seq<byte>)

  /** "bext" */
  const BextId: FourCC := [0x62, 0x65, 0x78, 0x74]

  /** Size of the fixed region after the header. */
  const BextDataSize: nat := 602

  /** The fields DecodeBextChunk reads, in order: origin, version, the UMID
      one byte at a time, the loudness values and the reserve. */
  const OriginWidths: seq<nat> := [256, 32, 32, 10, 8, 4, 4]
  const VersionWidths: seq<nat> := [2]
  const UmidWidths: seq<nat> := Ones(64)
  const LoudnessWidths: seq<nat> := [2, 2, 2, 2, 2, 180]
  const BextWidths: seq<nat> := OriginWidths + VersionWidths + UmidWidths + LoudnessWidths

  lemma OriginOffsets()
    ensures Offset(OriginWidths, 1) == 256 && Offset(OriginWidths, 2) == 288 && Offset(OriginWidths, 3) == 320
    ensures Offset(OriginWidths, 4) == 330 && Offset(OriginWidths, 5) == 338 && Offset(OriginWidths, 6) == 342
    ensures Size(OriginWidths) == 346
  {
    OffsetStep(OriginWidths, 0);
    OffsetStep(OriginWidths, 1);
    OffsetStep(OriginWidths, 2);
    OffsetStep(OriginWidths, 3);
    OffsetStep(OriginWidths, 4);
    OffsetStep(OriginWidths, 5);
    OffsetStep(OriginWidths, 6);
  }

  lemma LoudnessOffsets()
    ensures Offset(LoudnessWidths, 1) == 2 && Offset(LoudnessWidths, 2) == 4 && Offset(LoudnessWidths, 3) == 6
    ensures Offset(LoudnessWidths, 4) == 8 && Offset(LoudnessWidths, 5) == 10 && Size(LoudnessWidths) == 190
  {
    OffsetStep(LoudnessWidths, 0);
    OffsetStep(LoudnessWidths, 1);
    OffsetStep(LoudnessWidths, 2);
    OffsetStep(LoudnessWidths, 3);
    OffsetStep(LoudnessWidths, 4);
    OffsetStep(LoudnessWidths, 5);
  }

  /** The parts of the layout and where they start. */
  lemma BextSizes()
    ensures |BextWidths| == 78
    ensures Size(OriginWidths + VersionWidths) == 348
    ensures Size(OriginWidths + VersionWidths + UmidWidths) == 412
    ensures Size(BextWidths) == BextDataSize
  {
    OriginOffsets();
    LoudnessOffsets();
    OffsetOnes(64, 64);
    assert Size(VersionWidths) == 2 by {
      OffsetStep(VersionWidths, 0);
    }
    SizeAppend(OriginWidths, VersionWidths);
    SizeAppend(OriginWidths + VersionWidths, UmidWidths);
    SizeAppend(OriginWidths + VersionWidths + UmidWidths, LoudnessWidths);
  }

  /** The payload lengths at which the reads stop at a field boundary: the
      starts of the origin fields and of the version, every byte of the
      UMID, the starts of the loudness values and the reserve, and the end. */
  predicate BextBoundary(n: nat) {
    n in {0, 256, 288, 320, 330, 338, 342, 346} || 348 <= n <= 412 || n in {414, 416, 418, 420, 422, 602}
  }

  lemma BextBoundaries(n: nat)
    ensures AtBoundary(BextWidths, n) <==> BextBoundary(n)
  {
    BextSizes();
    BoundaryAppend(OriginWidths + VersionWidths + UmidWidths, LoudnessWidths, n);
    BoundaryAppend(OriginWidths + VersionWidths, UmidWidths, n);
    BoundaryAppend(OriginWidths, VersionWidths, n);
    OriginBoundaries(n);
    OriginOffsets();
    if n >= 346 {
      VersionBoundaries(n - 346);
    }
    if n >= 348 {
      OnesBoundary(64, n - 348);
    }
    if n >= 412 {
      LoudnessBoundaries(n - 412);
    }
  }

  lemma OriginBoundaries(n: nat)
    ensures AtBoundary(OriginWidths, n) <==> n in {0, 256, 288, 320, 330, 338, 342, 346}
  {
    OriginOffsets();
    if n in {0, 256, 288, 320, 330, 338, 342, 346} {
      var j := if n == 0 then 0 else if n == 256 then 1 else if n == 288 then 2 else if n == 320 then 3
        else if n == 330 then 4 else if n == 338 then 5 else if n == 342 then 6 else 7;
      assert Offset(OriginWidths, j) == n;
    }
  }

  lemma VersionBoundaries(n: nat)
    ensures AtBoundary(VersionWidths, n) <==> n in {0, 2}
  {
    OffsetStep(VersionWidths, 0);
    if n == 0 {
      assert Offset(VersionWidths, 0) == n;
    }
    if n == 2 {
      assert Offset(VersionWidths, 1) == n;
    }
  }

  lemma LoudnessBoundaries(n: nat)
    ensures AtBoundary(LoudnessWidths, n) <==> n in {0, 2, 4, 6, 8, 10, 190}
  {
    LoudnessOffsets();
    if n in {0, 2, 4, 6, 8, 10, 190} {
      var j := if n == 0 then 0 else if n == 2 then 1 else if n == 4 then 2 else if n == 6 then 3
        else if n == 8 then 4 else if n == 10 then 5 else 6;
      assert Offset(LoudnessWidths, j) == n;
    }
  }

  /** The origin fields as written: the texts verbatim, the time reference
      halves little-endian. */
  function OriginFields(o: Origin): (r: seq<seq<byte>>)
    ensures Fits(r, OriginWidths)
  {
    [o.description, o.originator, o.originatorReference, o.originationDate, o.originationTime,
     BytesOf(LittleEndian, o.timeReferenceLow, 4), BytesOf(LittleEndian, o.timeReferenceHigh, 4)]
  }

  /** The origin a run of reads leaves behind. */
  function OriginOf(fs: seq<seq<byte>>): Origin
    requires Fits(fs, OriginWidths)
  {
    Origin(fs[0], fs[1], fs[2], fs[3], fs[4], Uint32Of(LittleEndian, fs[5]), Uint32Of(LittleEndian, fs[6]))
  }

  /** Writing the origin fields and reading them back, either way round. */
  lemma OriginRoundTrip(o: Origin)
    ensures OriginOf(OriginFields(o)) == o
  {
    Uint32Bytes(LittleEndian, o.timeReferenceLow);
    Uint32Bytes(LittleEndian, o.timeReferenceHigh);
  }

  lemma OriginFieldsOf(fs: seq<seq<byte>>)
    requires Fits(fs, OriginWidths)
    ensures OriginFields(OriginOf(fs)) == fs
  {
    BytesUint32(LittleEndian, fs[5]);
    BytesUint32(LittleEndian, fs[6]);
  }

  /** The loudness fields as version 2 writes them, little-endian, and the
      180 zero bytes of the reserve. */
  function LoudnessFields(l: Loudness): (r: seq<seq<byte>>)
    ensures Fits(r, LoudnessWidths)
  {
    [BytesOf(LittleEndian, l.loudnessValue, 2), BytesOf(LittleEndian, l.loudnessRange, 2),
     BytesOf(LittleEndian, l.maxTruePeakLevel, 2), BytesOf(LittleEndian, l.maxMomentaryLoudness, 2),
     BytesOf(LittleEndian, l.maxShortTermLoudness, 2), Zeros(180)]
  }

  function LoudnessOf(fs: seq<seq<byte>>): Loudness
    requires Fits(fs, LoudnessWidths)
  {
    Loudness(Uint16Of(LittleEndian, fs[0]), Uint16Of(LittleEndian, fs[1]), Uint16Of(LittleEndian, fs[2]),
             Uint16Of(LittleEndian, fs[3]), Uint16Of(LittleEndian, fs[4]))
  }

  lemma LoudnessRoundTrip(l: Loudness)
    ensures LoudnessOf(LoudnessFields(l)) == l
  {
    Uint16Bytes(LittleEndian, l.loudnessValue);
    Uint16Bytes(LittleEndian, l.loudnessRange);
    Uint16Bytes(LittleEndian, l.maxTruePeakLevel);
    Uint16Bytes(LittleEndian, l.maxMomentaryLoudness);
    Uint16Bytes(LittleEndian, l.maxShortTermLoudness);
  }

  lemma LoudnessFieldsOf(fs: seq<seq<byte>>)
    requires Fits(fs, LoudnessWidths) && fs[5] == Zeros(180)
    ensures LoudnessFields(LoudnessOf(fs)) == fs
  {
    BytesUint16(LittleEndian, fs[0]);
    BytesUint16(LittleEndian, fs[1]);
    BytesUint16(LittleEndian, fs[2]);
    BytesUint16(LittleEndian, fs[3]);
    BytesUint16(LittleEndian, fs[4]);
  }

  /** All loudness values zero: what versions 0 and 1 leave behind. */
  const NoLoudness: Loudness := Loudness(0, 0, 0, 0, 0)

  lemma NoLoudnessFields()
    ensures LoudnessFields(NoLoudness) == ZeroFields(LoudnessWidths)
  {
    assert BytesOf(LittleEndian, 0, 2) == Zeros(2) by {
      BytesUint16(LittleEndian, Zeros(2));
    }
  }

  /** The UMID a run of one-byte reads leaves behind. */
  function UmidOf(us: seq<seq<byte>>): Umid
    requires Fits(us, UmidWidths)
  {
    seq(64, k requires 0 <= k < 64 => us[k][0])
  }

  lemma UmidRoundTrip(u: Umid)
    ensures Fits(Units(u), UmidWidths) && UmidOf(Units(u)) == u
  {
  }

  /** The pieces of a full run of reads, one per part of the layout. */
  lemma BextFitsParts(fs: seq<seq<byte>>)
    requires Fits(fs, BextWidths)
    ensures Fits(fs[..7], OriginWidths) && |fs[7]| == 2 && Fits(fs[8..72], UmidWidths)
    ensures Fits(fs[72..], LoudnessWidths)
  {
    BextSizes();
    forall k | 0 <= k < 7
      ensures BextWidths[k] == OriginWidths[k]
    {
    }
    assert BextWidths[7] == 2;
    forall k | 8 <= k < 72
      ensures BextWidths[k] == 1
    {
    }
    forall k | 72 <= k < 78
      ensures BextWidths[k] == LoudnessWidths[k - 72]
    {
    }
  }

  /** The Bext a run of reads leaves behind, with the given coding history. */
  function BextOf(header: Header, fs: seq<seq<byte>>, history: seq<byte>): Bext
    requires Fits(fs, BextWidths)
  {
    BextFitsParts(fs);
    Bext(header, OriginOf(fs[..7]), Uint16Of(LittleEndian, fs[7]), UmidOf(fs[8..72]), LoudnessOf(fs[72..]),
         fs[77], history)
  }

  /** DecodeBextChunk: fewer than 8 bytes give no chunk; otherwise the
      little-endian header at start 0 and the fields in order, and, when
      all of them were read, every remaining byte as coding history. */
  function DecodeBextChunk(data: seq<byte>): (r: Decoded<Bext>)
    ensures r.chunk.None? <==> |data| < HeaderSizeBytes
    ensures r.chunk.None? ==> r.err == Some(ShortData(HeaderSizeBytes))
    ensures r.chunk.Some? ==> r.chunk.value.header == DecodeChunkHeader(data[..HeaderSizeBytes], 0, LittleEndian)
  {
    if |data| < HeaderSizeBytes then Decoded(None, Some(ShortData(HeaderSizeBytes)))
    else
      var header := DecodeChunkHeader(data[..HeaderSizeBytes], 0, LittleEndian);
      var buf := data[HeaderSizeBytes..];
      var read := ReadFields(buf, BextWidths);
      ReadFieldsSpec(buf, BextWidths);
      BextSizes();
      var history := if read.outcome == Complete then buf[BextDataSize..] else [];
      Decoded(Some(BextOf(header, read.fields, history)), Filtered(read.outcome))
  }

  /** The 254 bytes after the version as Bytes writes them: zeros for
      version 0 and for unknown versions, the UMID and zeros for version 1,
      the UMID, the loudness values and zeros for version 2. */
  function VersionArea(b: Bext): (r: seq<byte>)
    ensures |r| == 254
  {
    LoudnessOffsets();
    FlattenLength(LoudnessFields(b.loudness), LoudnessWidths);
    if b.version == 1 then b.umid + Zeros(190)
    else if b.version == 2 then b.umid + Flatten(LoudnessFields(b.loudness))
    else Zeros(254)
  }

  /** The 602-byte fixed region, followed by the coding history. */
  function BextData(b: Bext): (r: seq<byte>)
    ensures |r| == BextDataSize + |b.codingHistory|
  {
    OriginOffsets();
    FlattenLength(OriginFields(b.origin), OriginWidths);
    Flatten(OriginFields(b.origin)) + BytesOf(LittleEndian, b.version, 2) + VersionArea(b) + b.codingHistory
  }

  /** The header Bytes writes, and stores in the chunk in place of its own:
      id "bext", the size of the data without the pad byte (as a uint32),
      little-endian. */
  function WrittenHeader(b: Bext): (r: Header)
    ensures ID(r) == BextId && r.order == LittleEndian && r.startPos == 0
    ensures BextDataSize + |b.codingHistory| < TwoTo32 ==> r.size == BextDataSize + |b.codingHistory|
  {
    Strings.NoNulEndsUnchanged(BextId);
    var n := BextDataSize + |b.codingHistory|;
    assert n < TwoTo32 ==> Wrap32(n) == n by {
      if n < TwoTo32 {
        Wrap32Small(n);
      }
    }
    EncodeChunkHeader(BextId, Wrap32(BextDataSize + |b.codingHistory|), LittleEndian)
  }

  /** Bext.Bytes: the written header, the data, and a pad byte when the
      total is odd. */
  function BextBytes(b: Bext): (r: seq<byte>)
    ensures |r| % 2 == 0
    ensures |r| == PaddedSize(BextDataSize + |b.codingHistory|)
    ensures r[..HeaderSizeBytes] == Bytes(WrittenHeader(b))
  {
    PaddedChunk(Bytes(WrittenHeader(b)), BextData(b));
    Pad(Bytes(WrittenHeader(b)) + BextData(b))
  }

  /** Bext.Bytes as it runs on its receiver: the bytes, and the chunk the
      call leaves behind. The chunk's header becomes the one written, which
      the bytes start with; nothing else in the chunk changes, and the bytes
      are also those of the chunk as left, so a second call writes them
      again. */
  function WriteBext(b: Bext): (r: (seq<byte>, Bext))
    ensures r.1 == b.(header := r.1.header)
    ensures r.0 == BextBytes(r.1)
    ensures |r.0| >= HeaderSizeBytes
    ensures DecodeChunkHeader(r.0[..HeaderSizeBytes], 0, LittleEndian) == r.1.header
  {
    WrittenHeaderFirst(b);
    BextBytesIgnoresHeader(b, WrittenHeader(b));
    (BextBytes(b), b.(header := WrittenHeader(b)))
  }

  /** The bytes do not depend on the header the chunk held before. */
  lemma BextBytesIgnoresHeader(b: Bext, h: Header)
    ensures BextBytes(b.(header := h)) == BextBytes(b)
  {
    WrittenHeaderIgnoresHeader(b, h);
    BextDataIgnoresHeader(b, h);
  }

  lemma WrittenHeaderIgnoresHeader(b: Bext, h: Header)
    ensures WrittenHeader(b.(header := h)) == WrittenHeader(b)
  {
  }

  lemma BextDataIgnoresHeader(b: Bext, h: Header)
    ensures BextData(b.(header := h)) == BextData(b)
  {
    assert VersionArea(b.(header := h)) == VersionArea(b);
  }

  /** Bytes gives 8 + 602 bytes and the coding history, and one pad byte
      more when the history is odd-sized: at least 610 bytes. */
  lemma BextBytesLength(b: Bext)
    ensures |BextBytes(b)| == HeaderSizeBytes + BextDataSize + |b.codingHistory| + |b.codingHistory| % 2
  {
    EvenShift(BextDataSize, |b.codingHistory|);
  }

  lemma EvenShift(a: nat, n: nat)
    requires a % 2 == 0
    ensures (a + n) % 2 == n % 2
  {
  }

  /** The UMID and loudness values the version lets Bytes write. */
  function WrittenUmid(b: Bext): Umid {
    if b.version == 1 || b.version == 2 then b.umid else Zeros(64)
  }

  function WrittenLoudness(b: Bext): Loudness {
    if b.version == 2 then b.loudness else NoLoudness
  }

  /** The version area is what the field reads take for the UMID bytes, the
      loudness values and the reserve. */
  lemma VersionAreaParts(b: Bext)
    ensures VersionArea(b) == Flatten(Units(WrittenUmid(b))) + Flatten(LoudnessFields(WrittenLoudness(b)))
  {
    FlattenUnits(WrittenUmid(b));
    if b.version != 2 {
      NoLoudnessFields();
      FlattenZeroFields(LoudnessWidths);
      LoudnessOffsets();
      if b.version != 1 {
        assert Zeros(64) + Zeros(190) == Zeros(254);
      }
    }
  }

  /** The pieces of the fixed region, one per field read. */
  function WrittenPieces(b: Bext): (r: seq<seq<byte>>)
    ensures Fits(r, BextWidths)
  {
    FitsAppend(OriginFields(b.origin), OriginWidths, [BytesOf(LittleEndian, b.version, 2)], VersionWidths);
    UmidRoundTrip(WrittenUmid(b));
    FitsAppend(OriginFields(b.origin) + [BytesOf(LittleEndian, b.version, 2)], OriginWidths + VersionWidths,
               Units(WrittenUmid(b)), UmidWidths);
    FitsAppend(OriginFields(b.origin) + [BytesOf(LittleEndian, b.version, 2)] + Units(WrittenUmid(b)),
               OriginWidths + VersionWidths + UmidWidths, LoudnessFields(WrittenLoudness(b)), LoudnessWidths);
    OriginFields(b.origin) + [BytesOf(LittleEndian, b.version, 2)] + Units(WrittenUmid(b))
      + LoudnessFields(WrittenLoudness(b))
  }

  lemma BextDataPieces(b: Bext)
    ensures BextData(b) == Flatten(WrittenPieces(b)) + b.codingHistory
  {
    var v := BytesOf(LittleEndian, b.version, 2);
    FlattenFour(OriginFields(b.origin), v, Units(WrittenUmid(b)), LoudnessFields(WrittenLoudness(b)));
    VersionAreaParts(b);
  }

  lemma FlattenFour(o: seq<seq<byte>>, v: seq<byte>, u: seq<seq<byte>>, l: seq<seq<byte>>)
    ensures Flatten(o + [v] + u + l) == Flatten(o) + v + Flatten(u) + Flatten(l)
  {
    FlattenAppend(o + [v] + u, l);
    FlattenAppend(o + [v], u);
    FlattenAppend(o, [v]);
    assert Flatten([v]) == v + Flatten([]);
  }

  /** The bytes of b: the written header, then the field pieces, then the
      coding history padded to even length. */
  lemma BextBytesParts(b: Bext)
    ensures BextBytes(b) == Bytes(WrittenHeader(b)) + Flatten(WrittenPieces(b)) + Pad(b.codingHistory)
  {
    BextDataPieces(b);
    BextSizes();
    FlattenLength(WrittenPieces(b), BextWidths);
    PadParts(Bytes(WrittenHeader(b)), BextData(b), Flatten(WrittenPieces(b)), b.codingHistory);
  }

  lemma PadParts(h8: seq<byte>, data: seq<byte>, fixed: seq<byte>, history: seq<byte>)
    requires |h8| == 8 && |fixed| == 602 && data == fixed + history
    ensures Pad(h8 + data) == h8 + fixed + Pad(history)
  {
    assert h8 + data == (h8 + fixed) + history;
    PadAfterEven(h8 + fixed, history);
  }

  /** Decoding a little-endian header at start 0, a full set of field
      pieces and any tail reads every piece and keeps the tail as the
      coding history. */
  lemma DecodeBextOfParts(h: Header, pieces: seq<seq<byte>>, tail: seq<byte>)
    requires h.startPos == 0 && h.order == LittleEndian
    requires Fits(pieces, BextWidths)
    ensures DecodeBextChunk(Bytes(h) + Flatten(pieces) + tail) == Decoded(Some(BextOf(h, pieces, tail)), None)
  {
    var data := Bytes(h) + Flatten(pieces) + tail;
    var buf := Flatten(pieces) + tail;
    assert data == Bytes(h) + buf;
    HeadOfConcat(Bytes(h), buf);
    ReadFlatten(pieces, BextWidths, tail);
    DecodeOfBytes(h);
    BextSizes();
    FlattenLength(pieces, BextWidths);
    HeadOfConcat(Flatten(pieces), tail);
  }

  lemma HeadOfConcat(a: seq<byte>, b: seq<byte>)
    ensures (a + b)[..|a|] == a && (a + b)[|a|..] == b
  {
  }

  /** Reading the pieces back gives the parts they were written from. */
  lemma BextOfPieces(header: Header, b: Bext, history: seq<byte>)
    ensures BextOf(header, WrittenPieces(b), history)
      == Bext(header, b.origin, b.version, WrittenUmid(b), WrittenLoudness(b), Zeros(180), history)
  {
    var fs := WrittenPieces(b);
    var o := OriginFields(b.origin);
    var v := [BytesOf(LittleEndian, b.version, 2)];
    var u := Units(WrittenUmid(b));
    var l := LoudnessFields(WrittenLoudness(b));
    assert fs[..7] == o;
    assert fs[7] == v[0];
    assert fs[8..72] == u;
    assert fs[72..] == l;
    OriginRoundTrip(b.origin);
    Uint16Bytes(LittleEndian, b.version);
    UmidRoundTrip(WrittenUmid(b));
    LoudnessRoundTrip(WrittenLoudness(b));
  }

  /** Decoding the bytes of b gives back the written header, the origin and
      the version; the UMID and the loudness values only as far as the
      version writes them, zero otherwise; a zero reserve; and the coding
      history with the pad byte, when there is one, appended. */
  lemma DecodeOfBextBytes(b: Bext)
    ensures DecodeBextChunk(BextBytes(b))
      == Decoded(Some(Bext(WrittenHeader(b), b.origin, b.version,
                           if b.version == 1 || b.version == 2 then b.umid else Zeros(64),
                           if b.version == 2 then b.loudness else NoLoudness,
                           Zeros(180), Pad(b.codingHistory))), None)
  {
    BextBytesParts(b);
    DecodeBextOfParts(WrittenHeader(b), WrittenPieces(b), Pad(b.codingHistory));
    BextOfPieces(WrittenHeader(b), b, Pad(b.codingHistory));
  }

  /** The bytes of b region by region: header, origin fields, version,
      the version-dependent area and the padded coding history. */
  lemma BextBytesRegions(b: Bext)
    ensures BextBytes(b) == Bytes(WrittenHeader(b)) + Flatten(OriginFields(b.origin))
      + BytesOf(LittleEndian, b.version, 2) + VersionArea(b) + Pad(b.codingHistory)
  {
    var h8 := Bytes(WrittenHeader(b));
    var f := Flatten(OriginFields(b.origin));
    var v := BytesOf(LittleEndian, b.version, 2);
    var a := VersionArea(b);
    OriginOffsets();
    FlattenLength(OriginFields(b.origin), OriginWidths);
    assert BextData(b) == f + v + a + b.codingHistory;
    PadRegions(h8, f, v, a, b.codingHistory);
  }

  lemma PadRegions(h8: seq<byte>, f: seq<byte>, v: seq<byte>, a: seq<byte>, history: seq<byte>)
    requires |h8| == 8 && |f| == 346 && |v| == 2 && |a| == 254
    ensures Pad(h8 + (f + v + a + history)) == h8 + f + v + a + Pad(history)
  {
    assert h8 + (f + v + a + history) == (h8 + f + v + a) + history;
    PadAfterEven(h8 + f + v + a, history);
  }

  lemma Regions(a: seq<byte>, b: seq<byte>, c: seq<byte>, d: seq<byte>, e: seq<byte>)
    ensures (a + b + c + d + e)[|a|..|a| + |b|] == b
    ensures (a + b + c + d + e)[|a| + |b|..|a| + |b| + |c|] == c
    ensures (a + b + c + d + e)[|a| + |b| + |c|..|a| + |b| + |c| + |d|] == d
    ensures (a + b + c + d + e)[|a| + |b| + |c| + |d|..] == e
  {
    var x := a + b + c + d + e;
    assert x == a + (b + (c + (d + e)));
  }

  /** Where the origin fields lie once their flattened bytes sit at base. */
  lemma OriginLayout(s: seq<byte>, base: nat, o: Origin)
    requires base + 346 <= |s| && s[base..base + 346] == Flatten(OriginFields(o))
    ensures s[base..base + 256] == o.description
    ensures s[base + 256..base + 288] == o.originator
    ensures s[base + 288..base + 320] == o.originatorReference
    ensures s[base + 320..base + 330] == o.originationDate
    ensures s[base + 330..base + 338] == o.originationTime
    ensures s[base + 338..base + 342] == BytesOf(LittleEndian, o.timeReferenceLow, 4)
    ensures s[base + 342..base + 346] == BytesOf(LittleEndian, o.timeReferenceHigh, 4)
  {
    var fs := OriginFields(o);
    OriginOffsets();
    FlattenAt(fs, OriginWidths, 0);
    SubSlice(s, base, base + 346, 0, 256);
    FlattenAt(fs, OriginWidths, 1);
    SubSlice(s, base, base + 346, 256, 288);
    FlattenAt(fs, OriginWidths, 2);
    SubSlice(s, base, base + 346, 288, 320);
    FlattenAt(fs, OriginWidths, 3);
    SubSlice(s, base, base + 346, 320, 330);
    FlattenAt(fs, OriginWidths, 4);
    SubSlice(s, base, base + 346, 330, 338);
    FlattenAt(fs, OriginWidths, 5);
    SubSlice(s, base, base + 346, 338, 342);
    FlattenAt(fs, OriginWidths, 6);
    SubSlice(s, base, base + 346, 342, 346);
  }

  /** Where the loudness values and the reserve lie once their flattened
      bytes sit at base. */
  lemma LoudnessLayout(s: seq<byte>, base: nat, l: Loudness)
    requires base + 190 <= |s| && s[base..base + 190] == Flatten(LoudnessFields(l))
    ensures s[base..base + 2] == BytesOf(LittleEndian, l.loudnessValue, 2)
    ensures s[base + 2..base + 4] == BytesOf(LittleEndian, l.loudnessRange, 2)
    ensures s[base + 4..base + 6] == BytesOf(LittleEndian, l.maxTruePeakLevel, 2)
    ensures s[base + 6..base + 8] == BytesOf(LittleEndian, l.maxMomentaryLoudness, 2)
    ensures s[base + 8..base + 10] == BytesOf(LittleEndian, l.maxShortTermLoudness, 2)
    ensures s[base + 10..base + 190] == Zeros(180)
  {
    var fs := LoudnessFields(l);
    LoudnessOffsets();
    FlattenAt(fs, LoudnessWidths, 0);
    SubSlice(s, base, base + 190, 0, 2);
    FlattenAt(fs, LoudnessWidths, 1);
    SubSlice(s, base, base + 190, 2, 4);
    FlattenAt(fs, LoudnessWidths, 2);
    SubSlice(s, base, base + 190, 4, 6);
    FlattenAt(fs, LoudnessWidths, 3);
    SubSlice(s, base, base + 190, 6, 8);
    FlattenAt(fs, LoudnessWidths, 4);
    SubSlice(s, base, base + 190, 8, 10);
    FlattenAt(fs, LoudnessWidths, 5);
    SubSlice(s, base, base + 190, 10, 190);
  }

  /** The fixed layout Bytes writes, as offsets into the whole chunk (the
      payload offset plus the 8 header bytes): the origin fields, the two
      time reference halves, the version at payload 346, and the coding
      history, padded, from payload 602 on. */
  lemma BextLayout(b: Bext)
    ensures |BextBytes(b)| >= 610
    ensures BextBytes(b)[8..264] == b.origin.description
    ensures BextBytes(b)[264..296] == b.origin.originator
    ensures BextBytes(b)[296..328] == b.origin.originatorReference
    ensures BextBytes(b)[328..338] == b.origin.originationDate
    ensures BextBytes(b)[338..346] == b.origin.originationTime
    ensures BextBytes(b)[346..350] == BytesOf(LittleEndian, b.origin.timeReferenceLow, 4)
    ensures BextBytes(b)[350..354] == BytesOf(LittleEndian, b.origin.timeReferenceHigh, 4)
    ensures BextBytes(b)[354..356] == BytesOf(LittleEndian, b.version, 2)
    ensures BextBytes(b)[610..] == Pad(b.codingHistory)
  {
    var r := BextBytes(b);
    var f := Flatten(OriginFields(b.origin));
    BextBytesRegions(b);
    OriginOffsets();
    FlattenLength(OriginFields(b.origin), OriginWidths);
    Regions(Bytes(WrittenHeader(b)), f, BytesOf(LittleEndian, b.version, 2), VersionArea(b), Pad(b.codingHistory));
    OriginLayout(r, 8, b.origin);
  }

  /** The region after the version, by version: zeros for version 0 and for
      unknown versions; the UMID and zeros for version 1; the UMID, the five
      loudness values little-endian and 180 zeros for version 2. */
  lemma VersionLayout(b: Bext)
    ensures |BextBytes(b)| >= 610
    ensures b.version != 1 && b.version != 2 ==> BextBytes(b)[356..610] == Zeros(254)
    ensures b.version == 1 ==> BextBytes(b)[356..420] == b.umid && BextBytes(b)[420..610] == Zeros(190)
    ensures b.version == 2 ==> BextBytes(b)[356..420] == b.umid
    ensures b.version == 2 ==> BextBytes(b)[420..422] == BytesOf(LittleEndian, b.loudness.loudnessValue, 2)
    ensures b.version == 2 ==> BextBytes(b)[422..424] == BytesOf(LittleEndian, b.loudness.loudnessRange, 2)
    ensures b.version == 2 ==> BextBytes(b)[424..426] == BytesOf(LittleEndian, b.loudness.maxTruePeakLevel, 2)
    ensures b.version == 2 ==> BextBytes(b)[426..428] == BytesOf(LittleEndian, b.loudness.maxMomentaryLoudness, 2)
    ensures b.version == 2 ==> BextBytes(b)[428..430] == BytesOf(LittleEndian, b.loudness.maxShortTermLoudness, 2)
    ensures b.version == 2 ==> BextBytes(b)[430..610] == Zeros(180)
  {
    var r := BextBytes(b);
    VersionAreaAt(b);
    if b.version == 1 {
      VersionAreaSplit(r, VersionArea(b), b.umid, Zeros(190));
    } else if b.version == 2 {
      VersionAreaSplit(r, VersionArea(b), b.umid, Flatten(LoudnessFields(b.loudness)));
      LoudnessLayout(r, 420, b.loudness);
    }
  }

  lemma VersionAreaSplit(r: seq<byte>, area: seq<byte>, umid: seq<byte>, rest: seq<byte>)
    requires |r| >= 610 && r[356..610] == area && area == umid + rest && |umid| == 64
    ensures r[356..420] == umid && r[420..610] == rest
  {
    SubSlice(r, 356, 610, 0, 64);
    SubSlice(r, 356, 610, 64, 254);
  }

  /** The version area sits at chunk offsets 356..610. */
  lemma VersionAreaAt(b: Bext)
    ensures |BextBytes(b)| >= 610 && BextBytes(b)[356..610] == VersionArea(b)
  {
    var f := Flatten(OriginFields(b.origin));
    BextBytesRegions(b);
    OriginOffsets();
    FlattenLength(OriginFields(b.origin), OriginWidths);
    Regions(Bytes(WrittenHeader(b)), f, BytesOf(LittleEndian, b.version, 2), VersionArea(b), Pad(b.codingHistory));
  }

  /** Bytes writes its own header: id "bext", the data size without the pad
      byte (as a uint32), little-endian. */
  lemma BextBytesHeader(b: Bext)
    ensures |BextBytes(b)| >= HeaderSizeBytes
    ensures var h := DecodeChunkHeader(BextBytes(b)[..HeaderSizeBytes], 0, LittleEndian);
      && BytesOf(BigEndian, h.id, IdSizeBytes) == BextId
      && h.size == Wrap32(BextDataSize + |b.codingHistory|)
  {
    WrittenHeaderFirst(b);
    WrittenHeaderFields(b);
  }

  lemma WrittenHeaderFields(b: Bext)
    ensures BytesOf(BigEndian, WrittenHeader(b).id, IdSizeBytes) == BextId
    ensures WrittenHeader(b).size == Wrap32(BextDataSize + |b.codingHistory|)
  {
  }

  lemma WrittenHeaderFirst(b: Bext)
    ensures |BextBytes(b)| >= HeaderSizeBytes
    ensures DecodeChunkHeader(BextBytes(b)[..HeaderSizeBytes], 0, LittleEndian) == WrittenHeader(b)
  {
    var wh := WrittenHeader(b);
    PadPrefix(Bytes(wh), BextData(b));
    DecodeOfBytes(wh);
  }

  /** A header and its data, padded, take the padded room of the data. */
  lemma PaddedChunk(h8: seq<byte>, data: seq<byte>)
    requires |h8| == HeaderSizeBytes
    ensures |Pad(h8 + data)| == PaddedSize(|data|)
    ensures Pad(h8 + data)[..HeaderSizeBytes] == h8
  {
    PadPrefix(h8, data);
    EvenShift(HeaderSizeBytes, |data|);
  }

  lemma PadPrefix(h8: seq<byte>, data: seq<byte>)
    requires |h8| == HeaderSizeBytes
    ensures |Pad(h8 + data)| >= HeaderSizeBytes && Pad(h8 + data)[..HeaderSizeBytes] == h8
  {
    assert Pad(h8 + data)[..HeaderSizeBytes] == (h8 + data)[..|h8 + data|][..HeaderSizeBytes];
  }

  /** Unless the size wraps, the chunk is the 8 header bytes, size bytes
      and the pad byte an odd size needs: the pad byte is not counted. */
  lemma BextSizeExcludesPad(b: Bext)
    requires BextDataSize + |b.codingHistory| < TwoTo32
    ensures |BextBytes(b)| >= HeaderSizeBytes
    ensures var h := DecodeChunkHeader(BextBytes(b)[..HeaderSizeBytes], 0, LittleEndian);
      |BextBytes(b)| == HeaderSizeBytes + h.size + h.size % 2
  {
    BextBytesHeader(b);
    Wrap32Small(BextDataSize + |b.codingHistory|);
    PadNotCounted(b);
  }

  lemma PadNotCounted(b: Bext)
    ensures |BextBytes(b)| == HeaderSizeBytes + (BextDataSize + |b.codingHistory|)
      + (BextDataSize + |b.codingHistory|) % 2
  {
    EvenShift(BextDataSize, |b.codingHistory|);
    BextBytesLength(b);
  }

  /** DecodeBextChunk on 8 or more bytes always yields a chunk. It fails,
      with UnexpectedEOF, exactly when the payload is shorter than the fixed
      region and ends inside a field; the coding history is every byte
      after the fixed region, and empty when the region is incomplete. */
  lemma DecodeBextErrors(data: seq<byte>)
    requires |data| >= HeaderSizeBytes
    ensures DecodeBextChunk(data).chunk.Some?
    ensures DecodeBextChunk(data).err.Some? <==> |data| < 610 && !BextBoundary(|data| - HeaderSizeBytes)
    ensures DecodeBextChunk(data).err.Some? ==> DecodeBextChunk(data).err == Some(UnexpectedEOF)
    ensures DecodeBextChunk(data).chunk.value.codingHistory == if |data| >= 610 then data[610..] else []
  {
    ReadFieldsSpec(data[HeaderSizeBytes..], BextWidths);
    BextSizes();
    BextBoundaries(|data| - HeaderSizeBytes);
  }

  /** Where the decoder finds every field once the fixed region is
      complete, as offsets into the whole chunk (the payload offset plus the
      8 header bytes): the origin texts and the two time reference halves,
      the version at 354, the UMID at 356 and the five loudness values from
      420 whatever the version, the reserve at 430 and, from 610 on, the
      coding history; the read reports no error. */
  lemma DecodeBextFields(data: seq<byte>)
    requires |data| >= 610
    ensures DecodeBextChunk(data).chunk.Some? && DecodeBextChunk(data).err.None?
    ensures var o := DecodeBextChunk(data).chunk.value.origin;
      && o.description == data[8..264]
      && o.originator == data[264..296]
      && o.originatorReference == data[296..328]
      && o.originationDate == data[328..338]
      && o.originationTime == data[338..346]
      && o.timeReferenceLow == Uint32Of(LittleEndian, data[346..350])
      && o.timeReferenceHigh == Uint32Of(LittleEndian, data[350..354])
    ensures var b := DecodeBextChunk(data).chunk.value;
      && b.version == Uint16Of(LittleEndian, data[354..356])
      && b.umid == data[356..420]
      && b.reserved == data[430..610]
      && b.codingHistory == data[610..]
    ensures var l := DecodeBextChunk(data).chunk.value.loudness;
      && l.loudnessValue == Uint16Of(LittleEndian, data[420..422])
      && l.loudnessRange == Uint16Of(LittleEndian, data[422..424])
      && l.maxTruePeakLevel == Uint16Of(LittleEndian, data[424..426])
      && l.maxMomentaryLoudness == Uint16Of(LittleEndian, data[426..428])
      && l.maxShortTermLoudness == Uint16Of(LittleEndian, data[428..430])
  {
    var fs := ReadFields(data[HeaderSizeBytes..], BextWidths).fields;
    DecodeBextErrors(data);
    DecodedBextOf(data);
    CoveredParts(data, fs);
    OriginFieldsOf(fs[..7]);
    OriginLayout(data, 8, OriginOf(fs[..7]));
    UmidFlatten(fs[8..72]);
    LoudnessReadLayout(data, 420, fs[72..]);
  }

  /** On a complete fixed region the decoded chunk holds the fields of the
      run of reads and the coding history after them. */
  lemma DecodedBextOf(data: seq<byte>)
    requires |data| >= 610
    ensures Fits(ReadFields(data[HeaderSizeBytes..], BextWidths).fields, BextWidths)
    ensures var b := DecodeBextChunk(data).chunk.value;
      b == BextOf(b.header, ReadFields(data[HeaderSizeBytes..], BextWidths).fields, data[610..])
  {
    ReadFieldsSpec(data[HeaderSizeBytes..], BextWidths);
    BextSizes();
  }

  /** The fields of a read covering the fixed region, by part of the
      layout: the origin at chunk offset 8, the version at 354, the UMID at
      356, the loudness values and the reserve at 420. */
  lemma CoveredParts(data: seq<byte>, fs: seq<seq<byte>>)
    requires |data| >= 610 && fs == ReadFields(data[HeaderSizeBytes..], BextWidths).fields
    ensures Fits(fs, BextWidths) && Fits(fs[..7], OriginWidths) && |fs[7]| == 2
    ensures Fits(fs[8..72], UmidWidths) && Fits(fs[72..], LoudnessWidths)
    ensures data[8..354] == Flatten(fs[..7]) && data[354..356] == fs[7]
    ensures data[356..420] == Flatten(fs[8..72]) && data[420..610] == Flatten(fs[72..])
  {
    CoveredFlatten(data, fs);
    BextFitsParts(fs);
    OriginOffsets();
    FlattenLength(fs[..7], OriginWidths);
    OffsetOnes(64, 64);
    FlattenLength(fs[8..72], UmidWidths);
    LoudnessOffsets();
    FlattenLength(fs[72..], LoudnessWidths);
    FourParts(data, 8, Flatten(fs[..7]), fs[7], Flatten(fs[8..72]), Flatten(fs[72..]));
  }

  /** The fields of a read covering the fixed region, laid end to end,
      are the chunk's bytes 8..610, part by part. */
  lemma CoveredFlatten(data: seq<byte>, fs: seq<seq<byte>>)
    requires |data| >= 610 && fs == ReadFields(data[HeaderSizeBytes..], BextWidths).fields
    ensures Fits(fs, BextWidths) && |fs| == 78
    ensures data[8..610] == Flatten(fs[..7]) + fs[7] + Flatten(fs[8..72]) + Flatten(fs[72..])
  {
    var buf := data[HeaderSizeBytes..];
    BextSizes();
    ReadFieldsCovered(buf, BextWidths);
    assert buf[..BextDataSize] == data[8..610];
    assert fs == fs[..7] + [fs[7]] + fs[8..72] + fs[72..];
    FlattenFour(fs[..7], fs[7], fs[8..72], fs[72..]);
  }

  /** Four consecutive parts of the bytes from base on. */
  lemma FourParts(s: seq<byte>, base: nat, a: seq<byte>, b: seq<byte>, c: seq<byte>, d: seq<byte>)
    requires base + |a| + |b| + |c| + |d| <= |s|
    requires s[base..base + |a| + |b| + |c| + |d|] == a + b + c + d
    ensures s[base..base + |a|] == a
    ensures s[base + |a|..base + |a| + |b|] == b
    ensures s[base + |a| + |b|..base + |a| + |b| + |c|] == c
    ensures s[base + |a| + |b| + |c|..base + |a| + |b| + |c| + |d|] == d
  {
    var n := |a| + |b| + |c| + |d|;
    ConcatParts(a, b, c, d);
    SubSlice(s, base, base + n, 0, |a|);
    SubSlice(s, base, base + n, |a|, |a| + |b|);
    SubSlice(s, base, base + n, |a| + |b|, |a| + |b| + |c|);
    SubSlice(s, base, base + n, |a| + |b| + |c|, n);
  }

  lemma ConcatParts(a: seq<byte>, b: seq<byte>, c: seq<byte>, d: seq<byte>)
    ensures (a + b + c + d)[..|a|] == a
    ensures (a + b + c + d)[|a|..|a| + |b|] == b
    ensures (a + b + c + d)[|a| + |b|..|a| + |b| + |c|] == c
    ensures (a + b + c + d)[|a| + |b| + |c|..] == d
  {
    assert a + b + c + d == a + (b + (c + d));
  }

  /** One-byte reads laid end to end are the UMID they make up. */
  lemma UmidFlatten(us: seq<seq<byte>>)
    requires Fits(us, UmidWidths)
    ensures Flatten(us) == UmidOf(us)
  {
    forall k | 0 <= k < 64
      ensures us[k] == [UmidOf(us)[k]]
    {
      assert |us[k]| == 1;
    }
    assert us == Units(UmidOf(us));
    FlattenUnits(UmidOf(us));
  }

  /** Where the loudness values and the reserve of a run of reads lie once
      their bytes sit at base. */
  lemma LoudnessReadLayout(s: seq<byte>, base: nat, fs: seq<seq<byte>>)
    requires Fits(fs, LoudnessWidths)
    requires base + 190 <= |s| && s[base..base + 190] == Flatten(fs)
    ensures s[base..base + 2] == fs[0] && s[base + 2..base + 4] == fs[1] && s[base + 4..base + 6] == fs[2]
    ensures s[base + 6..base + 8] == fs[3] && s[base + 8..base + 10] == fs[4]
    ensures s[base + 10..base + 190] == fs[5]
  {
    LoudnessOffsets();
    FlattenAt(fs, LoudnessWidths, 0);
    SubSlice(s, base, base + 190, 0, 2);
    FlattenAt(fs, LoudnessWidths, 1);
    SubSlice(s, base, base + 190, 2, 4);
    FlattenAt(fs, LoudnessWidths, 2);
    SubSlice(s, base, base + 190, 4, 6);
    FlattenAt(fs, LoudnessWidths, 3);
    SubSlice(s, base, base + 190, 6, 8);
    FlattenAt(fs, LoudnessWidths, 4);
    SubSlice(s, base, base + 190, 8, 10);
    FlattenAt(fs, LoudnessWidths, 5);
    SubSlice(s, base, base + 190, 10, 190);
  }

  /** TimeReference: timeReferenceLow shifted up by 32 bits plus
      timeReferenceHigh, so the field named low holds the high half. */
  function TimeReference(b: Bext): (r: uint64)
    ensures r / TwoTo32 == b.origin.timeReferenceLow
    ensures r % TwoTo32 == b.origin.timeReferenceHigh
  {
    TimeReferenceBound(b.origin.timeReferenceLow, b.origin.timeReferenceHigh);
    b.origin.timeReferenceLow * TwoTo32 + b.origin.timeReferenceHigh
  }

  lemma TimeReferenceBound(low: uint32, high: uint32)
    ensures low * TwoTo32 + high < TwoTo32 * TwoTo32
    ensures (low * TwoTo32 + high) / TwoTo32 == low && (low * TwoTo32 + high) % TwoTo32 == high
  {
    assert low * TwoTo32 <= (TwoTo32 - 1) * TwoTo32;
  }

  /** SetTimeReference: the top 32 bits into timeReferenceLow, the bottom
      32 bits into timeReferenceHigh; nothing else changes. */
  function SetTimeReference(b: Bext, value: uint64): (r: Bext)
    ensures r.origin.timeReferenceLow * TwoTo32 + r.origin.timeReferenceHigh == value
    ensures r == b.(origin := b.origin.(timeReferenceLow := r.origin.timeReferenceLow,
                                        timeReferenceHigh := r.origin.timeReferenceHigh))
  {
    b.(origin := b.origin.(timeReferenceLow := value / TwoTo32, timeReferenceHigh := value % TwoTo32))
  }

  /** Setting a time reference and reading it back, either way round. */
  lemma TimeReferenceRoundTrip(b: Bext, value: uint64)
    ensures TimeReference(SetTimeReference(b, value)) == value
    ensures SetTimeReference(b, TimeReference(b)) == b
  {
    var r := SetTimeReference(b, value);
    TimeReferenceBound(r.origin.timeReferenceLow, r.origin.timeReferenceHigh);
  }

  /** In the bytes, the high 32 bits of a time reference come first (at
      payload offset 338) and the low 32 bits second, both little-endian. */
  lemma TimeReferenceBytes(b: Bext, value: uint64)
    ensures |BextBytes(SetTimeReference(b, value))| >= 610
    ensures BextBytes(SetTimeReference(b, value))[346..350] == BytesOf(LittleEndian, value / TwoTo32, 4)
    ensures BextBytes(SetTimeReference(b, value))[350..354] == BytesOf(LittleEndian, value % TwoTo32, 4)
  {
    BextLayout(SetTimeReference(b, value));
  }

  /** SetUMID: all 64 bytes replaced; nothing else changes. */
  function SetUmid(b: Bext, value: Umid): (r: Bext)
    ensures r.umid == value && r.(umid := b.umid) == b
  {
    b.(umid := value)
  }

  /** A UMID set on a version 1 or 2 chunk survives Bytes and decoding; on
      any other version it reads back as zeros. */
  lemma UmidThroughBytes(b: Bext, value: Umid)
    ensures DecodeBextChunk(BextBytes(SetUmid(b, value))).chunk.Some?
    ensures DecodeBextChunk(BextBytes(SetUmid(b, value))).chunk.value.umid
      == if b.version == 1 || b.version == 2 then value else Zeros(64)
  {
    DecodeOfBextBytes(SetUmid(b, value));
  }

  /** A zeroed field of n bytes with value copied to its front: the value
      when it fits, followed by zeros; its first n bytes otherwise. */
  lemma CopyIntoParts(n: nat, value: seq<byte>)
    ensures |value| <= n ==> CopyInto(n, value)[..|value|] == value && CopyInto(n, value)[|value|..] == Zeros(n - |value|)
    ensures |value| > n ==> CopyInto(n, value) == value[..n]
  {
  }

  /** SetDescription, SetOriginator, SetOriginatorReference: the field is
      zeroed and the terminated value copied in. The terminate helper is
      not part of this model, so its result is the parameter. */
  function SetDescription(b: Bext, terminated: seq<byte>): (r: Bext)
    ensures r.origin.description == CopyInto(256, terminated)
    ensures r == b.(origin := b.origin.(description := r.origin.description))
  {
    b.(origin := b.origin.(description := CopyInto(256, terminated)))
  }

  function SetOriginator(b: Bext, terminated: seq<byte>): (r: Bext)
    ensures r.origin.originator == CopyInto(32, terminated)
    ensures r == b.(origin := b.origin.(originator := r.origin.originator))
  {
    b.(origin := b.origin.(originator := CopyInto(32, terminated)))
  }

  function SetOriginatorReference(b: Bext, terminated: seq<byte>): (r: Bext)
    ensures r.origin.originatorReference == CopyInto(32, terminated)
    ensures r == b.(origin := b.origin.(originatorReference := r.origin.originatorReference))
  {
    b.(origin := b.origin.(originatorReference := CopyInto(32, terminated)))
  }

  /** SetOriginationDate, SetOriginationTime: the field is zeroed and the
      value copied in, cut to 10 and 8 bytes. */
  function SetOriginationDate(b: Bext, value: seq<byte>): (r: Bext)
    ensures r.origin.originationDate == CopyInto(10, value)
    ensures r == b.(origin := b.origin.(originationDate := r.origin.originationDate))
  {
    b.(origin := b.origin.(originationDate := CopyInto(10, value)))
  }

  function SetOriginationTime(b: Bext, value: seq<byte>): (r: Bext)
    ensures r.origin.originationTime == CopyInto(8, value)
    ensures r == b.(origin := b.origin.(originationTime := r.origin.originationTime))
  {
    b.(origin := b.origin.(originationTime := CopyInto(8, value)))
  }

  /** A date set and written reads back: a 10-byte date exactly, a shorter
      one followed by zeros, a longer one cut to its first 10 bytes. */
  lemma OriginationDateThroughBytes(b: Bext, value: seq<byte>)
    ensures DecodeBextChunk(BextBytes(SetOriginationDate(b, value))).chunk.Some?
    ensures var d := DecodeBextChunk(BextBytes(SetOriginationDate(b, value))).chunk.value.origin.originationDate;
      && (|value| <= 10 ==> d[..|value|] == value && d[|value|..] == Zeros(10 - |value|))
      && (|value| > 10 ==> d == value[..10])
  {
    DecodeOfBextBytes(SetOriginationDate(b, value));
    CopyIntoParts(10, value);
  }
}

=== FILE: binary.dfy ===
/** Fixed-width unsigned integers and their byte encodings, the part of Go's
    encoding/binary the chunk library relies on. Integers are unbounded here;
    every width is an explicit subset type and every wrap-around is written
    out by the caller with `%`. */
module Binary {

  type byte = x: int | 0 <= x < 0x100
  type uint16 = x: int | 0 <= x < 0x1_0000
  type uint32 = x: int | 0 <= x < 0x1_0000_0000
  type uint64 = x: int | 0 <= x < 0x1_0000_0000_0000_0000

  const TwoTo16: nat := 0x1_0000
  const TwoTo32: nat := 0x1_0000_0000

  /** Go's uint32 arithmetic: the value modulo 2^32. */
  function Wrap32(x: int): uint32 {
    x % 0x1_0000_0000
  }

  /** Go's uint16 arithmetic: the value modulo 2^16. */
  function Wrap16(x: int): uint16 {
    x % 0x1_0000
  }

  type int16 = x: int | -0x8000 <= x < 0x8000

  /** int16(u): the two's-complement reading of a uint16; uint16 of the
      result gives u back. */
  function Int16Of(u: uint16): (r: int16)
    ensures Wrap16(r) == u
    ensures r < 0 <==> u >= 0x8000
  {
    if u < 0x8000 then u else u - 0x1_0000
  }

  /** uint16(x) keeps the bits of an int16: reading them back gives x. */
  lemma Int16RoundTrip(x: int16)
    ensures Int16Of(Wrap16(x)) == x
  {
  }

  /** binary.LittleEndian or binary.BigEndian. */
  datatype ByteOrder = LittleEndian | BigEndian

  function Pow256(n: nat): (r: nat)
    ensures r >= 1
  {
    if n == 0 then 1 else 256 * Pow256(n - 1)
  }

  /** n zero bytes: the zero value of a Go byte array. */
  function Zeros(n: nat): (r: seq<byte>)
    ensures |r| == n
    ensures forall i | 0 <= i < n :: r[i] == 0
  {
    seq(n, _ => 0)
  }

  /** The number the bytes spell with the first byte most significant. */
  function BigEndianValue(s: seq<byte>): (r: nat)
    ensures r < Pow256(|s|)
  {
    if |s| == 0 then 0
    else
      var init := BigEndianValue(s[..|s| - 1]);
      assert init * 256 + s[|s| - 1] < Pow256(|s|) by {
        assert init <= Pow256(|s| - 1) - 1;
        assert init * 256 <= (Pow256(|s| - 1) - 1) * 256;
      }
      init * 256 + s[|s| - 1]
  }

  /** The number the bytes spell with the first byte least significant. */
  function LittleEndianValue(s: seq<byte>): (r: nat)
    ensures r < Pow256(|s|)
  {
    if |s| == 0 then 0
    else
      var tail := LittleEndianValue(s[1..]);
      assert s[0] + 256 * tail < Pow256(|s|) by {
        assert tail <= Pow256(|s| - 1) - 1;
        assert 256 * tail <= 256 * (Pow256(|s| - 1) - 1);
      }
      s[0] + 256 * tail
  }

  /** The low n bytes of x, most significant first (PutUint* of BigEndian). */
  function BigEndianBytes(x: nat, n: nat): (r: seq<byte>)
    ensures |r| == n
  {
    if n == 0 then [] else BigEndianBytes(x / 256, n - 1) + [x % 256]
  }

  /** The low n bytes of x, least significant first (PutUint* of LittleEndian). */
  function LittleEndianBytes(x: nat, n: nat): (r: seq<byte>)
    ensures |r| == n
  {
    if n == 0 then [] else [x % 256] + LittleEndianBytes(x / 256, n - 1)
  }

  lemma {:induction false} BigEndianValueOfBytes(x: nat, n: nat)
    requires x < Pow256(n)
    ensures BigEndianValue(BigEndianBytes(x, n)) == x
  {
    if n > 0 {
      var q := x / 256;
      assert x == q * 256 + x % 256;
      assert q < Pow256(n - 1);
      var s := BigEndianBytes(x, n);
      assert s == BigEndianBytes(q, n - 1) + [x % 256];
      assert s[..n - 1] == BigEndianBytes(q, n - 1);
      BigEndianValueOfBytes(q, n - 1);
      assert BigEndianValue(s) == BigEndianValue(s[..n - 1]) * 256 + s[n - 1];
    }
  }

  lemma {:induction false} BigEndianBytesOfValue(s: seq<byte>)
    ensures BigEndianBytes(BigEndianValue(s), |s|) == s
  {
    if |s| > 0 {
      var v := BigEndianValue(s);
      var init := s[..|s| - 1];
      assert v / 256 == BigEndianValue(init);
      assert v % 256 == s[|s| - 1];
      BigEndianBytesOfValue(init);
      assert s == init + [s[|s| - 1]];
    }
  }

  lemma {:induction false} LittleEndianValueOfBytes(x: nat, n: nat)
    requires x < Pow256(n)
    ensures LittleEndianValue(LittleEndianBytes(x, n)) == x
  {
    if n > 0 {
      var q := x / 256;
      assert x == q * 256 + x % 256;
      assert q < Pow256(n - 1);
      var s := LittleEndianBytes(x, n);
      assert s == [x % 256] + LittleEndianBytes(q, n - 1);
      assert s[1..] == LittleEndianBytes(q, n - 1);
      LittleEndianValueOfBytes(q, n - 1);
      assert LittleEndianValue(s) == s[0] + 256 * LittleEndianValue(s[1..]);
    }
  }

  lemma {:induction false} LittleEndianBytesOfValue(s: seq<byte>)
    ensures LittleEndianBytes(LittleEndianValue(s), |s|) == s
  {
    if |s| > 0 {
      var v := LittleEndianValue(s);
      assert v / 256 == LittleEndianValue(s[1..]);
      assert v % 256 == s[0];
      LittleEndianBytesOfValue(s[1..]);
      assert s == [s[0]] + s[1..];
    }
  }

  /** The value of a byte sequence read in the given order (Uint16/Uint32/Uint64). */
  function ValueOf(order: ByteOrder, s: seq<byte>): (r: nat)
    ensures r < Pow256(|s|)
  {
    match order
    case BigEndian => BigEndianValue(s)
    case LittleEndian => LittleEndianValue(s)
  }

  /** The n-byte encoding of x in the given order (PutUint16/PutUint32/PutUint64). */
  function BytesOf(order: ByteOrder, x: nat, n: nat): (r: seq<byte>)
    ensures |r| == n
  {
    match order
    case BigEndian => BigEndianBytes(x, n)
    case LittleEndian => LittleEndianBytes(x, n)
  }

  /** Writing a value that fits and reading it back in the same order gives
      the value; reading bytes and writing the value back gives the bytes. */
  lemma ValueOfBytesOf(order: ByteOrder, x: nat, n: nat)
    requires x < Pow256(n)
    ensures ValueOf(order, BytesOf(order, x, n)) == x
  {
    match order
    case BigEndian => BigEndianValueOfBytes(x, n);
    case LittleEndian => LittleEndianValueOfBytes(x, n);
  }

  lemma BytesOfValueOf(order: ByteOrder, s: seq<byte>)
    ensures BytesOf(order, ValueOf(order, s), |s|) == s
  {
    match order
    case BigEndian => BigEndianBytesOfValue(s);
    case LittleEndian => LittleEndianBytesOfValue(s);
  }

  lemma Pow256Widths()
    ensures Pow256(1) == 0x100
    ensures Pow256(2) == 0x1_0000
    ensures Pow256(4) == 0x1_0000_0000
    ensures Pow256(8) == 0x1_0000_0000_0000_0000
  {
  }

  /** binary.ByteOrder.Uint16: two bytes read in the given order. */
  function Uint16Of(order: ByteOrder, s: seq<byte>): uint16
    requires |s| == 2
  {
    match order
    case BigEndian => s[0] as int * 0x100 + s[1] as int
    case LittleEndian => s[0] as int + s[1] as int * 0x100
  }

  /** binary.ByteOrder.Uint32: four bytes read in the given order. */
  function Uint32Of(order: ByteOrder, s: seq<byte>): uint32
    requires |s| == 4
  {
    match order
    case BigEndian => s[0] as int * 0x100_0000 + s[1] as int * 0x1_0000 + s[2] as int * 0x100 + s[3] as int
    case LittleEndian => s[0] as int + s[1] as int * 0x100 + s[2] as int * 0x1_0000 + s[3] as int * 0x100_0000
  }

  /** binary.ByteOrder.Uint64: eight bytes read in the given order. */
  function Uint64Of(order: ByteOrder, s: seq<byte>): uint64
    requires |s| == 8
  {
    match order
    case BigEndian =>
      s[0] as int * 0x100_0000_0000_0000 + s[1] as int * 0x1_0000_0000_0000 + s[2] as int * 0x100_0000_0000
      + s[3] as int * 0x1_0000_0000 + s[4] as int * 0x100_0000 + s[5] as int * 0x1_0000
      + s[6] as int * 0x100 + s[7] as int
    case LittleEndian =>
      s[0] as int + s[1] as int * 0x100 + s[2] as int * 0x1_0000 + s[3] as int * 0x100_0000
      + s[4] as int * 0x1_0000_0000 + s[5] as int * 0x100_0000_0000 + s[6] as int * 0x1_0000_0000_0000
      + s[7] as int * 0x100_0000_0000_0000
  }

  lemma BigEndianValuePrefix(s: seq<byte>, k: nat)
    requires k < |s|
    ensures BigEndianValue(s[..k + 1]) == BigEndianValue(s[..k]) * 256 + s[k]
  {
    assert s[..k + 1][..k] == s[..k];
  }

  lemma LittleEndianValueSuffix(s: seq<byte>, k: nat)
    requires k < |s|
    ensures LittleEndianValue(s[k..]) == s[k] + 256 * LittleEndianValue(s[k + 1..])
  {
    assert s[k..][1..] == s[k + 1..];
  }

  /** The fixed-width readers agree with the general byte-order value. */
  lemma FixedWidthValues(order: ByteOrder, s: seq<byte>)
    ensures |s| == 2 ==> Uint16Of(order, s) == ValueOf(order, s)
    ensures |s| == 4 ==> Uint32Of(order, s) == ValueOf(order, s)
    ensures |s| == 8 ==> Uint64Of(order, s) == ValueOf(order, s)
  {
    if |s| == 2 || |s| == 4 || |s| == 8 {
      match order
      case BigEndian => BigEndianWidths(s);
      case LittleEndian => LittleEndianWidths(s);
    }
  }

  lemma BigEndianWidths(s: seq<byte>)
    requires |s| == 2 || |s| == 4 || |s| == 8
    ensures |s| == 2 ==> Uint16Of(BigEndian, s) == BigEndianValue(s)
    ensures |s| == 4 ==> Uint32Of(BigEndian, s) == BigEndianValue(s)
    ensures |s| == 8 ==> Uint64Of(BigEndian, s) == BigEndianValue(s)
  {
    assert s[..0] == [];
    assert s[..|s|] == s;
    BigEndianValuePrefix(s, 0);
    BigEndianValuePrefix(s, 1);
    if |s| > 2 {
      BigEndianValuePrefix(s, 2);
      BigEndianValuePrefix(s, 3);
    }
    if |s| > 4 {
      BigEndianValuePrefix(s, 4);
      BigEndianValuePrefix(s, 5);
      BigEndianValuePrefix(s, 6);
      BigEndianValuePrefix(s, 7);
    }
  }

  lemma LittleEndianWidths(s: seq<byte>)
    requires |s| == 2 || |s| == 4 || |s| == 8
    ensures |s| == 2 ==> Uint16Of(LittleEndian, s) == LittleEndianValue(s)
    ensures |s| == 4 ==> Uint32Of(LittleEndian, s) == LittleEndianValue(s)
    ensures |s| == 8 ==> Uint64Of(LittleEndian, s) == LittleEndianValue(s)
  {
    assert s[|s|..] == [];
    assert s[0..] == s;
    LittleEndianValueSuffix(s, 0);
    LittleEndianValueSuffix(s, 1);
    if |s| > 2 {
      LittleEndianValueSuffix(s, 2);
      LittleEndianValueSuffix(s, 3);
    }
    if |s| > 4 {
      LittleEndianValueSuffix(s, 4);
      LittleEndianValueSuffix(s, 5);
      LittleEndianValueSuffix(s, 6);
      LittleEndianValueSuffix(s, 7);
    }
  }

  /** PutUint16/PutUint32/PutUint64 followed by Uint16/Uint32/Uint64 in the
      same order gives the value back, and the other way round the bytes. */
  lemma Uint16Bytes(order: ByteOrder, x: uint16)
    ensures Uint16Of(order, BytesOf(order, x, 2)) == x
  {
    Pow256Widths();
    ValueOfBytesOf(order, x, 2);
    FixedWidthValues(order, BytesOf(order, x, 2));
  }

  lemma Uint32Bytes(order: ByteOrder, x: uint32)
    ensures Uint32Of(order, BytesOf(order, x, 4)) == x
  {
    Pow256Widths();
    ValueOfBytesOf(order, x, 4);
    FixedWidthValues(order, BytesOf(order, x, 4));
  }

  lemma Uint64Bytes(order: ByteOrder, x: uint64)
    ensures Uint64Of(order, BytesOf(order, x, 8)) == x
  {
    Pow256Widths();
    ValueOfBytesOf(order, x, 8);
    FixedWidthValues(order, BytesOf(order, x, 8));
  }

  lemma BytesUint16(order: ByteOrder, s: seq<byte>)
    requires |s| == 2
    ensures BytesOf(order, Uint16Of(order, s), 2) == s
  {
    FixedWidthValues(order, s);
    BytesOfValueOf(order, s);
  }

  lemma BytesUint32(order: ByteOrder, s: seq<byte>)
    requires |s| == 4
    ensures BytesOf(order, Uint32Of(order, s), 4) == s
  {
    FixedWidthValues(order, s);
    BytesOfValueOf(order, s);
  }

  lemma BytesUint64(order: ByteOrder, s: seq<byte>)
    requires |s| == 8
    ensures BytesOf(order, Uint64Of(order, s), 8) == s
  {
    FixedWidthValues(order, s);
    BytesOfValueOf(order, s);
  }

  /** Adding after a wrap-around is the same as wrapping once at the end. */
  lemma Wrap32Add(a: int, b: int)
    ensures Wrap32(Wrap32(a) + b) == Wrap32(a + b)
  {
  }

  /** 2^32 is even, so wrapping keeps the parity. */
  lemma Wrap32Parity(x: int)
    ensures Wrap32(x) % 2 == x % 2
  {
    var q := x / 0x1_0000_0000;
    assert x == q * 0x1_0000_0000 + Wrap32(x);
    assert q * 0x1_0000_0000 == 2 * (q * 0x8000_0000);
  }

  lemma Wrap32Small(x: int)
    requires 0 <= x < TwoTo32
    ensures Wrap32(x) == x
  {
  }

  lemma Wrap32Period(a: int)
    ensures Wrap32(a - 0x1_0000_0000) == Wrap32(a)
  {
  }

  /** The first bytes of src copied into a zeroed buffer of length n:
      Go's copy(dst, src) into a freshly made or freshly zeroed array. */
  function CopyInto(n: nat, src: seq<byte>): (r: seq<byte>)
    ensures |r| == n
    ensures forall i | 0 <= i < n :: r[i] == (if i < |src| then src[i] else 0)
  {
    if |src| >= n then src[..n] else src + Zeros(n - |src|)
  }
}

=== FILE: comm.dfy ===
/** The AIFF common chunk COMM (comm.go): a big-endian chunk header, then
    channel count, sample frame count, sample size, the sample rate as an
    80-bit extended float, the compression type and, optionally, a
    compression name stored as a length byte, the name and a pad byte
    that makes the field even-sized. */
module CommChunks {
  import opened Binary
  import opened Errors
  import opened FourCCs
  import opened Constants
  import opened ChunkHeaders
  import opened Fields
  import opened Strings
  import opened Extended

  /** A decoded or encoded COMM. The compression name is a Go slice: nil
      (None) and empty (Some([])) are different values. */
  datatype Comm = Comm(header: Header, numChannels: int16, numSampleFrames: uint32, sampleSize: int16,
                       sampleRate: Extended80, compressionType: FourCC, compressionName: Option<seq<byte>>)

  /** Widths of the fixed payload fields: channels, sample frames, sample
      size, sample rate and compression type. */
  const FixedWidths: seq<nat> := [2, 4, 2, 10, 4]

  /** The fields DecodeCOMMChunk reads in one run: the fixed ones and the
      one-byte length of the compression name. */
  const CommWidths: seq<nat> := [2, 4, 2, 10, 4, 1]

  const FixedPayloadSize: nat := 22

  /** Size of a COMM without compression name: header plus fixed payload. */
  const CommBytesSize: nat := HeaderSizeBytes + FixedPayloadSize

  /** The longest name the length byte can describe. */
  const MaxNameLength: nat := 255

  lemma CommOffsets()
    ensures CommWidths == FixedWidths + [1]
    ensures Offset(CommWidths, 1) == 2 && Offset(CommWidths, 2) == 6 && Offset(CommWidths, 3) == 8
    ensures Offset(CommWidths, 4) == 18 && Offset(CommWidths, 5) == 22 && Offset(CommWidths, 6) == 23
    ensures Size(CommWidths) == FixedPayloadSize + 1 && Size(FixedWidths) == FixedPayloadSize
  {
    OffsetStep(CommWidths, 0);
    OffsetStep(CommWidths, 1);
    OffsetStep(CommWidths, 2);
    OffsetStep(CommWidths, 3);
    OffsetStep(CommWidths, 4);
    OffsetStep(CommWidths, 5);
    OffsetStep(FixedWidths, 0);
    OffsetStep(FixedWidths, 1);
    OffsetStep(FixedWidths, 2);
    OffsetStep(FixedWidths, 3);
    OffsetStep(FixedWidths, 4);
  }

  /** A payload length ends the read exactly at a field boundary when it is
      one of the field offsets. */
  lemma CommBoundaries(n: nat)
    ensures AtBoundary(CommWidths, n) <==> n in {0, 2, 6, 8, 18, 22, 23}
  {
    CommOffsets();
    if n in {0, 2, 6, 8, 18, 22, 23} {
      var j := if n == 0 then 0 else if n == 2 then 1 else if n == 6 then 2 else if n == 8 then 3
        else if n == 18 then 4 else if n == 22 then 5 else 6;
      assert Offset(CommWidths, j) == n;
    }
  }

  /** SampleRate: the sample rate converted to an integer by the
      conversion as written; a rate stored by the encoder reads back as the
      integer it was made from. */
  function SampleRate(c: Comm): (r: nat)
    ensures forall v: uint64 :: c.sampleRate == IeeeOf(v) ==> r == v
  {
    forall v: uint64 | c.sampleRate == IeeeOf(v)
      ensures ExtendedToIntAsWritten(c.sampleRate) == v
    {
      ExtendedRoundTrip(v);
    }
    ExtendedToIntAsWritten(c.sampleRate)
  }

  /** CompressionType: the type with its NULs trimmed. */
  function CompressionType(c: Comm): (r: seq<byte>)
    ensures |r| <= 4
  {
    TrimNullChars(c.compressionType)
  }

  /** CompressionName: the name, "" when it is nil; a present name always
      fits in the room its field gets. */
  function CompressionName(c: Comm): (r: seq<byte>)
    ensures c.compressionName.None? ==> r == []
    ensures c.compressionName.Some? ==> |r| < NameFieldSize(c.compressionName)
  {
    match c.compressionName
    case None => []
    case Some(name) => name
  }

  /** cNameSize: no room for a nil name; otherwise a length byte, the name
      and a pad byte when the name is even-sized, so the field is even. */
  function NameFieldSize(name: Option<seq<byte>>): (r: nat)
    ensures name.None? ==> r == 0
    ensures name.Some? ==> r % 2 == 0 && |name.value| < r <= |name.value| + 2
  {
    match name
    case None => 0
    case Some(n) => 1 + |n| + (if |n| % 2 == 0 then 1 else 0)
  }

  /** The fixed payload fields, big-endian, the signed values as their
      uint16 bit patterns, the compression type trimmed and then copied
      into four zero bytes. */
  function FixedFields(c: Comm): (r: seq<seq<byte>>)
    ensures Fits(r, FixedWidths)
  {
    [BytesOf(BigEndian, Wrap16(c.numChannels), 2), BytesOf(BigEndian, c.numSampleFrames, 4),
     BytesOf(BigEndian, Wrap16(c.sampleSize), 2), c.sampleRate, CopyInto(4, CompressionType(c))]
  }

  function FixedPayload(c: Comm): (r: seq<byte>)
    ensures |r| == FixedPayloadSize
  {
    FlattenLength(FixedFields(c), FixedWidths);
    CommOffsets();
    Flatten(FixedFields(c))
  }

  /** COMM.Bytes as written: the name field gets its room, but the name is
      copied to its start, where the length byte belongs, and the length
      is never written. */
  function CommBytesAsWritten(c: Comm): (r: seq<byte>)
    ensures |r| == CommBytesSize + NameFieldSize(c.compressionName)
    ensures |r| % 2 == 0 && r[..HeaderSizeBytes] == Bytes(c.header)
  {
    Bytes(c.header) + FixedPayload(c) + CopyInto(NameFieldSize(c.compressionName), CompressionName(c))
  }

  /** The bytes as written start with the header and hold the name where
      the length byte belongs. */
  lemma CommBytesAsWrittenLayout(c: Comm)
    ensures var r := CommBytesAsWritten(c);
      && r[..HeaderSizeBytes] == Bytes(c.header)
      && (c.compressionName.Some? ==>
           r[CommBytesSize..CommBytesSize + |c.compressionName.value|] == c.compressionName.value)
  {
    var r := CommBytesAsWritten(c);
    var field := CopyInto(NameFieldSize(c.compressionName), CompressionName(c));
    assert r[CommBytesSize..] == field;
  }

  /** The compression name field as the format lays it out: the length as
      a byte (uint8 conversion), the name, and a pad byte when needed. */
  function NameField(name: Option<seq<byte>>): (r: seq<byte>)
    ensures |r| == NameFieldSize(name)
    ensures name.Some? ==> r[0] == |name.value| % 256 && r[1..1 + |name.value|] == name.value
    ensures name.Some? ==> forall i | 1 + |name.value| <= i < |r| :: r[i] == 0
  {
    match name
    case None => []
    case Some(n) =>
      var r := Pad([|n| % 256] + n);
      assert r[..1 + |n|] == [|n| % 256] + n;
      assert r[1..1 + |n|] == r[..1 + |n|][1..];
      r
  }

  /** COMM.Bytes as intended: header, fixed payload, then the name field
      with its length byte. */
  function CommBytes(c: Comm): (r: seq<byte>)
    ensures |r| == CommBytesSize + NameFieldSize(c.compressionName)
    ensures |r| % 2 == 0 && r[..HeaderSizeBytes] == Bytes(c.header)
  {
    Bytes(c.header) + FixedPayload(c) + NameField(c.compressionName)
  }

  /** The intended bytes are always even-sized, start with the header and
      hold the name's length and then the name after the fixed payload. */
  lemma CommBytesLayout(c: Comm)
    ensures var r := CommBytes(c);
      && |r| % 2 == 0
      && r[..HeaderSizeBytes] == Bytes(c.header)
      && (c.compressionName.Some? ==> r[CommBytesSize] == |c.compressionName.value| % 256)
      && (c.compressionName.Some? ==>
           r[CommBytesSize + 1..CommBytesSize + 1 + |c.compressionName.value|] == c.compressionName.value)
  {
    var r := CommBytes(c);
    var field := NameField(c.compressionName);
    assert r[CommBytesSize..] == field;
  }

  /** The COMM that a complete or partial run of field reads leaves behind,
      with the given name. */
  function CommOf(header: Header, fs: seq<seq<byte>>, name: Option<seq<byte>>): Comm
    requires Fits(fs, CommWidths)
  {
    Comm(header, Int16Of(Uint16Of(BigEndian, fs[0])), Uint32Of(BigEndian, fs[1]),
         Int16Of(Uint16Of(BigEndian, fs[2])), fs[3], fs[4], name)
  }

  /** DecodeCOMMChunk: fewer than 8 bytes give no chunk; otherwise the
      big-endian header at start 0 and the fields, and then, when all of
      them were read, a name of the length the last field gives. */
  function DecodeCommChunk(data: seq<byte>): (r: Decoded<Comm>)
    ensures r.chunk.None? <==> |data| < HeaderSizeBytes
    ensures r.chunk.None? ==> r.err == Some(ShortData(HeaderSizeBytes))
    ensures r.chunk.Some? ==> r.chunk.value.header == DecodeChunkHeader(data[..HeaderSizeBytes], 0, BigEndian)
  {
    if |data| < HeaderSizeBytes then Decoded(None, Some(ShortData(HeaderSizeBytes)))
    else
      var header := DecodeChunkHeader(data[..HeaderSizeBytes], 0, BigEndian);
      var buf := data[HeaderSizeBytes..];
      var read := ReadFields(buf, CommWidths);
      ReadFieldsSpec(buf, CommWidths);
      var c := CommOf(header, read.fields, None);
      if read.outcome != Complete then Decoded(Some(c), Filtered(read.outcome))
      else
        CommOffsets();
        var n := read.fields[5][0];
        var rest := buf[FixedPayloadSize + 1..];
        // a zero-length read succeeds, and appending nothing to nil leaves nil
        if n == 0 then Decoded(Some(c), None)
        // nothing left: io.EOF, filtered
        else if |rest| == 0 then Decoded(Some(c), None)
        else if |rest| < n then Decoded(Some(c), Some(UnexpectedEOF))
        else Decoded(Some(c.(compressionName := Some(rest[..n]))), None)
  }

  /** The fields a read of the COMM layout leaves: each one's bytes when
      the payload covers it, its zero value otherwise. */
  lemma CommFieldsOf(buf: seq<byte>)
    ensures var fs := ReadFields(buf, CommWidths).fields;
      && fs[0] == (if |buf| >= 2 then buf[0..2] else Zeros(2))
      && fs[1] == (if |buf| >= 6 then buf[2..6] else Zeros(4))
      && fs[2] == (if |buf| >= 8 then buf[6..8] else Zeros(2))
      && fs[3] == (if |buf| >= 18 then buf[8..18] else Zeros(10))
      && fs[4] == (if |buf| >= 22 then buf[18..22] else Zeros(4))
      && fs[5] == (if |buf| >= 23 then buf[22..23] else Zeros(1))
  {
    CommFieldsRead(buf);
    CommOffsets();
    FieldAtIn(buf, 0, 0, 2);
    FieldAtIn(buf, 1, 2, 6);
    FieldAtIn(buf, 2, 6, 8);
    FieldAtIn(buf, 3, 8, 18);
    FieldAtIn(buf, 4, 18, 22);
    FieldAtIn(buf, 5, 22, 23);
  }

  lemma CommFieldsRead(buf: seq<byte>)
    ensures forall k | 0 <= k < 6 :: ReadFields(buf, CommWidths).fields[k] == FieldAt(buf, CommWidths, k)
  {
    ReadFieldsSpec(buf, CommWidths);
  }

  /** Field k of the COMM layout, which ends at the given offset. */
  lemma FieldAtIn(buf: seq<byte>, k: nat, start: nat, end: nat)
    requires k < 6 && Offset(CommWidths, k) == start && start + CommWidths[k] == end
    ensures FieldAt(buf, CommWidths, k) == if |buf| >= end then buf[start..end] else Zeros(CommWidths[k])
  {
    OffsetStep(CommWidths, k);
  }

  /** The decoder fails, with io.ErrUnexpectedEOF, exactly when the data
      ends inside a fixed field or the length byte, or inside a name that
      has begun. Data ending at a field boundary is no error. */
  lemma DecodeCommErrors(data: seq<byte>)
    requires |data| >= HeaderSizeBytes
    ensures var r := DecodeCommChunk(data);
      r.err.Some? <==> (HeaderSizeBytes < |data| < CommBytesSize + 1 && |data| - HeaderSizeBytes !in {2, 6, 8, 18, 22})
                       || (CommBytesSize + 1 < |data| && |data| < CommBytesSize + 1 + data[CommBytesSize])
    ensures DecodeCommChunk(data).err.Some? ==> DecodeCommChunk(data).err == Some(UnexpectedEOF)
  {
    var buf := data[HeaderSizeBytes..];
    CommOffsets();
    CommBoundaries(|buf|);
    ReadFieldsSpec(buf, CommWidths);
    if |buf| >= FixedPayloadSize + 1 {
      CommFieldsOf(buf);
      assert buf[22..23][0] == data[CommBytesSize];
    }
  }

  /** The decoded name: present exactly when the length byte is positive and
      the whole name follows it, and then it is the bytes after the length. */
  lemma DecodeCommName(data: seq<byte>)
    requires |data| >= HeaderSizeBytes
    ensures var c := DecodeCommChunk(data).chunk.value;
      c.compressionName.Some? <==>
        (|data| > CommBytesSize && data[CommBytesSize] > 0 && |data| >= CommBytesSize + 1 + data[CommBytesSize])
    ensures var c := DecodeCommChunk(data).chunk.value;
      c.compressionName.Some? ==>
        c.compressionName.value == data[CommBytesSize + 1..CommBytesSize + 1 + data[CommBytesSize]]
  {
    var buf := data[HeaderSizeBytes..];
    CommOffsets();
    ReadFieldsSpec(buf, CommWidths);
    if |buf| >= FixedPayloadSize + 1 {
      CommFieldsOf(buf);
      assert buf[22..23][0] == data[CommBytesSize];
      assert buf[FixedPayloadSize + 1..] == data[CommBytesSize + 1..];
    }
  }

  /** Each fixed field is the big-endian value of its bytes when the data
      covers it, and zero when the data ends before it. */
  lemma DecodeCommFields(data: seq<byte>)
    requires |data| >= HeaderSizeBytes
    ensures var c := DecodeCommChunk(data).chunk.value;
      && c.numChannels == (if |data| >= 10 then Int16Of(Uint16Of(BigEndian, data[8..10])) else 0)
      && c.numSampleFrames == (if |data| >= 14 then Uint32Of(BigEndian, data[10..14]) else 0)
      && c.sampleSize == (if |data| >= 16 then Int16Of(Uint16Of(BigEndian, data[14..16])) else 0)
      && c.sampleRate == (if |data| >= 26 then data[16..26] else Zeros(10))
      && c.compressionType == (if |data| >= 30 then data[26..30] else Zeros(4))
  {
    DecodedCommOf(data);
    CommFieldsOf(data[HeaderSizeBytes..]);
    if |data| >= 10 { TailSlice(data, 8, 0, 2); }
    if |data| >= 14 { TailSlice(data, 8, 2, 6); }
    if |data| >= 16 { TailSlice(data, 8, 6, 8); }
    if |data| >= 26 { TailSlice(data, 8, 8, 18); }
    if |data| >= 30 { TailSlice(data, 8, 18, 22); }
  }

  /** The decoded chunk holds the fields of the run of reads, whatever
      became of the name. */
  lemma DecodedCommOf(data: seq<byte>)
    requires |data| >= HeaderSizeBytes
    ensures var c := DecodeCommChunk(data).chunk.value;
      c == CommOf(c.header, ReadFields(data[HeaderSizeBytes..], CommWidths).fields, c.compressionName)
  {
  }

  /** Writing the compression type trimmed into four zero bytes keeps it
      exactly when it does not start with a NUL or is all NULs. */
  lemma CompressionTypeKept(ct: FourCC)
    ensures CopyInto(4, TrimNullChars(ct)) == ct <==> (ct[0] != 0 || ct == [0, 0, 0, 0])
  {
    var t := TrimNullChars(ct);
    if ct[0] != 0 {
      assert LeadingNuls(ct) == 0;
      assert CopyInto(4, t) == ct;
    } else if ct == [0, 0, 0, 0] {
      AllNulTrimsToEmpty(ct);
    } else {
      AllNulTrimsToEmpty(ct);
      assert t[0] != 0;
      assert CopyInto(4, t)[0] != ct[0];
    }
  }

  /** The fixed fields of c read back through CommOf give c's values. */
  lemma FixedFieldsRead(c: Comm, len: seq<byte>)
    requires |len| == 1 && (c.compressionType[0] != 0 || c.compressionType == [0, 0, 0, 0])
    ensures CommOf(c.header, FixedFields(c) + [len], c.compressionName) == c
  {
    var fs := FixedFields(c) + [len];
    CompressionTypeKept(c.compressionType);
    Uint16Bytes(BigEndian, Wrap16(c.numChannels));
    Uint32Bytes(BigEndian, c.numSampleFrames);
    Uint16Bytes(BigEndian, Wrap16(c.sampleSize));
    Int16RoundTrip(c.numChannels);
    Int16RoundTrip(c.sampleSize);
    assert fs[..5] == FixedFields(c);
  }

  /** Decoding the intended bytes of a big-endian COMM at start 0 gives it
      back without error, when its compression type does not start with a
      NUL and its name fits the length byte; an empty name comes back nil. */
  lemma DecodeOfCommBytes(c: Comm)
    requires c.header.startPos == 0 && c.header.order == BigEndian
    requires c.compressionType[0] != 0 || c.compressionType == [0, 0, 0, 0]
    requires c.compressionName.Some? ==> |c.compressionName.value| <= MaxNameLength
    ensures DecodeCommChunk(CommBytes(c))
      == Decoded(Some(c.(compressionName := if c.compressionName == Some([]) then None else c.compressionName)), None)
  {
    if c.compressionName.None? {
      DecodeOfCommBytesNoName(c);
    } else {
      DecodeOfCommBytesNamed(c);
    }
  }

  /** The bytes of c split into the header, the fixed payload and the name
      field. */
  lemma CommBytesParts(c: Comm)
    ensures var b := CommBytes(c);
      b[..HeaderSizeBytes] == Bytes(c.header)
      && b[HeaderSizeBytes..] == Flatten(FixedFields(c)) + NameField(c.compressionName)
  {
  }

  lemma DecodeOfCommBytesNoName(c: Comm)
    requires c.header.startPos == 0 && c.header.order == BigEndian
    requires c.compressionType[0] != 0 || c.compressionType == [0, 0, 0, 0]
    requires c.compressionName.None?
    ensures DecodeCommChunk(CommBytes(c)) == Decoded(Some(c), None)
  {
    NoNamePayload(c);
    CommBytesParts(c);
    DecodeOfBytes(c.header);
    FixedFieldsRead(c, Zeros(1));
  }

  /** The payload of an unnamed COMM read as fields: the fixed fields, and
      io.EOF where the length byte would be. */
  lemma NoNamePayload(c: Comm)
    requires c.compressionName.None?
    ensures ReadFields(CommBytes(c)[HeaderSizeBytes..], CommWidths) == FieldRead(FixedFields(c) + [Zeros(1)], EndOfData)
  {
    var b := CommBytes(c);
    assert b[HeaderSizeBytes..] == Flatten(FixedFields(c)) by {
      CommBytesParts(c);
      assert NameField(c.compressionName) == [];
      assert Flatten(FixedFields(c)) + [] == Flatten(FixedFields(c));
    }
    FixedFieldsThenEnd(FixedFields(c));
  }

  lemma FixedFieldsThenEnd(fs: seq<seq<byte>>)
    requires Fits(fs, FixedWidths)
    ensures ReadFields(Flatten(fs), CommWidths) == FieldRead(fs + [Zeros(1)], EndOfData)
  {
    CommOffsets();
    ReadFlattenEndOne(fs, FixedWidths, 1);
  }

  lemma DecodeOfCommBytesNamed(c: Comm)
    requires c.header.startPos == 0 && c.header.order == BigEndian
    requires c.compressionType[0] != 0 || c.compressionType == [0, 0, 0, 0]
    requires c.compressionName.Some? && |c.compressionName.value| <= MaxNameLength
    ensures DecodeCommChunk(CommBytes(c))
      == Decoded(Some(c.(compressionName := if c.compressionName == Some([]) then None else c.compressionName)), None)
  {
    var d := c.(compressionName := if c.compressionName == Some([]) then None else c.compressionName);
    NamedDecode(c);
    DecodeOfBytes(c.header);
    FixedFieldsRead(d, [|c.compressionName.value| % 256]);
  }

  /** The decoder's view of a named COMM: the header, the fixed fields and
      the length byte, and the name when it is not empty. */
  lemma NamedDecode(c: Comm)
    requires c.compressionName.Some? && |c.compressionName.value| <= MaxNameLength
    ensures var name := c.compressionName.value;
      DecodeCommChunk(CommBytes(c))
      == Decoded(Some(CommOf(DecodeChunkHeader(Bytes(c.header), 0, BigEndian), FixedFields(c) + [[|name| % 256]],
                             if |name| == 0 then None else Some(name))), None)
  {
    NamedPayload(c);
    DecodedCommHeader(c);
  }

  /** The payload of a named COMM read as fields: the fixed fields and the
      length byte, with the name right behind them. */
  lemma NamedPayload(c: Comm)
    requires c.compressionName.Some?
    ensures var name := c.compressionName.value;
      var rest := CommBytes(c)[HeaderSizeBytes..][FixedPayloadSize + 1..];
      && ReadFields(CommBytes(c)[HeaderSizeBytes..], CommWidths) == FieldRead(FixedFields(c) + [[|name| % 256]], Complete)
      && |rest| >= |name| && rest[..|name|] == name
  {
    var name := c.compressionName.value;
    var len := [|name| % 256];
    var field := NameField(c.compressionName);
    CommBytesParts(c);
    NameFieldSplit(name);
    FlattenAppend(FixedFields(c), [len]);
    assert Flatten([len]) == len;
    CommOffsets();
    FlattenLength(FixedFields(c), FixedWidths);
    var buf := CommBytes(c)[HeaderSizeBytes..];
    assert buf == Flatten(FixedFields(c) + [len]) + field[1..];
    ReadFlatten(FixedFields(c) + [len], CommWidths, field[1..]);
    assert buf[FixedPayloadSize + 1..] == field[1..];
  }

  lemma NameFieldSplit(name: seq<byte>)
    ensures var field := NameField(Some(name));
      field == [|name| % 256] + field[1..] && field[1..][..|name|] == name
  {
  }

  /** EncodeCOMMChunk as written: a little-endian header, and a name cut to
      1 << 8 = 256 bytes, one more than the length byte can describe. */
  function EncodeCommChunkAsWritten(id: FourCC, size: uint32, numChannels: int16, numSampleFrames: uint32,
                                    sampleSize: int16, sampleRate: uint64, compressionType: FourCC,
                                    compressionName: seq<byte>): (r: Comm)
    ensures r.header == EncodeChunkHeader(id, size, LittleEndian)
    ensures r.numChannels == numChannels && r.numSampleFrames == numSampleFrames && r.sampleSize == sampleSize
    ensures SampleRate(r) == sampleRate
    ensures r.compressionType == compressionType
    ensures r.compressionName.Some?
    ensures |compressionName| <= 256 ==> r.compressionName.value == compressionName
    ensures |compressionName| > 256 ==> r.compressionName.value == compressionName[..256]
  {
    ExtendedRoundTrip(sampleRate);
    var name := if |compressionName| > 256 then compressionName[..256] else compressionName;
    Comm(EncodeChunkHeader(id, size, LittleEndian), numChannels, numSampleFrames, sampleSize,
         IeeeOf(sampleRate), compressionType, Some(name))
  }

  /** EncodeCOMMChunk as intended: a big-endian header, as everywhere in
      AIFF, and a name cut to the 255 bytes the length byte can describe. */
  function EncodeCommChunk(id: FourCC, size: uint32, numChannels: int16, numSampleFrames: uint32,
                           sampleSize: int16, sampleRate: uint64, compressionType: FourCC,
                           compressionName: seq<byte>): (r: Comm)
    ensures r.header == EncodeChunkHeader(id, size, BigEndian)
    ensures r.numChannels == numChannels && r.numSampleFrames == numSampleFrames && r.sampleSize == sampleSize
    ensures SampleRate(r) == sampleRate
    ensures r.compressionType == compressionType && CompressionType(r) == TrimNullChars(compressionType)
    ensures r.compressionName.Some?
    ensures |compressionName| <= MaxNameLength ==> r.compressionName.value == compressionName
    ensures |compressionName| > MaxNameLength ==> r.compressionName.value == compressionName[..MaxNameLength]
  {
    ExtendedRoundTrip(sampleRate);
    var name := if |compressionName| > MaxNameLength then compressionName[..MaxNameLength] else compressionName;
    Comm(EncodeChunkHeader(id, size, BigEndian), numChannels, numSampleFrames, sampleSize,
         IeeeOf(sampleRate), compressionType, Some(name))
  }

  /** Encoding, writing and decoding gives back every argument: the header,
      the counts, the sample rate, the trimmed compression type and the
      name, cut to 255 bytes. */
  lemma EncodeDecodeComm(id: FourCC, size: uint32, numChannels: int16, numSampleFrames: uint32,
                         sampleSize: int16, sampleRate: uint64, compressionType: FourCC,
                         compressionName: seq<byte>)
    ensures var c := EncodeCommChunk(id, size, numChannels, numSampleFrames, sampleSize, sampleRate,
                                     compressionType, compressionName);
      var d := DecodeCommChunk(CommBytes(c));
      d.err.None? && d.chunk.Some?
      && d.chunk.value.header == EncodeChunkHeader(id, size, BigEndian)
      && d.chunk.value.numChannels == numChannels && d.chunk.value.numSampleFrames == numSampleFrames
      && d.chunk.value.sampleSize == sampleSize && SampleRate(d.chunk.value) == sampleRate
      && CompressionType(d.chunk.value) == TrimNullChars(compressionType)
      && CompressionName(d.chunk.value)
         == (if |compressionName| > MaxNameLength then compressionName[..MaxNameLength] else compressionName)
  {
    var c := EncodeCommChunk(id, size, numChannels, numSampleFrames, sampleSize, sampleRate,
                             compressionType, compressionName);
    var c' := TrimmedType(c);
    TrimmedTypeBytes(c);
    DecodeOfCommBytes(c');
  }

  /** The chunk with its compression type replaced by the one Bytes
      writes: the trimmed type, padded with NULs to four bytes. */
  function TrimmedType(c: Comm): (r: Comm)
    ensures r.compressionType[0] != 0 || r.compressionType == [0, 0, 0, 0]
    ensures CompressionType(r) == CompressionType(c)
    ensures r == c.(compressionType := r.compressionType)
  {
    PaddedTrim(c.compressionType);
    c.(compressionType := CopyInto(4, CompressionType(c)))
  }

  /** The trimmed type padded with NULs to four bytes starts with a
      non-NUL byte or is all NULs, and trims to the same type. */
  lemma PaddedTrim(f: FourCC)
    ensures var p := CopyInto(4, TrimNullChars(f));
      (p[0] != 0 || p == [0, 0, 0, 0]) && TrimNullChars(p) == TrimNullChars(f)
  {
    var t := TrimNullChars(f);
    var p := CopyInto(4, t);
    PaddedIsAppended(t);
    assert TrimNullChars(p) == t by {
      TrimIgnoresTrailingNuls(t, 4 - |t|);
      TrimIdempotent(f);
    }
    if |t| == 0 {
      assert p == Zeros(4);
    } else {
      assert p[0] == t[0];
    }
  }

  lemma PaddedIsAppended(t: seq<byte>)
    requires |t| <= 4
    ensures CopyInto(4, t) == t + Zeros(4 - |t|)
  {
  }

  /** Writing a chunk or the chunk with its trimmed type gives the same
      bytes, whatever NULs led the type. */
  lemma TrimmedTypeBytes(c: Comm)
    ensures CommBytes(TrimmedType(c)) == CommBytes(c)
  {
    assert FixedFields(TrimmedType(c)) == FixedFields(c);
  }

  /** The name is read back from where the length byte belongs: a name
      whose first byte exceeds its length plus one (the most the rest of
      the field can hold) decodes with io.ErrUnexpectedEOF and no name. */
  lemma NameWithoutLength(c: Comm)
    requires c.compressionName.Some? && |c.compressionName.value| >= 1
    requires c.compressionName.value[0] > |c.compressionName.value| + 1
    ensures var d := DecodeCommChunk(CommBytesAsWritten(c));
      d.err == Some(UnexpectedEOF) && d.chunk.value.compressionName.None?
  {
    var b := CommBytesAsWritten(c);
    var name := c.compressionName.value;
    CommBytesAsWrittenLayout(c);
    assert b[CommBytesSize] == name[0];
    DecodeCommErrors(b);
    DecodeCommName(b);
  }

  /** The name of the library's own test, "no compression": its first byte
      'n' (110) is read as the length of the name. */
  lemma NoCompressionNameLost()
    ensures var c := EncodeCommChunkAsWritten([0x43, 0x4F, 0x4D, 0x4D], 32, 2, 100, 200, 44100, [0x4E, 0x4F, 0x4E, 0x45],
                                     NoCompression);
      DecodeCommChunk(CommBytesAsWritten(c)).err == Some(UnexpectedEOF)
  {
    var c := EncodeCommChunkAsWritten([0x43, 0x4F, 0x4D, 0x4D], 32, 2, 100, 200, 44100, [0x4E, 0x4F, 0x4E, 0x45],
                             NoCompression);
    NameWithoutLength(c);
  }

  /** "no compression" */
  const NoCompression: seq<byte> := [0x6E, 0x6F, 0x20, 0x63, 0x6F, 0x6D, 0x70, 0x72, 0x65, 0x73, 0x73, 0x69, 0x6F, 0x6E]

  /** A name cut to 256 bytes gets the length byte 256 % 256 = 0: even with
      the length written, the decoder finds no name. */
  lemma LongNameLosesLength(id: FourCC, size: uint32, numChannels: int16, numSampleFrames: uint32,
                            sampleSize: int16, sampleRate: uint64, compressionType: FourCC,
                            compressionName: seq<byte>)
    requires |compressionName| >= 256
    ensures var c := EncodeCommChunkAsWritten(id, size, numChannels, numSampleFrames, sampleSize, sampleRate,
                                              compressionType, compressionName);
      |c.compressionName.value| == 256 && DecodeCommChunk(CommBytes(c)).chunk.value.compressionName.None?
  {
    var c := EncodeCommChunkAsWritten(id, size, numChannels, numSampleFrames, sampleSize, sampleRate,
                                      compressionType, compressionName);
    LengthByteZero(c);
  }

  /** The little-endian header written by the encoder is read big-endian by
      the decoder: the size comes back byte-swapped, 32 as 0x2000_0000. */
  lemma LittleEndianHeaderSwapsSize(id: FourCC, size: uint32, numChannels: int16, numSampleFrames: uint32,
                                    sampleSize: int16, sampleRate: uint64, compressionType: FourCC,
                                    compressionName: seq<byte>)
    ensures var c := EncodeCommChunkAsWritten(id, size, numChannels, numSampleFrames, sampleSize, sampleRate,
                                              compressionType, compressionName);
      DecodeCommChunk(CommBytes(c)).chunk.value.header.size == Uint32Of(BigEndian, BytesOf(LittleEndian, size, 4))
    ensures size == 32 ==>
      var c := EncodeCommChunkAsWritten(id, size, numChannels, numSampleFrames, sampleSize, sampleRate,
                                        compressionType, compressionName);
      DecodeCommChunk(CommBytes(c)).chunk.value.header.size == 0x2000_0000
  {
    var c := EncodeCommChunkAsWritten(id, size, numChannels, numSampleFrames, sampleSize, sampleRate,
                                      compressionType, compressionName);
    DecodedCommHeader(c);
    SwappedSize(c.header);
    if size == 32 {
      SwappedThirtyTwo();
    }
  }

  lemma SwappedThirtyTwo()
    ensures Uint32Of(BigEndian, BytesOf(LittleEndian, 32, 4)) == 0x2000_0000
  {
    assert BytesOf(LittleEndian, 32, 4) == [32, 0, 0, 0];
  }

  /** A name whose length is a multiple of 256 gets the length byte 0. */
  lemma LengthByteZero(c: Comm)
    requires c.compressionName.Some? && |c.compressionName.value| == 256
    ensures DecodeCommChunk(CommBytes(c)).chunk.value.compressionName.None?
  {
    CommBytesLayout(c);
    DecodeCommName(CommBytes(c));
  }

  /** The decoder reads the header from the first eight bytes, big-endian. */
  lemma DecodedCommHeader(c: Comm)
    ensures DecodeCommChunk(CommBytes(c)).chunk.value.header == DecodeChunkHeader(Bytes(c.header), 0, BigEndian)
  {
    CommBytesLayout(c);
  }

  /** A header written in one order and read big-endian at start 0. */
  lemma SwappedSize(h: Header)
    ensures DecodeChunkHeader(Bytes(h), 0, BigEndian).size == Uint32Of(BigEndian, BytesOf(h.order, h.size, 4))
  {
    assert Bytes(h)[IdSizeBytes..] == BytesOf(h.order, h.size, SizeSizeBytes);
  }

  /** Eight zero bytes decode to a chunk of zeros whose bytes are 30 zero
      bytes, in either writing (no name, so no name field). */
  lemma ZeroCommBytes()
    ensures var c := DecodeCommChunk(Zeros(HeaderSizeBytes)).chunk.value;
      CommBytes(c) == Zeros(CommBytesSize) && CommBytesAsWritten(c) == Zeros(CommBytesSize)
  {
    var c := DecodeCommChunk(Zeros(HeaderSizeBytes)).chunk.value;
    ZeroComm();
    ZeroFixedPayload(c);
    assert Bytes(c.header) == Zeros(8) by {
      BytesOfDecode(Zeros(HeaderSizeBytes), 0, BigEndian);
      assert Zeros(HeaderSizeBytes)[..HeaderSizeBytes] == Zeros(HeaderSizeBytes);
    }
  }

  /** The chunk decoded from a bare zero header has every field zero. */
  lemma ZeroComm()
    ensures var c := DecodeCommChunk(Zeros(HeaderSizeBytes)).chunk.value;
      c.numChannels == 0 && c.numSampleFrames == 0 && c.sampleSize == 0 && c.sampleRate == Zeros(10)
      && c.compressionType == Zeros(4) && c.compressionName.None?
  {
    DecodeCommFields(Zeros(HeaderSizeBytes));
    DecodeCommName(Zeros(HeaderSizeBytes));
  }

  /** A COMM of zeros without name has a fixed payload of zeros. */
  lemma ZeroFixedPayload(c: Comm)
    requires c.numChannels == 0 && c.numSampleFrames == 0 && c.sampleSize == 0 && c.sampleRate == Zeros(10)
    requires c.compressionType == Zeros(4)
    ensures FixedPayload(c) == Zeros(FixedPayloadSize)
  {
    ZeroFixedFields(c);
    FlattenFive(Zeros(2), Zeros(4), Zeros(2), Zeros(10), Zeros(4));
    ZeroPieces();
  }

  lemma ZeroFixedFields(c: Comm)
    requires c.numChannels == 0 && c.numSampleFrames == 0 && c.sampleSize == 0 && c.sampleRate == Zeros(10)
    requires c.compressionType == Zeros(4)
    ensures FixedFields(c) == [Zeros(2), Zeros(4), Zeros(2), Zeros(10), Zeros(4)]
  {
    AllNulTrimsToEmpty(c.compressionType);
    assert BytesOf(BigEndian, 0, 2) == Zeros(2) by {
      BytesUint16(BigEndian, Zeros(2));
    }
    assert BytesOf(BigEndian, 0, 4) == Zeros(4) by {
      BytesUint32(BigEndian, Zeros(4));
    }
    assert CopyInto(4, CompressionType(c)) == Zeros(4);
  }

  lemma ZeroPieces()
    ensures Zeros(2) + Zeros(4) + Zeros(2) + Zeros(10) + Zeros(4) == Zeros(FixedPayloadSize)
  {
  }
}

=== FILE: constants.dfy ===
/** Byte sizes shared by every header codec (constants.go:5-13). */
module Constants {
  /** Size of a chunk identifier. */
  const IdSizeBytes: nat := 4
  /** Size of a chunk size field. */
  const SizeSizeBytes: nat := 4
  /** Size of a chunk header: identifier plus size. */
  const HeaderSizeBytes: nat := IdSizeBytes + SizeSizeBytes
  /** Size of a container's format tag. */
  const FormatSizeBytes: nat := 4
  /** Size of a container header: chunk header plus format tag. */
  const ContainerHeaderSizeBytes: nat := HeaderSizeBytes + FormatSizeBytes
}

=== FILE: container.dfy ===
/** Reading a chunked container (container.go): the 12-byte container
    header, then every chunk header found by walking the payloads. The
    reader is modelled as the byte sequence it would deliver. */
module Containers {
  import opened Binary
  import opened Errors
  import opened Constants
  import opened ChunkHeaders
  import opened ContainerHeaders

  datatype Container = Container(name: seq<char>, header: ContainerHeader, headers: seq<Header>, order: ByteOrder)

  /** The bytes a run of chunks takes, in unbounded arithmetic. */
  function Span(hs: seq<Header>): nat {
    if |hs| == 0 then 0 else PaddedSize(hs[0].size) + Span(hs[1..])
  }

  /** hs is exactly the list of chunk headers met when walking data from
      byte pos, the first one recorded at start offset: each header is
      decoded from the 8 bytes at its position, stamped with its position
      relative to pos plus offset (uint32 arithmetic), and the walk stops at
      the first position with fewer than 8 bytes left. */
  ghost predicate IsChunkList(data: seq<byte>, pos: nat, offset: uint32, order: ByteOrder, hs: seq<Header>) {
    (forall i {:trigger Span(hs[..i])} | 0 <= i < |hs| :: HeaderAt(data, pos + Span(hs[..i]), Wrap32(offset + Span(hs[..i])), order, hs[i]))
    && |data| < pos + Span(hs) + HeaderSizeBytes
  }

  /** h is the header decoded from the 8 bytes at position p. */
  ghost predicate HeaderAt(data: seq<byte>, p: nat, start: uint32, order: ByteOrder, h: Header) {
    p + HeaderSizeBytes <= |data|
    && h == DecodeChunkHeader(data[p..p + HeaderSizeBytes], start, order)
  }

  /** readChunkHeaders: read 8 bytes, decode them at the running offset,
      advance the offset by FullSize and skip the payload and its pad byte;
      stop as soon as fewer than 8 bytes remain. Every header found takes
      at least its own 8 bytes of the data. */
  function ReadChunkHeaders(data: seq<byte>, pos: nat, offset: uint32, order: ByteOrder): (r: seq<Header>)
    ensures r == [] <==> |data| < pos + HeaderSizeBytes
    ensures r != [] ==> pos + HeaderSizeBytes * |r| <= |data|
    decreases |data| - pos
  {
    if |data| < pos + HeaderSizeBytes then []
    else
      var h := DecodeChunkHeader(data[pos..pos + HeaderSizeBytes], offset, order);
      [h] + ReadChunkHeaders(data, pos + PaddedSize(h.size), Wrap32(offset + FullSize(h)), order)
  }

  /** Every header carries the container's byte order, and chunks start at
      even offsets when the first one does. */
  lemma {:induction false} ReadChunkHeadersOrderAndParity(data: seq<byte>, pos: nat, offset: uint32, order: ByteOrder)
    ensures var r := ReadChunkHeaders(data, pos, offset, order);
      (forall i | 0 <= i < |r| :: r[i].order == order)
      && (offset % 2 == 0 ==> forall i | 0 <= i < |r| :: r[i].startPos % 2 == 0)
    decreases |data| - pos
  {
    if pos + HeaderSizeBytes <= |data| {
      var h := DecodeChunkHeader(data[pos..pos + HeaderSizeBytes], offset, order);
      EvenStep(offset, h);
      ReadChunkHeadersOrderAndParity(data, pos + PaddedSize(h.size), Wrap32(offset + FullSize(h)), order);
      ReadChunkHeadersStep(data, pos, offset, order, h);
    }
  }

  lemma DecodedHeaderAt(data: seq<byte>, pos: nat, offset: uint32, order: ByteOrder)
    requires pos + HeaderSizeBytes <= |data|
    ensures HeaderAt(data, pos, offset, order, DecodeChunkHeader(data[pos..pos + HeaderSizeBytes], offset, order))
  {
  }

  /** One step of the walk. */
  lemma ReadChunkHeadersStep(data: seq<byte>, pos: nat, offset: uint32, order: ByteOrder, h: Header)
    requires HeaderAt(data, pos, offset, order, h)
    ensures ReadChunkHeaders(data, pos, offset, order)
      == [h] + ReadChunkHeaders(data, pos + PaddedSize(h.size), Wrap32(offset + FullSize(h)), order)
  {
  }

  lemma EvenStep(offset: uint32, h: Header)
    ensures offset % 2 == 0 ==> Wrap32(offset + FullSize(h)) % 2 == 0
  {
    FullSizeWraps(h);
    Wrap32Parity(offset + FullSize(h));
  }

  /** Advancing by FullSize in uint32 arithmetic is advancing by the
      padded size modulo 2^32. */
  lemma AdvanceWraps(offset: uint32, h: Header, c: int)
    ensures Wrap32(Wrap32(offset + FullSize(h)) + c) == Wrap32(offset + PaddedSize(h.size) + c)
  {
    FullSizeWraps(h);
    Wrap32Add(offset + FullSize(h), c);
    if FullSize(h) != PaddedSize(h.size) {
      Wrap32Period(offset + PaddedSize(h.size) + c);
    }
  }

  lemma SpanCons(h: Header, t: seq<Header>, i: nat)
    requires 1 <= i <= |t| + 1
    ensures Span(([h] + t)[..i]) == PaddedSize(h.size) + Span(t[..i - 1])
  {
    assert ([h] + t)[..i] == [h] + t[..i - 1];
    assert ([h] + t[..i - 1])[1..] == t[..i - 1];
  }

  /** The walk finds exactly the chunk list of the data. */
  lemma {:induction false} ReadChunkHeadersIsChunkList(data: seq<byte>, pos: nat, offset: uint32, order: ByteOrder)
    ensures IsChunkList(data, pos, offset, order, ReadChunkHeaders(data, pos, offset, order))
    decreases |data| - pos
  {
    if |data| >= pos + HeaderSizeBytes {
      var h := DecodeChunkHeader(data[pos..pos + HeaderSizeBytes], offset, order);
      ReadChunkHeadersIsChunkList(data, pos + PaddedSize(h.size), Wrap32(offset + FullSize(h)), order);
      StepIsChunkList(data, pos, offset, order);
    } else {
      EndIsChunkList(data, pos, offset, order);
    }
  }

  /** Where the walk stops, the chunk list is empty. */
  lemma EndIsChunkList(data: seq<byte>, pos: nat, offset: uint32, order: ByteOrder)
    requires |data| < pos + HeaderSizeBytes
    ensures IsChunkList(data, pos, offset, order, ReadChunkHeaders(data, pos, offset, order))
  {
    assert ReadChunkHeaders(data, pos, offset, order) == [];
  }

  /** One step of the walk keeps the chunk-list property. */
  lemma StepIsChunkList(data: seq<byte>, pos: nat, offset: uint32, order: ByteOrder)
    requires pos + HeaderSizeBytes <= |data|
    requires var h := DecodeChunkHeader(data[pos..pos + HeaderSizeBytes], offset, order);
      var pos', offset' := pos + PaddedSize(h.size), Wrap32(offset + FullSize(h));
      IsChunkList(data, pos', offset', order, ReadChunkHeaders(data, pos', offset', order))
    ensures IsChunkList(data, pos, offset, order, ReadChunkHeaders(data, pos, offset, order))
  {
    var h := DecodeChunkHeader(data[pos..pos + HeaderSizeBytes], offset, order);
    var pos' := pos + PaddedSize(h.size);
    var offset' := Wrap32(offset + FullSize(h));
    DecodedHeaderAt(data, pos, offset, order);
    ReadChunkHeadersStep(data, pos, offset, order, h);
    ConsIsChunkList(data, pos, offset, order, h, ReadChunkHeaders(data, pos', offset', order));
  }

  /** A header at pos followed by the chunk list after it is the chunk list
      at pos. */
  lemma ConsIsChunkList(data: seq<byte>, pos: nat, offset: uint32, order: ByteOrder, h: Header, t: seq<Header>)
    requires HeaderAt(data, pos, offset, order, h)
    requires IsChunkList(data, pos + PaddedSize(h.size), Wrap32(offset + FullSize(h)), order, t)
    ensures IsChunkList(data, pos, offset, order, [h] + t)
  {
    ConsHeaders(data, pos, offset, order, h, t);
    ConsEnd(data, pos, h, t);
  }

  lemma ConsHeaders(data: seq<byte>, pos: nat, offset: uint32, order: ByteOrder, h: Header, t: seq<Header>)
    requires HeaderAt(data, pos, offset, order, h)
    requires IsChunkList(data, pos + PaddedSize(h.size), Wrap32(offset + FullSize(h)), order, t)
    ensures forall i {:trigger Span(([h] + t)[..i])} | 0 <= i < |[h] + t| ::
      HeaderAt(data, pos + Span(([h] + t)[..i]), Wrap32(offset + Span(([h] + t)[..i])), order, ([h] + t)[i])
  {
    forall i | 0 <= i < |[h] + t|
      ensures HeaderAt(data, pos + Span(([h] + t)[..i]), Wrap32(offset + Span(([h] + t)[..i])), order, ([h] + t)[i])
    {
      if i == 0 {
        ConsFirst(data, pos, offset, order, h, t);
      } else {
        ConsStep(data, pos, offset, order, h, t, i);
      }
    }
  }

  lemma ConsEnd(data: seq<byte>, pos: nat, h: Header, t: seq<Header>)
    requires |data| < pos + PaddedSize(h.size) + Span(t) + HeaderSizeBytes
    ensures |data| < pos + Span([h] + t) + HeaderSizeBytes
  {
    assert ([h] + t)[1..] == t;
  }

  lemma ConsFirst(data: seq<byte>, pos: nat, offset: uint32, order: ByteOrder, h: Header, t: seq<Header>)
    requires HeaderAt(data, pos, offset, order, h)
    ensures HeaderAt(data, pos + Span(([h] + t)[..0]), Wrap32(offset + Span(([h] + t)[..0])), order, ([h] + t)[0])
  {
    assert ([h] + t)[..0] == [];
    assert Wrap32(offset) == offset;
  }

  /** Element i of [h] + t sits where element i - 1 of t sits in the walk
      that starts after h. */
  lemma ConsStep(data: seq<byte>, pos: nat, offset: uint32, order: ByteOrder, h: Header, t: seq<Header>, i: nat)
    requires 1 <= i <= |t|
    requires IsChunkList(data, pos + PaddedSize(h.size), Wrap32(offset + FullSize(h)), order, t)
    ensures HeaderAt(data, pos + Span(([h] + t)[..i]), Wrap32(offset + Span(([h] + t)[..i])), order, ([h] + t)[i])
  {
    var s := Span(t[..i - 1]);
    assert HeaderAt(data, pos + PaddedSize(h.size) + s, Wrap32(Wrap32(offset + FullSize(h)) + s), order, t[i - 1]);
    SpanCons(h, t, i);
    AdvanceWraps(offset, h, s);
  }

  /** Only one list is the chunk list of the data. */
  lemma {:induction false} ChunkListUnique(data: seq<byte>, pos: nat, offset: uint32, order: ByteOrder, hs: seq<Header>)
    requires IsChunkList(data, pos, offset, order, hs)
    ensures hs == ReadChunkHeaders(data, pos, offset, order)
    decreases |hs|
  {
    if |hs| == 0 {
      EmptyChunkList(data, pos, offset, order);
    } else {
      UnconsIsChunkList(data, pos, offset, order, hs);
      ChunkListUnique(data, pos + PaddedSize(hs[0].size), Wrap32(offset + FullSize(hs[0])), order, hs[1..]);
      ConsReads(data, pos, offset, order, hs);
    }
  }

  lemma EmptyChunkList(data: seq<byte>, pos: nat, offset: uint32, order: ByteOrder)
    requires IsChunkList(data, pos, offset, order, [])
    ensures ReadChunkHeaders(data, pos, offset, order) == []
  {
    assert |data| < pos + HeaderSizeBytes;
  }

  /** A header at pos followed by what the walk finds after it is what
      the walk finds at pos. */
  lemma ConsReads(data: seq<byte>, pos: nat, offset: uint32, order: ByteOrder, hs: seq<Header>)
    requires |hs| > 0 && HeaderAt(data, pos, offset, order, hs[0])
    requires hs[1..] == ReadChunkHeaders(data, pos + PaddedSize(hs[0].size), Wrap32(offset + FullSize(hs[0])), order)
    ensures hs == ReadChunkHeaders(data, pos, offset, order)
  {
    ReadChunkHeadersStep(data, pos, offset, order, hs[0]);
    assert hs == [hs[0]] + hs[1..];
  }

  /** A non-empty chunk list is a header at pos followed by the chunk list
      after it. */
  lemma UnconsIsChunkList(data: seq<byte>, pos: nat, offset: uint32, order: ByteOrder, hs: seq<Header>)
    requires IsChunkList(data, pos, offset, order, hs) && |hs| > 0
    ensures HeaderAt(data, pos, offset, order, hs[0])
    ensures IsChunkList(data, pos + PaddedSize(hs[0].size), Wrap32(offset + FullSize(hs[0])), order, hs[1..])
  {
    UnconsFirst(data, pos, offset, order, hs);
    UnconsHeaders(data, pos, offset, order, hs);
    UnconsEnd(data, pos, offset, order, hs);
  }

  lemma UnconsHeaders(data: seq<byte>, pos: nat, offset: uint32, order: ByteOrder, hs: seq<Header>)
    requires IsChunkList(data, pos, offset, order, hs) && |hs| > 0
    ensures forall j {:trigger Span(hs[1..][..j])} | 0 <= j < |hs[1..]| ::
      HeaderAt(data, pos + PaddedSize(hs[0].size) + Span(hs[1..][..j]),
        Wrap32(Wrap32(offset + FullSize(hs[0])) + Span(hs[1..][..j])), order, hs[1..][j])
  {
    forall j | 0 <= j < |hs[1..]|
      ensures HeaderAt(data, pos + PaddedSize(hs[0].size) + Span(hs[1..][..j]),
        Wrap32(Wrap32(offset + FullSize(hs[0])) + Span(hs[1..][..j])), order, hs[1..][j])
    {
      UnconsStep(data, pos, offset, order, hs, j);
    }
  }

  lemma UnconsFirst(data: seq<byte>, pos: nat, offset: uint32, order: ByteOrder, hs: seq<Header>)
    requires IsChunkList(data, pos, offset, order, hs) && |hs| > 0
    ensures HeaderAt(data, pos, offset, order, hs[0])
  {
    assert HeaderAt(data, pos + Span(hs[..0]), Wrap32(offset + Span(hs[..0])), order, hs[0]);
    assert hs[..0] == [];
  }

  lemma UnconsEnd(data: seq<byte>, pos: nat, offset: uint32, order: ByteOrder, hs: seq<Header>)
    requires IsChunkList(data, pos, offset, order, hs) && |hs| > 0
    ensures |data| < pos + PaddedSize(hs[0].size) + Span(hs[1..]) + HeaderSizeBytes
  {
    assert Span(hs) == PaddedSize(hs[0].size) + Span(hs[1..]);
  }

  /** Element j + 1 of a chunk list sits where element j of its tail sits in
      the walk that starts after the first chunk. */
  lemma UnconsStep(data: seq<byte>, pos: nat, offset: uint32, order: ByteOrder, hs: seq<Header>, j: nat)
    requires IsChunkList(data, pos, offset, order, hs) && j + 1 < |hs|
    ensures HeaderAt(data, pos + PaddedSize(hs[0].size) + Span(hs[1..][..j]),
      Wrap32(Wrap32(offset + FullSize(hs[0])) + Span(hs[1..][..j])), order, hs[1..][j])
  {
    var h := hs[0];
    var t := hs[1..];
    var s := Span(t[..j]);
    assert HeaderAt(data, pos + Span(hs[..j + 1]), Wrap32(offset + Span(hs[..j + 1])), order, hs[j + 1]);
    assert hs == [h] + t;
    SpanCons(h, t, j + 1);
    AdvanceWraps(offset, h, s);
  }

  /** read: fails with EOF on empty data and UnexpectedEOF on 1 to 11
      bytes; otherwise decodes the container header and walks the chunks
      from byte 12, recording offsets from 12. */
  function Read(name: seq<char>, data: seq<byte>, order: ByteOrder): (r: Result<Container>)
    ensures r.Err? <==> |data| < ContainerHeaderSizeBytes
    ensures r.Err? ==> r.error == (if |data| == 0 then EOF else UnexpectedEOF)
    ensures r.Ok? ==> r.value.name == name && r.value.order == order
    ensures r.Ok? ==> ContainerBytes(r.value.header) == data[..ContainerHeaderSizeBytes]
    ensures r.Ok? ==> r.value.header.header.startPos == 0 && r.value.header.header.order == order
    ensures r.Ok? ==> IsChunkList(data, ContainerHeaderSizeBytes, ContainerHeaderSizeBytes, order, r.value.headers)
  {
    if |data| == 0 then Err(EOF)
    else if |data| < ContainerHeaderSizeBytes then Err(UnexpectedEOF)
    else
      var header := DecodeContainerHeader(data[..ContainerHeaderSizeBytes], order).value;
      ReadChunkHeadersIsChunkList(data, ContainerHeaderSizeBytes, ContainerHeaderSizeBytes, order);
      Ok(Container(name, header, ReadChunkHeaders(data, ContainerHeaderSizeBytes, ContainerHeaderSizeBytes, order), order))
  }

  /** ReadRiff: a little-endian container. */
  function ReadRiff(name: seq<char>, data: seq<byte>): (r: Result<Container>)
    ensures r.Err? <==> |data| < ContainerHeaderSizeBytes
    ensures r.Ok? ==> r.value.order == LittleEndian
    ensures r.Ok? ==> IsChunkList(data, ContainerHeaderSizeBytes, ContainerHeaderSizeBytes, LittleEndian, r.value.headers)
  {
    Read(name, data, LittleEndian)
  }

  /** ReadAiff: a big-endian container. */
  function ReadAiff(name: seq<char>, data: seq<byte>): (r: Result<Container>)
    ensures r.Err? <==> |data| < ContainerHeaderSizeBytes
    ensures r.Ok? ==> r.value.order == BigEndian
    ensures r.Ok? ==> IsChunkList(data, ContainerHeaderSizeBytes, ContainerHeaderSizeBytes, BigEndian, r.value.headers)
  {
    Read(name, data, BigEndian)
  }

  /** FindHeaders: the headers whose trimmed identifier equals id, in order. */
  function FindHeaders(headers: seq<Header>, id: seq<byte>): (r: seq<Header>)
    ensures |r| <= |headers|
    ensures forall i | 0 <= i < |r| :: ID(r[i]) == id && r[i] in headers
  {
    if |headers| == 0 then []
    else
      var rest := FindHeaders(headers[1..], id);
      if ID(headers[0]) == id then [headers[0]] + rest else rest
  }

  /** FindHeaders keeps every matching header as often as it occurs and
      drops every other one. */
  lemma {:induction false} FindHeadersCount(headers: seq<Header>, id: seq<byte>)
    ensures forall h :: multiset(FindHeaders(headers, id))[h] == (if ID(h) == id then multiset(headers)[h] else 0)
  {
    if |headers| > 0 {
      var x := headers[0];
      var rest := headers[1..];
      FindHeadersCount(rest, id);
      assert headers == [x] + rest;
      assert multiset(headers) == multiset{x} + multiset(rest);
      if ID(x) == id {
        assert multiset(FindHeaders(headers, id)) == multiset{x} + multiset(FindHeaders(rest, id));
      } else {
        assert FindHeaders(headers, id) == FindHeaders(rest, id);
      }
    }
  }

  /** Filtering distributes over concatenation, so order is kept. */
  lemma {:induction false} FindHeadersAppend(a: seq<Header>, b: seq<Header>, id: seq<byte>)
    ensures FindHeaders(a + b, id) == FindHeaders(a, id) + FindHeaders(b, id)
  {
    if |a| > 0 {
      assert (a + b)[1..] == a[1..] + b;
      FindHeadersAppend(a[1..], b, id);
    } else {
      assert a + b == b;
    }
  }

  /** Fewer than 12 bytes cannot be read; exactly 12 give no chunks. */
  lemma ReadShortAndEmpty()
    ensures Read("testFile", Zeros(11), LittleEndian).Err?
    ensures var r := Read("testFile", Zeros(12), LittleEndian); r.Ok? && r.value.headers == []
  {
  }

  /** 20 zero bytes hold one empty chunk after the container header. */
  lemma ReadOneZeroChunk()
    ensures var r := Read("testFile", Zeros(20), LittleEndian);
      r.Ok? && |r.value.headers| == 1 && r.value.headers[0].startPos == 12 && r.value.headers[0].size == 0
  {
    var r := Read("testFile", Zeros(20), LittleEndian);
    var hs := ReadChunkHeaders(Zeros(20), 12, 12, LittleEndian);
    assert |Zeros(20)| < 12 + PaddedSize(hs[0].size) + 8;
  }
}

=== FILE: containerheader.dfy ===
/** Container headers (containerheader.go): a chunk header followed by a
    four-character format code, 12 bytes in all. */
module ContainerHeaders {
  import opened Binary
  import opened Errors
  import opened FourCCs
  import opened Constants
  import opened ChunkHeaders
  import Strings

  datatype ContainerHeader = ContainerHeader(header: Header, format: uint32)

  /** Format: the format code written big-endian into a 32-byte zeroed
      buffer, NULs trimmed; the extra zeros never reach the result. */
  function Format(c: ContainerHeader): (r: seq<byte>)
    ensures |r| <= 4
    ensures r == Strings.TrimNullChars(BigEndianBytes(c.format, FormatSizeBytes))
  {
    var val := BigEndianBytes(c.format, FormatSizeBytes) + Zeros(28);
    Strings.TrimIgnoresTrailingNuls(BigEndianBytes(c.format, FormatSizeBytes), 28);
    Strings.TrimNullChars(val)
  }

  /** Bytes: the chunk header's 8 bytes, then the format big-endian. */
  function ContainerBytes(c: ContainerHeader): (r: seq<byte>)
    ensures |r| == ContainerHeaderSizeBytes
    ensures r[..HeaderSizeBytes] == Bytes(c.header)
    ensures ValueOf(BigEndian, r[HeaderSizeBytes..]) == c.format
  {
    var f := BytesOf(BigEndian, c.format, FormatSizeBytes);
    Pow256Widths();
    ValueOfBytesOf(BigEndian, c.format, FormatSizeBytes);
    var r := Bytes(c.header) + f;
    assert r[HeaderSizeBytes..] == f;
    r
  }

  /** EncodeContainerHeader: chunk header at start 0 plus the format code. */
  function EncodeContainerHeader(id: FourCC, size: uint32, format: FourCC, order: ByteOrder): (r: ContainerHeader)
    ensures r.header == EncodeChunkHeader(id, size, order)
    ensures BytesOf(BigEndian, r.format, FormatSizeBytes) == format
    ensures Format(r) == Strings.TrimNullChars(format)
  {
    ContainerHeader(EncodeChunkHeader(id, size, order), ToUint32(format))
  }

  /** DecodeContainerHeader: fails on fewer than 12 bytes (the message
      reports the 8-byte header size), otherwise decodes the header at
      start 0 and the big-endian format code from bytes 8..12. */
  function DecodeContainerHeader(data: seq<byte>, order: ByteOrder): (r: Result<ContainerHeader>)
    ensures r.Err? <==> |data| < ContainerHeaderSizeBytes
    ensures r.Err? ==> r.error == ShortData(HeaderSizeBytes)
    ensures r.Ok? ==> r.value.header.startPos == 0 && r.value.header.order == order
    ensures r.Ok? ==> ContainerBytes(r.value) == data[..ContainerHeaderSizeBytes]
  {
    if |data| < ContainerHeaderSizeBytes then Err(ShortData(HeaderSizeBytes))
    else
      var header := DecodeChunkHeaderPrefix(data[..HeaderSizeBytes], 0, order);
      var fbytes := data[HeaderSizeBytes..HeaderSizeBytes + FormatSizeBytes];
      FixedWidthValues(BigEndian, fbytes);
      BytesOfValueOf(BigEndian, fbytes);
      var c := ContainerHeader(header, Uint32Of(BigEndian, fbytes));
      assert ContainerBytes(c) == data[..HeaderSizeBytes] + fbytes;
      assert data[..ContainerHeaderSizeBytes] == data[..HeaderSizeBytes] + fbytes;
      Ok(c)
  }

  /** Decoding the bytes of a container header whose chunk header starts at
      0 gives it back. */
  lemma DecodeOfContainerBytes(c: ContainerHeader)
    requires c.header.startPos == 0
    ensures DecodeContainerHeader(ContainerBytes(c), c.header.order) == Ok(c)
  {
    var b := ContainerBytes(c);
    var r := DecodeContainerHeader(b, c.header.order);
    DecodeOfBytes(c.header);
    assert b[..HeaderSizeBytes][..HeaderSizeBytes] == Bytes(c.header);
    Pow256Widths();
    FixedWidthValues(BigEndian, b[HeaderSizeBytes..]);
    BytesOfValueOf(BigEndian, b[HeaderSizeBytes..]);
    assert b[HeaderSizeBytes..HeaderSizeBytes + FormatSizeBytes] == b[HeaderSizeBytes..];
  }

  /** An encoded container header survives the round trip through bytes
      with its identifier, size and format intact. */
  lemma EncodeDecodeContainer(id: FourCC, size: uint32, format: FourCC, order: ByteOrder)
    ensures var r := DecodeContainerHeader(ContainerBytes(EncodeContainerHeader(id, size, format, order)), order);
      r.Ok? && ID(r.value.header) == Strings.TrimNullChars(id)
      && r.value.header.size == size && Format(r.value) == Strings.TrimNullChars(format)
  {
    DecodeOfContainerBytes(EncodeContainerHeader(id, size, format, order));
  }
}

=== FILE: errors.dfy ===
/** Failure-carrying values shared by every codec of the chunk library. */
module Errors {
  import opened Binary

  datatype Option<+T> = None | Some(value: T)

  /** The error values the library can hand back. Go's errors are strings or
      io sentinels; each distinct source of error is one constructor here. */
  datatype Error =
    | ShortData(reported: nat)   // the input is shorter than the minimum length it reports
    | EOF                        // io.EOF passed through unfiltered
    | UnexpectedEOF              // io.ErrUnexpectedEOF: a read ended mid-field
    | InvalidRiffHeader          // riffheader.go rejects the container header
    | ChunkNotFound(id: seq<byte>)

  datatype Result<+T> = Ok(value: T) | Err(error: Error)

  /** Go decoders return a (chunk, error) pair in which both may be set:
      a partially filled chunk travels together with the error. */
  datatype Decoded<+T> = Decoded(chunk: Option<T>, err: Option<Error>)
}

=== FILE: extended.dfy ===
/** The 80-bit extended-precision sample rate of AIFF (internal/functions.go):
    a sign bit and a 15-bit exponent biased by 16383 in bytes 0..2, then a
    64-bit mantissa with an explicit integer bit in bytes 2..10, all
    big-endian. Only non-negative integers are converted. Shifts are
    written as repeated doubling and halving, so every proof here stays in
    linear arithmetic. */
module Extended {
  import opened Binary

  type Extended80 = s: seq<byte> | |s| == 10 witness [0, 0, 0, 0, 0, 0, 0, 0, 0, 0]

  const Bias: nat := 16383
  const TwoTo63: nat := 0x8000_0000_0000_0000
  const TwoTo64: nat := 0x1_0000_0000_0000_0000

  function Pow2(n: nat): (r: nat)
    ensures r >= 1
  {
    if n == 0 then 1 else 2 * Pow2(n - 1)
  }

  /** m << k on unbounded integers. */
  function ShiftLeft(m: nat, k: nat): nat {
    if k == 0 then m else 2 * ShiftLeft(m, k - 1)
  }

  /** m >> k: k halvings, each truncating. */
  function ShiftRight(m: nat, k: nat): nat {
    if k == 0 then m else ShiftRight(m / 2, k - 1)
  }

  lemma {:induction false} ShiftLeftPow2(a: nat, b: nat)
    ensures ShiftLeft(Pow2(a), b) == Pow2(a + b)
    decreases b
  {
    if b > 0 {
      ShiftLeftPow2(a, b - 1);
    }
  }

  lemma {:induction false} ShiftLeftAdd(a: nat, b: nat, k: nat)
    ensures ShiftLeft(a + b, k) == ShiftLeft(a, k) + ShiftLeft(b, k)
  {
    if k > 0 {
      ShiftLeftAdd(a, b, k - 1);
    }
  }

  lemma {:induction false} ShiftLeftDouble(m: nat, k: nat)
    ensures ShiftLeft(2 * m, k) == ShiftLeft(m, k + 1)
  {
    if k > 0 {
      ShiftLeftDouble(m, k - 1);
    }
  }

  lemma {:induction false} ShiftLeftMonotone(a: nat, b: nat, k: nat)
    requires a <= b
    ensures ShiftLeft(a, k) <= ShiftLeft(b, k)
    ensures a < b ==> ShiftLeft(a, k) < ShiftLeft(b, k)
  {
    if k > 0 {
      ShiftLeftMonotone(a, b, k - 1);
    }
  }

  lemma {:induction false} ShiftLeftZero(k: nat)
    ensures ShiftLeft(0, k) == 0
  {
    if k > 0 {
      ShiftLeftZero(k - 1);
    }
  }

  lemma {:induction false} ShiftLeftGrows(m: nat, k: nat)
    ensures m <= ShiftLeft(m, k)
  {
    if k > 0 {
      ShiftLeftGrows(m, k - 1);
    }
  }

  /** Shifting left and then right by the same count loses nothing. */
  lemma {:induction false} ShiftRightLeft(m: nat, k: nat)
    ensures ShiftRight(ShiftLeft(m, k), k) == m
  {
    if k > 0 {
      ShiftRightLeft(m, k - 1);
      assert ShiftLeft(m, k) / 2 == ShiftLeft(m, k - 1);
    }
  }

  lemma {:induction false} Pow2Add(a: nat, b: nat)
    ensures Pow2(a + b) == Pow2(a) * Pow2(b)
    decreases a
  {
    if a > 0 {
      Pow2Add(a - 1, b);
    }
  }

  lemma Pow2Of16()
    ensures Pow2(16) == 0x1_0000
  {
    Pow2Add(8, 8);
    assert Pow2(8) == 0x100;
  }

  lemma Pow2Of31()
    ensures Pow2(31) == 0x8000_0000
  {
    Pow2Add(16, 15);
    Pow2Of16();
    Pow2Add(8, 7);
    assert Pow2(8) == 0x100;
    assert Pow2(7) == 0x80;
  }

  lemma Pow2Constants()
    ensures Pow2(63) == TwoTo63 && Pow2(64) == TwoTo64
  {
    Pow2Of16();
    Pow2Add(16, 16);
    Pow2Of31();
    Pow2Add(32, 31);
    Pow2Add(32, 32);
  }

  /** Number of binary digits of v: 0 for 0. */
  function BitLength(v: nat): nat {
    if v == 0 then 0 else 1 + BitLength(v / 2)
  }

  /** A positive v of bit length n lies in [2^(n-1), 2^n). */
  lemma {:induction false} BitLengthBounds(v: nat)
    requires v > 0
    ensures BitLength(v) >= 1
    ensures Pow2(BitLength(v) - 1) <= v < Pow2(BitLength(v))
  {
    if v > 1 {
      BitLengthBounds(v / 2);
    }
  }

  /** A value below 2^k has at most k binary digits. */
  lemma {:induction false} BitLengthAtMost(v: nat, k: nat)
    requires v < Pow2(k)
    ensures BitLength(v) <= k
  {
    if v > 0 {
      BitLengthAtMost(v / 2, k - 1);
    }
  }

  /** The extended encoding of a non-negative integer: zero is ten zero
      bytes; v > 0 of bit length n gets biased exponent n - 1 + 16383 and
      the mantissa v shifted left until its top bit is bit 63. So only zero
      has a zero sign-and-exponent word, and every other value is a
      positive normal number with its integer bit set. */
  function IeeeOf(v: uint64): (r: Extended80)
    ensures v == 0 ==> r == Zeros(10)
    ensures v > 0 ==> && 1 <= BitLength(v) <= 64 && r[0] < 0x80
                      && Uint16Of(BigEndian, r[..2]) == BitLength(v) - 1 + Bias
                      && TwoTo63 <= Uint64Of(BigEndian, r[2..]) == ShiftLeft(v, 64 - BitLength(v))
  {
    if v == 0 then Zeros(10)
    else
      var n := BitLength(v);
      MantissaBounds(v);
      EncodedFields(n - 1 + Bias, ShiftLeft(v, 64 - n));
      BytesOf(BigEndian, n - 1 + Bias, 2) + BytesOf(BigEndian, ShiftLeft(v, 64 - n), 8)
  }

  /** A sign-and-exponent word below 0x8000 and a 64-bit mantissa, written
      big-endian one after the other, read back from their places. */
  lemma EncodedFields(se: nat, m: nat)
    requires se < 0x8000 && m < TwoTo64
    ensures var r := BytesOf(BigEndian, se, 2) + BytesOf(BigEndian, m, 8);
      |r| == 10 && r[0] < 0x80 && Uint16Of(BigEndian, r[..2]) == se && Uint64Of(BigEndian, r[2..]) == m
  {
    Uint16Bytes(BigEndian, se);
    Uint64Bytes(BigEndian, m);
    var r := BytesOf(BigEndian, se, 2) + BytesOf(BigEndian, m, 8);
    assert r[..2] == BytesOf(BigEndian, se, 2);
    assert r[2..] == BytesOf(BigEndian, m, 8);
  }

  /** For v > 0 the sign bit is clear, the exponent field is 16383 plus the
      bit length minus 1, and the mantissa has its top (integer) bit set
      and holds v in its leading bits. */
  lemma IeeeLayout(v: uint64)
    requires v > 0
    ensures var r := IeeeOf(v); var n := BitLength(v);
      1 <= n <= 64 && r[0] < 0x80
      && Uint16Of(BigEndian, r[..2]) == n - 1 + Bias
      && Uint64Of(BigEndian, r[2..]) == ShiftLeft(v, 64 - n)
      && TwoTo63 <= Uint64Of(BigEndian, r[2..])
  {
    var n := BitLength(v);
    IeeeParts(v);
    MantissaBounds(v);
    Uint16Bytes(BigEndian, n - 1 + Bias);
    Uint64Bytes(BigEndian, ShiftLeft(v, 64 - n));
  }

  /** The two fields of IeeeOf(v) for v > 0. */
  lemma IeeeParts(v: uint64)
    requires v > 0
    ensures BitLength(v) <= 64
    ensures var r := IeeeOf(v); var n := BitLength(v);
      r[..2] == BytesOf(BigEndian, n - 1 + Bias, 2)
      && r[2..] == BytesOf(BigEndian, ShiftLeft(v, 64 - n), 8)
  {
    Pow2Constants();
    BitLengthAtMost(v, 64);
    var n := BitLength(v);
    var e := BytesOf(BigEndian, n - 1 + Bias, 2);
    var m := BytesOf(BigEndian, ShiftLeft(v, 64 - n), 8);
    assert IeeeOf(v) == e + m;
    assert (e + m)[..2] == e && (e + m)[2..] == m;
  }

  /** v shifted left by 64 minus its bit length lies in [2^63, 2^64). */
  lemma MantissaBounds(v: nat)
    requires 0 < v < TwoTo64
    ensures 1 <= BitLength(v) <= 64
    ensures TwoTo63 <= ShiftLeft(v, 64 - BitLength(v)) < TwoTo64
  {
    var n := BitLength(v);
    Pow2Constants();
    BitLengthAtMost(v, 64);
    BitLengthBounds(v);
    ShiftLeftMonotone(Pow2(n - 1), v, 64 - n);
    ShiftLeftMonotone(v, Pow2(n), 64 - n);
    ShiftLeftPow2(n - 1, 64 - n);
    ShiftLeftPow2(n, 64 - n);
  }

  /** 63 - i + 1 in uint16 arithmetic is 64 - i for 1 <= i <= 64, i = 64
      included, where 63 - i wraps to 65535 first. */
  lemma ShiftCount(i: nat)
    requires 1 <= i <= 64
    ensures Wrap16(Wrap16(63 - i) + 1) == 64 - i
  {
    if i == 64 {
      assert Wrap16(63 - i) == 0xFFFF;
    }
  }

  /** One round of the bit-collecting loop keeps v = (q << i) + temp with
      temp < 2^i: bit q % 2 moves from q to bit i of temp. */
  lemma CollectStep(v: nat, q: nat, i: nat, temp: nat)
    requires v == ShiftLeft(q, i) + temp && temp < Pow2(i)
    ensures v == ShiftLeft(q / 2, i + 1) + (temp + ShiftLeft(q % 2, i))
    ensures temp + ShiftLeft(q % 2, i) < Pow2(i + 1)
  {
    ShiftLeftAdd(2 * (q / 2), q % 2, i);
    ShiftLeftDouble(q / 2, i);
    ShiftLeftMonotone(q % 2, 1, i);
    ShiftLeftPow2(0, i);
  }

  /** IntToIEEE: count the bits of v while collecting them, shift them to
      the top of a 64-bit mantissa and store the biased exponent. The
      shift count 63 - i + 1 and the exponent i - 1 + bias are uint16
      arithmetic, and the shift is uint64 arithmetic. */
  method IntToIeee(v: uint64) returns (r: Extended80)
    ensures r == IeeeOf(v)
  {
    if v == 0 {
      return Zeros(10);
    }
    var temp, i := CollectBits(v);
    var shift := Wrap16(Wrap16(63 - i as int) + 1);
    var m := ShiftLeft(temp, shift) % TwoTo64;
    var exp := Wrap16(Wrap16(i - 1) + Bias);
    r := BytesOf(BigEndian, exp, 2) + BytesOf(BigEndian, m, 8);
    LoopResult(v, i);
  }

  /** The loop of IntToIEEE: move the bits of v one at a time from q into
      temp, counting them in i. */
  method CollectBits(v: uint64) returns (temp: nat, i: nat)
    ensures temp == v && i == BitLength(v)
  {
    var q: nat := v;
    i, temp := 0, 0;
    while q > 0
      invariant v == ShiftLeft(q, i) + temp
      invariant temp < Pow2(i)
      invariant BitLength(v) == i + BitLength(q)
      decreases q
    {
      CollectStep(v, q, i, temp);
      var x := q % 2;
      // temp | x << i: bit i of temp is clear, so the or is an addition
      temp := temp + ShiftLeft(x, i);
      q := q / 2;
      i := i + 1;
    }
    ShiftLeftZero(i);
  }

  /** The bits counted and collected by IntToIeee, shifted and biased in
      machine arithmetic, are the encoding IeeeOf. */
  lemma LoopResult(v: uint64, i: nat)
    requires v > 0 && i == BitLength(v)
    ensures var shift := Wrap16(Wrap16(63 - i as int) + 1);
      BytesOf(BigEndian, Wrap16(Wrap16(i - 1) + Bias), 2)
      + BytesOf(BigEndian, ShiftLeft(v, shift) % TwoTo64, 8) == IeeeOf(v)
  {
    MantissaBounds(v);
    ShiftCount(i);
    ExponentField(i);
    var mantissa := ShiftLeft(v, 64 - i);
    ModSmall(mantissa, TwoTo64);
    IeeeParts(v);
    var r := IeeeOf(v);
    assert r == r[..2] + r[2..];
    assert IeeeOf(v) == BytesOf(BigEndian, i - 1 + Bias, 2) + BytesOf(BigEndian, mantissa, 8);
  }

  lemma ModSmall(x: nat, m: nat)
    requires x < m
    ensures x % m == x
  {
  }

  /** i - 1 + bias in uint16 arithmetic does not wrap for 1 <= i <= 64. */
  lemma ExponentField(i: nat)
    requires 1 <= i <= 64
    ensures Wrap16(Wrap16(i - 1) + Bias) == i - 1 + Bias
  {
  }

  /** The mantissa m read as 1.f (m / 2^63) times 2^e, truncated to an
      integer: floor(m * 2^e / 2^63), a shift one way or the other. */
  function Scaled(m: nat, e: nat): nat {
    if e >= 63 then ShiftLeft(m, e - 63) else ShiftRight(m, 63 - e)
  }

  /** IEEEFloatToInt as written: 0 for a zero sign-and-exponent word, for a
      set sign bit and for the exponent field 0x1111; otherwise
      (1 + frac / 2^63) * 2^exp truncated, with the explicit integer bit
      masked out of the mantissa and exp = e - bias in uint16 arithmetic. */
  function ExtendedToIntAsWritten(b: Extended80): (r: nat)
    ensures Uint16Of(BigEndian, b[..2]) == 0 ==> r == 0
    ensures Uint16Of(BigEndian, b[..2]) / 0x8000 == 1 ==> r == 0
    ensures Uint16Of(BigEndian, b[..2]) % 0x8000 == 0x1111 ==> r == 0
    ensures var se := Uint16Of(BigEndian, b[..2]);
      se < 0x8000 && Bias <= se < 0x7FFF ==> r == ExtendedToInt(b)
  {
    var se := Uint16Of(BigEndian, b[..2]);
    if se == 0 then 0
    else if se / 0x8000 == 1 then 0
    else
      var e := se % 0x8000;
      if e == 0x1111 then 0
      else
        var bias := if e == 0 then Bias - 1 else Bias;
        var exp := Wrap16(e - bias);
        var frac := Uint64Of(BigEndian, b[2..]) % TwoTo63;
        Scaled(TwoTo63 + frac, exp)
  }

  /** IEEEFloatToInt as intended: the all-ones exponent 0x7FFF (infinity and
      NaN) gives 0, and so does every exponent below the bias, whose value
      is below 1; otherwise the exact truncated value. */
  function ExtendedToInt(b: Extended80): (r: nat)
    ensures Uint16Of(BigEndian, b[..2]) / 0x8000 == 1 ==> r == 0
    ensures Uint16Of(BigEndian, b[..2]) % 0x8000 == 0x7FFF ==> r == 0
    ensures Uint16Of(BigEndian, b[..2]) % 0x8000 < Bias ==> r == 0
  {
    var se := Uint16Of(BigEndian, b[..2]);
    if se / 0x8000 == 1 then 0
    else
      var e := se % 0x8000;
      if e == 0x7FFF || e < Bias then 0
      else
        var frac := Uint64Of(BigEndian, b[2..]) % TwoTo63;
        Scaled(TwoTo63 + frac, e - Bias)
  }

  /** In the normal range, sign clear and Bias <= e < 0x7FFF, the
      conversion truncates the value the bytes denote, (1 + frac / 2^63) *
      2^(e - bias): scaled by 2^63, the result is the largest integer not
      above (2^63 + frac) * 2^(e - bias). Both readings agree there, so a
      rate with a fraction, such as 22254.54 Hz, reads as its integer
      part. */
  lemma ExtendedToIntTruncates(b: Extended80)
    requires Bias <= Uint16Of(BigEndian, b[..2]) < 0x7FFF
    ensures var m := TwoTo63 + Uint64Of(BigEndian, b[2..]) % TwoTo63;
      var k := Uint16Of(BigEndian, b[..2]) - Bias;
      var r := ExtendedToInt(b);
      r * TwoTo63 <= m * Pow2(k) < (r + 1) * TwoTo63
    ensures ExtendedToIntAsWritten(b) == ExtendedToInt(b)
  {
    var m := TwoTo63 + Uint64Of(BigEndian, b[2..]) % TwoTo63;
    var k := Uint16Of(BigEndian, b[..2]) - Bias;
    ScaledTruncates(m, k);
    Pow2Constants();
  }

  /** Scaled(m, e) is floor(m * 2^e / 2^63). */
  lemma ScaledTruncates(m: nat, e: nat)
    ensures Scaled(m, e) * Pow2(63) <= m * Pow2(e) < (Scaled(m, e) + 1) * Pow2(63)
  {
    if e >= 63 {
      ScaledUp(m, e);
    } else {
      ScaledDown(m, e);
    }
  }

  /** From 2^63 up the shift is exact: m * 2^e = (m << (e - 63)) * 2^63. */
  lemma ScaledUp(m: nat, e: nat)
    requires e >= 63
    ensures Scaled(m, e) * Pow2(63) == m * Pow2(e)
    ensures m * Pow2(e) < (Scaled(m, e) + 1) * Pow2(63)
  {
    ShiftLeftIsProduct(m, e - 63);
    Pow2Add(e - 63, 63);
    MulAssoc(m, Pow2(e - 63), Pow2(63));
    AddOneMore(Scaled(m, e), Pow2(63));
  }

  lemma AddOneMore(q: nat, d: nat)
    requires d > 0
    ensures q * d < (q + 1) * d
  {
  }

  /** Below 2^63 the shift truncates: m >> (63 - e) is the quotient by
      2^(63 - e), and both bounds scale by 2^e. */
  lemma ScaledDown(m: nat, e: nat)
    requires e < 63
    ensures Scaled(m, e) * Pow2(63) <= m * Pow2(e) < (Scaled(m, e) + 1) * Pow2(63)
  {
    var d := Pow2(63 - e);
    ShiftRightIsQuotient(m, 63 - e);
    Pow2Add(63 - e, e);
    QuotientBounds(m, d);
    ScaleBounds(m, m / d, d, Pow2(e));
  }

  /** Bounds q * d <= m < (q + 1) * d scaled by p. */
  lemma ScaleBounds(m: nat, q: nat, d: nat, p: nat)
    requires q * d <= m < (q + 1) * d && p > 0
    ensures q * (d * p) <= m * p < (q + 1) * (d * p)
  {
    MulMonotone(q * d, m, p);
    MulMonotoneStrict(m, (q + 1) * d, p);
    MulAssoc(q, d, p);
    MulAssoc(q + 1, d, p);
  }

  lemma QuotientBounds(m: nat, d: nat)
    requires d > 0
    ensures (m / d) * d <= m < (m / d + 1) * d
  {
  }

  lemma MulAssoc(a: nat, b: nat, c: nat)
    ensures a * b * c == a * (b * c)
  {
  }

  lemma MulMonotone(a: nat, b: nat, c: nat)
    requires a <= b
    ensures a * c <= b * c
  {
  }

  lemma MulMonotoneStrict(a: nat, b: nat, c: nat)
    requires a < b && c > 0
    ensures a * c < b * c
  {
  }

  /** m << k is m * 2^k. */
  lemma {:induction false} ShiftLeftIsProduct(m: nat, k: nat)
    ensures ShiftLeft(m, k) == m * Pow2(k)
  {
    if k > 0 {
      ShiftLeftIsProduct(m, k - 1);
      MulAssoc(m, 2, Pow2(k - 1));
    }
  }

  /** m >> k is m / 2^k: halving k times truncates only once. */
  lemma {:induction false} ShiftRightIsQuotient(m: nat, k: nat)
    ensures ShiftRight(m, k) == m / Pow2(k)
  {
    if k > 0 {
      ShiftRightIsQuotient(m / 2, k - 1);
      HalveThenDivide(m, Pow2(k - 1));
    }
  }

  /** (m / 2) / p == m / (2 * p) for positive p. */
  lemma HalveThenDivide(m: nat, p: nat)
    requires p > 0
    ensures (m / 2) / p == m / (2 * p)
  {
    var q := (m / 2) / p;
    var r1 := (m / 2) % p;
    var r0 := m % 2;
    assert m / 2 == q * p + r1;
    assert m == 2 * (q * p) + 2 * r1 + r0;
    assert 2 * (q * p) == q * (2 * p);
    assert 2 * r1 + r0 < 2 * p;
    DivUnique(m, 2 * p, q, 2 * r1 + r0);
  }

  lemma DivUnique(m: nat, d: nat, q: nat, r: nat)
    requires d > 0 && r < d && m == q * d + r
    ensures m / d == q
  {
    var q' := m / d;
    QuotientBounds(m, d);
    if q' > q {
      MulMonotone(q + 1, q', d);
    } else if q' < q {
      MulMonotone(q' + 1, q, d);
    }
  }

  /** Converting an integer and back gives it again, with either reading
      of the exponent: the encoder never produces 0x1111, 0x7FFF or an
      exponent below the bias. */
  lemma ExtendedRoundTrip(v: uint64)
    ensures ExtendedToInt(IeeeOf(v)) == v
    ensures ExtendedToIntAsWritten(IeeeOf(v)) == v
  {
    if v > 0 {
      var n := BitLength(v);
      DecodedFields(v);
      ShiftRightLeft(v, 64 - n);
      assert ExtendedToInt(IeeeOf(v)) == v;
    }
  }

  /** What both conversions read from IeeeOf(v): a clear sign, the
      exponent field n - 1 + 16383 and the mantissa v << (64 - n), whose
      integer bit is set. */
  lemma DecodedFields(v: uint64)
    requires v > 0
    ensures var r := IeeeOf(v); var n := BitLength(v);
      var se := Uint16Of(BigEndian, r[..2]);
      var m := Uint64Of(BigEndian, r[2..]);
      1 <= n <= 64 && se / 0x8000 == 0 && se % 0x8000 == n - 1 + Bias
      && TwoTo63 + m % TwoTo63 == ShiftLeft(v, 64 - n)
  {
    IeeeLayout(v);
  }

  /** The exponent field 0x7FFF (infinity, NaN) is not caught by the test
      for 0x1111: the as-written conversion returns at least 2^63 where 0
      is meant. */
  lemma InfinityNotCaught(b: Extended80)
    requires Uint16Of(BigEndian, b[..2]) == 0x7FFF
    ensures ExtendedToIntAsWritten(b) >= TwoTo63
    ensures ExtendedToInt(b) == 0
  {
    var frac := Uint64Of(BigEndian, b[2..]) % TwoTo63;
    ShiftLeftGrows(TwoTo63 + frac, 0x7FFF - Bias - 63);
  }

  /** A positive exponent field below the bias (a value strictly between 0
      and 1) wraps around in uint16 arithmetic: the as-written conversion
      returns at least 2^63 where 0 is meant. Only 0x1111 is caught, by
      the test meant for infinity. */
  lemma SmallExponentWraps(b: Extended80)
    requires 0 < Uint16Of(BigEndian, b[..2]) < Bias && Uint16Of(BigEndian, b[..2]) != 0x1111
    ensures ExtendedToIntAsWritten(b) >= TwoTo63
    ensures ExtendedToInt(b) == 0
  {
    var e := Uint16Of(BigEndian, b[..2]);
    var frac := Uint64Of(BigEndian, b[2..]) % TwoTo63;
    assert Wrap16(e - Bias) == e - Bias + 0x1_0000;
    ShiftLeftGrows(TwoTo63 + frac, Wrap16(e - Bias) - 63);
  }

  /** Concrete inputs: positive infinity 7F FF 80 00 .. 00 and one half,
      3F FE 80 00 .. 00. */
  lemma ConversionCounterexamples()
    ensures ExtendedToIntAsWritten([0x7F, 0xFF, 0x80, 0, 0, 0, 0, 0, 0, 0]) >= TwoTo63
    ensures ExtendedToIntAsWritten([0x3F, 0xFE, 0x80, 0, 0, 0, 0, 0, 0, 0]) >= TwoTo63
    ensures ExtendedToInt([0x3F, 0xFE, 0x80, 0, 0, 0, 0, 0, 0, 0]) == 0
  {
    var inf: Extended80 := [0x7F, 0xFF, 0x80, 0, 0, 0, 0, 0, 0, 0];
    assert inf[..2] == [0x7F, 0xFF];
    InfinityNotCaught(inf);
    var half: Extended80 := [0x3F, 0xFE, 0x80, 0, 0, 0, 0, 0, 0, 0];
    assert half[..2] == [0x3F, 0xFE];
    SmallExponentWraps(half);
  }

  /** The inputs of the library's own conversion test (functions_test.go). */
  const ConversionTestValues: seq<uint64> := [0, 1, 8000, 41400, 4800, 96000, 192000, 384000]

  /** Each of those values reads back under both the written and the
      intended conversion. */
  lemma KnownRates()
    ensures forall v | v in ConversionTestValues ::
      ExtendedToInt(IeeeOf(v)) == v && ExtendedToIntAsWritten(IeeeOf(v)) == v
  {
    forall v | v in ConversionTestValues
      ensures ExtendedToInt(IeeeOf(v)) == v && ExtendedToIntAsWritten(IeeeOf(v)) == v
    {
      ExtendedRoundTrip(v);
    }
  }
}

=== FILE: fields.dfy ===
/** A run of binary.Read calls over one bytes.Reader, each filtered through
    handleError (comm.go:158-164). Every fixed-layout decoder of the library
    reads its payload this way: fields in order, stopping at the first read
    that fails. A read of n > 0 bytes from an exhausted reader yields io.EOF,
    which handleError turns into success; a read that finds some but fewer
    than n bytes yields io.ErrUnexpectedEOF, which stays an error; a read of
    zero bytes always succeeds. Fields not reached keep their zero value. */
module Fields {
  import opened Binary
  import opened Errors

  datatype Outcome =
    | Complete    // every field was read
    | EndOfData   // the reader ran dry exactly at a field boundary (io.EOF, filtered)
    | Truncated   // the reader ran dry inside a field (io.ErrUnexpectedEOF)

  datatype FieldRead = FieldRead(fields: seq<seq<byte>>, outcome: Outcome)

  /** Byte offset of field k in a layout of the given widths. */
  function Offset(widths: seq<nat>, k: nat): nat
    requires k <= |widths|
  {
    if k == 0 then 0 else widths[0] + Offset(widths[1..], k - 1)
  }

  /** Total size of a layout. */
  function Size(widths: seq<nat>): nat {
    Offset(widths, |widths|)
  }

  lemma {:induction false} OffsetMonotone(widths: seq<nat>, j: nat, k: nat)
    requires j <= k <= |widths|
    ensures Offset(widths, j) <= Offset(widths, k)
  {
    if j > 0 {
      OffsetMonotone(widths[1..], j - 1, k - 1);
    }
  }

  lemma {:induction false} OffsetStep(widths: seq<nat>, k: nat)
    requires k < |widths|
    ensures Offset(widths, k + 1) == Offset(widths, k) + widths[k]
  {
    if k > 0 {
      OffsetStep(widths[1..], k - 1);
    }
  }

  /** What a successful read of field k yields: its bytes when the input
      covers the whole field, its zero value otherwise. */
  function FieldAt(buf: seq<byte>, widths: seq<nat>, k: nat): (r: seq<byte>)
    requires k < |widths|
    ensures |r| == widths[k]
  {
    OffsetStep(widths, k);
    if Offset(widths, k + 1) <= |buf| then buf[Offset(widths, k)..Offset(widths, k + 1)]
    else Zeros(widths[k])
  }

  /** Whether n is one of the offsets at which a field of the layout starts
      or the layout ends. */
  ghost predicate AtBoundary(widths: seq<nat>, n: nat) {
    exists j | 0 <= j <= |widths| :: Offset(widths, j) == n
  }

  /** Read the fields of the given widths, in order, from buf. */
  function ReadFields(buf: seq<byte>, widths: seq<nat>): (r: FieldRead)
    ensures |r.fields| == |widths|
    ensures forall k | 0 <= k < |widths| :: |r.fields[k]| == widths[k]
  {
    if |widths| == 0 then
      FieldRead([], Complete)
    else if |buf| == 0 && widths[0] > 0 then
      FieldRead(ZeroFields(widths), EndOfData)
    else if |buf| < widths[0] then
      FieldRead(ZeroFields(widths), Truncated)
    else
      var rest := ReadFields(buf[widths[0]..], widths[1..]);
      FieldRead([buf[..widths[0]]] + rest.fields, rest.outcome)
  }

  /** Each field read is the field's bytes when the input covers it and its
      zero value otherwise; the run completes exactly when the input holds
      the whole layout, and ends with io.EOF exactly when the input stops
      short at a field boundary. */
  lemma {:induction false} ReadFieldsSpec(buf: seq<byte>, widths: seq<nat>)
    ensures var r := ReadFields(buf, widths);
      && (forall k | 0 <= k < |widths| :: r.fields[k] == FieldAt(buf, widths, k))
      && (r.outcome == Complete <==> Size(widths) <= |buf|)
      && (r.outcome == EndOfData <==> |buf| < Size(widths) && AtBoundary(widths, |buf|))
  {
    if |widths| == 0 {
      assert Size(widths) == 0;
      assert Offset(widths, 0) == |buf| ==> AtBoundary(widths, |buf|);
    } else if |buf| < widths[0] {
      FirstFieldMissing(buf, widths);
      forall k | 0 <= k < |widths|
        ensures ReadFields(buf, widths).fields[k] == FieldAt(buf, widths, k)
      {
        OffsetStep(widths, k);
      }
    } else {
      var rest := ReadFields(buf[widths[0]..], widths[1..]);
      ReadFieldsSpec(buf[widths[0]..], widths[1..]);
      ReadFieldsStep(buf, widths, rest, ReadFields(buf, widths));
    }
  }

  /** The error a decoder hands back after a run of reads: handleError
      drops io.EOF and keeps io.ErrUnexpectedEOF. */
  function Filtered(o: Outcome): (r: Option<Error>)
    ensures r.Some? <==> o == Truncated
  {
    if o == Truncated then Some(UnexpectedEOF) else None
  }

  /** The zero value of every field of a layout. */
  function ZeroFields(widths: seq<nat>): (r: seq<seq<byte>>)
    ensures |r| == |widths|
    ensures forall k | 0 <= k < |widths| :: r[k] == Zeros(widths[k])
  {
    seq(|widths|, k requires 0 <= k < |widths| => Zeros(widths[k]))
  }

  /** When the first field cannot be read in full, no field is read, the
      layout is not complete, and the input length is a boundary only if
      it is zero. */
  lemma FirstFieldMissing(buf: seq<byte>, widths: seq<nat>)
    requires |widths| > 0 && |buf| < widths[0]
    ensures forall k | 1 <= k <= |widths| :: Offset(widths, k) > |buf|
    ensures |buf| < Size(widths)
    ensures AtBoundary(widths, |buf|) <==> |buf| == 0
  {
    forall k | 1 <= k <= |widths|
      ensures Offset(widths, k) > |buf|
    {
      OffsetMonotone(widths, 1, k);
    }
    OffsetMonotone(widths, 1, |widths|);
    if |buf| > 0 {
      forall j | 0 <= j <= |widths|
        ensures Offset(widths, j) != |buf|
      {
        if j > 0 {
          OffsetMonotone(widths, 1, j);
        }
      }
    } else {
      assert Offset(widths, 0) == 0;
    }
  }

  lemma ReadFieldsStep(buf: seq<byte>, widths: seq<nat>, rest: FieldRead, r: FieldRead)
    requires |widths| > 0 && widths[0] <= |buf|
    requires |rest.fields| == |widths| - 1
    requires forall k | 0 <= k < |widths| - 1 :: |rest.fields[k]| == widths[1..][k]
    requires forall k | 0 <= k < |widths| - 1 :: rest.fields[k] == FieldAt(buf[widths[0]..], widths[1..], k)
    requires rest.outcome == Complete <==> Size(widths[1..]) <= |buf[widths[0]..]|
    requires rest.outcome == EndOfData <==>
      |buf[widths[0]..]| < Size(widths[1..]) && AtBoundary(widths[1..], |buf[widths[0]..]|)
    requires r == FieldRead([buf[..widths[0]]] + rest.fields, rest.outcome)
    ensures |r.fields| == |widths|
    ensures forall k | 0 <= k < |widths| :: |r.fields[k]| == widths[k]
    ensures forall k | 0 <= k < |widths| :: r.fields[k] == FieldAt(buf, widths, k)
    ensures r.outcome == Complete <==> Size(widths) <= |buf|
    ensures r.outcome == EndOfData <==> |buf| < Size(widths) && AtBoundary(widths, |buf|)
  {
    forall k | 0 <= k < |widths|
      ensures r.fields[k] == FieldAt(buf, widths, k)
    {
      if k == 0 {
        assert Offset(widths, 1) == widths[0] + Offset(widths[1..], 0);
      } else {
        assert r.fields[k] == rest.fields[k - 1];
        FieldAtStep(buf, widths, k);
      }
    }
    assert Size(widths) == widths[0] + Size(widths[1..]);
    BoundaryStep(buf, widths);
  }

  /** Field k of buf is field k - 1 of what follows the first field. */
  lemma FieldAtStep(buf: seq<byte>, widths: seq<nat>, k: nat)
    requires 0 < k < |widths| && widths[0] <= |buf|
    ensures FieldAt(buf, widths, k) == FieldAt(buf[widths[0]..], widths[1..], k - 1)
  {
    var w := widths[0];
    var tail := buf[w..];
    var a := Offset(widths[1..], k - 1);
    var b := Offset(widths[1..], k);
    assert Offset(widths, k) == w + a;
    assert Offset(widths, k + 1) == w + b;
    OffsetStep(widths[1..], k - 1);
    if w + b <= |buf| {
      assert buf[w + a..w + b] == tail[a..b];
    }
  }

  /** Past a first field that fits, the boundaries of buf are the
      boundaries of the rest shifted by the first width. */
  lemma BoundaryStep(buf: seq<byte>, widths: seq<nat>)
    requires |widths| > 0 && widths[0] <= |buf|
    ensures AtBoundary(widths, |buf|) <==> AtBoundary(widths[1..], |buf| - widths[0])
  {
    var tail := buf[widths[0]..];
    if AtBoundary(widths, |buf|) {
      var j :| 0 <= j <= |widths| && Offset(widths, j) == |buf|;
      if j == 0 {
        assert Offset(widths, 1) == |buf|;
        j := 1;
      }
      assert Offset(widths[1..], j - 1) == |tail|;
    }
    if AtBoundary(widths[1..], |tail|) {
      var j :| 0 <= j <= |widths| - 1 && Offset(widths[1..], j) == |tail|;
      assert Offset(widths, j + 1) == |buf|;
    }
  }

  /** A complete read looks at nothing past the end of the layout. */
  lemma {:induction false} ReadFieldsPrefix(buf: seq<byte>, widths: seq<nat>, n: nat)
    requires Size(widths) <= n <= |buf|
    ensures ReadFields(buf[..n], widths) == ReadFields(buf, widths)
  {
    if |widths| > 0 {
      var w := widths[0];
      assert Size(widths) == w + Size(widths[1..]);
      assert buf[..n][w..] == buf[w..][..n - w];
      assert buf[..n][..w] == buf[..w];
      ReadFieldsPrefix(buf[w..], widths[1..], n - w);
    }
  }

  /** A read the input covers in full: its fields, laid end to end, are the
      bytes the layout covers. */
  lemma {:induction false} ReadFieldsCovered(buf: seq<byte>, widths: seq<nat>)
    requires Size(widths) <= |buf|
    ensures Flatten(ReadFields(buf, widths).fields) == buf[..Size(widths)]
  {
    if |widths| > 0 {
      var w := widths[0];
      assert Size(widths) == w + Size(widths[1..]);
      var rest := ReadFields(buf[w..], widths[1..]);
      ReadFieldsCovered(buf[w..], widths[1..]);
      assert ([buf[..w]] + rest.fields)[1..] == rest.fields;
      assert buf[..Size(widths)] == buf[..w] + buf[w..][..Size(widths[1..])];
    }
  }

  /** A slice of what follows the first n bytes. */
  lemma TailSlice(buf: seq<byte>, n: nat, i: nat, j: nat)
    requires i <= j && n + j <= |buf|
    ensures buf[n..][i..j] == buf[n + i..n + j]
  {
  }

  /** The concatenation of a sequence of byte strings. */
  function Flatten(pieces: seq<seq<byte>>): (r: seq<byte>)
  {
    if |pieces| == 0 then [] else pieces[0] + Flatten(pieces[1..])
  }

  lemma {:induction false} FlattenAppend(a: seq<seq<byte>>, b: seq<seq<byte>>)
    ensures Flatten(a + b) == Flatten(a) + Flatten(b)
  {
    if |a| == 0 {
      assert a + b == b;
    } else {
      assert (a + b)[1..] == a[1..] + b;
      FlattenAppend(a[1..], b);
    }
  }

  /** Whether each piece has exactly the width of the field it encodes. */
  ghost predicate Fits(pieces: seq<seq<byte>>, widths: seq<nat>) {
    |pieces| == |widths| && forall k | 0 <= k < |widths| :: |pieces[k]| == widths[k]
  }

  /** Encoding every field at its width and reading the layout back returns
      the very pieces that were written, whatever follows them. */
  lemma {:induction false} ReadFlatten(pieces: seq<seq<byte>>, widths: seq<nat>, rest: seq<byte>)
    requires Fits(pieces, widths)
    ensures ReadFields(Flatten(pieces) + rest, widths) == FieldRead(pieces, Complete)
  {
    if |widths| > 0 {
      var buf := Flatten(pieces) + rest;
      assert buf == pieces[0] + (Flatten(pieces[1..]) + rest);
      assert buf[..widths[0]] == pieces[0];
      assert buf[widths[0]..] == Flatten(pieces[1..]) + rest;
      ReadFlatten(pieces[1..], widths[1..], rest);
      assert [pieces[0]] + pieces[1..] == pieces;
    }
  }

  /** Reading a longer layout over exactly the pieces of its first part:
      the pieces come back, the remaining fields keep their zero value,
      and the reader runs dry at a field boundary. */
  lemma {:induction false} ReadFlattenEnd(pieces: seq<seq<byte>>, widths: seq<nat>, more: seq<nat>)
    requires Fits(pieces, widths) && |more| > 0 && more[0] > 0
    ensures ReadFields(Flatten(pieces), widths + more) == FieldRead(pieces + ZeroFields(more), EndOfData)
  {
    if |widths| == 0 {
      ReadNothing(more);
      assert widths + more == more;
      assert pieces + ZeroFields(more) == ZeroFields(more);
    } else {
      ReadFlattenEnd(pieces[1..], widths[1..], more);
      ReadFlattenEndStep(pieces, widths, more);
    }
  }

  /** Nothing to read before a field of positive width: io.EOF at once. */
  lemma ReadNothing(widths: seq<nat>)
    requires |widths| > 0 && widths[0] > 0
    ensures ReadFields([], widths) == FieldRead(ZeroFields(widths), EndOfData)
  {
  }

  lemma ReadFlattenEndStep(pieces: seq<seq<byte>>, widths: seq<nat>, more: seq<nat>)
    requires Fits(pieces, widths) && |widths| > 0
    requires ReadFields(Flatten(pieces[1..]), widths[1..] + more)
      == FieldRead(pieces[1..] + ZeroFields(more), EndOfData)
    ensures ReadFields(Flatten(pieces), widths + more) == FieldRead(pieces + ZeroFields(more), EndOfData)
  {
    var buf := Flatten(pieces);
    var w := widths + more;
    HeadTail(widths, more);
    HeadTail(pieces, ZeroFields(more));
    assert buf[..widths[0]] == pieces[0];
    assert buf[widths[0]..] == Flatten(pieces[1..]);
    ReadFieldsUnfold(buf, w);
  }

  lemma HeadTail<T>(a: seq<T>, b: seq<T>)
    requires |a| > 0
    ensures (a + b)[0] == a[0] && (a + b)[1..] == a[1..] + b
    ensures [a[0]] + (a[1..] + b) == a + b
  {
  }

  /** A read whose first field fits: that field, then the read of the rest. */
  lemma ReadFieldsUnfold(buf: seq<byte>, widths: seq<nat>)
    requires |widths| > 0 && widths[0] <= |buf|
    ensures var rest := ReadFields(buf[widths[0]..], widths[1..]);
      ReadFields(buf, widths) == FieldRead([buf[..widths[0]]] + rest.fields, rest.outcome)
  {
  }

  /** Five pieces flattened: their concatenation. */
  lemma FlattenFive(a: seq<byte>, b: seq<byte>, c: seq<byte>, d: seq<byte>, e: seq<byte>)
    ensures Flatten([a, b, c, d, e]) == a + b + c + d + e
  {
    assert [a, b, c, d, e][1..] == [b, c, d, e];
    assert [b, c, d, e][1..] == [c, d, e];
    assert [c, d, e][1..] == [d, e];
    assert [d, e][1..] == [e];
    assert Flatten([e]) == e;
    assert Flatten([d, e]) == d + e;
    assert Flatten([c, d, e]) == c + (d + e);
    assert Flatten([b, c, d, e]) == b + (c + (d + e));
  }

  /** Reading one field of positive width more than the pieces hold: the
      pieces come back, the last field stays zero, io.EOF at the boundary. */
  lemma ReadFlattenEndOne(pieces: seq<seq<byte>>, widths: seq<nat>, w: nat)
    requires Fits(pieces, widths) && w > 0
    ensures ReadFields(Flatten(pieces), widths + [w]) == FieldRead(pieces + [Zeros(w)], EndOfData)
  {
    ReadFlattenEnd(pieces, widths, [w]);
    assert ZeroFields([w]) == [Zeros(w)];
  }

  /** Each piece of a flattened layout sits at its field's offset. */
  lemma FlattenAt(pieces: seq<seq<byte>>, widths: seq<nat>, k: nat)
    requires Fits(pieces, widths) && k < |widths|
    ensures Offset(widths, k) + widths[k] <= |Flatten(pieces)|
    ensures Flatten(pieces)[Offset(widths, k)..Offset(widths, k) + widths[k]] == pieces[k]
  {
    var buf := Flatten(pieces);
    ReadFlatten(pieces, widths, []);
    assert buf + [] == buf;
    ReadFieldsSpec(buf, widths);
    FlattenLength(pieces, widths);
    FieldAtWithin(buf, widths, k);
  }

  /** A field the buffer covers is read as the buffer's bytes at its
      offset. */
  lemma FieldAtWithin(buf: seq<byte>, widths: seq<nat>, k: nat)
    requires k < |widths| && Size(widths) <= |buf|
    ensures Offset(widths, k) + widths[k] <= |buf|
    ensures FieldAt(buf, widths, k) == buf[Offset(widths, k)..Offset(widths, k) + widths[k]]
  {
    OffsetStep(widths, k);
    OffsetMonotone(widths, k + 1, |widths|);
  }

  /** A slice of a slice is a slice of the whole. */
  lemma SubSlice(s: seq<byte>, i: nat, j: nat, k: nat, l: nat)
    requires i <= j <= |s| && k <= l <= j - i
    ensures s[i..j][k..l] == s[i + k..i + l]
  {
    forall x | 0 <= x < l - k
      ensures s[i..j][k..l][x] == s[i + k..i + l][x]
    {
      assert s[i..j][k..l][x] == s[i + k + x];
    }
  }

  lemma {:induction false} FlattenLength(pieces: seq<seq<byte>>, widths: seq<nat>)
    requires Fits(pieces, widths)
    ensures |Flatten(pieces)| == Size(widths)
  {
    if |widths| > 0 {
      FlattenLength(pieces[1..], widths[1..]);
    }
  }

  /** Each byte as a one-byte piece: the layout of a byte array read one
      uint8 field at a time. */
  function Units(s: seq<byte>): (r: seq<seq<byte>>)
    ensures |r| == |s|
    ensures forall k | 0 <= k < |s| :: r[k] == [s[k]]
  {
    seq(|s|, k requires 0 <= k < |s| => [s[k]])
  }

  lemma {:induction false} FlattenUnits(s: seq<byte>)
    ensures Flatten(Units(s)) == s
  {
    if |s| > 0 {
      assert Units(s)[1..] == Units(s[1..]);
      FlattenUnits(s[1..]);
    }
  }

  /** The layout of a byte array read one uint8 field at a time. */
  function Ones(n: nat): (r: seq<nat>)
    ensures |r| == n
    ensures forall k | 0 <= k < n :: r[k] == 1
  {
    seq(n, _ => 1)
  }

  lemma {:induction false} OffsetOnes(n: nat, j: nat)
    requires j <= n
    ensures Offset(Ones(n), j) == j
  {
    if j > 0 {
      assert Ones(n)[1..] == Ones(n - 1);
      OffsetOnes(n - 1, j - 1);
    }
  }

  /** Every offset up to its size is a boundary of a byte-at-a-time layout. */
  lemma OnesBoundary(n: nat, m: nat)
    ensures AtBoundary(Ones(n), m) <==> m <= n
  {
    if m <= n {
      OffsetOnes(n, m);
    }
    if AtBoundary(Ones(n), m) {
      var j :| 0 <= j <= n && Offset(Ones(n), j) == m;
      OffsetOnes(n, j);
    }
  }

  /** A field of a layout that precedes another is at the same offset in
      the combined layout. */
  lemma {:induction false} OffsetPrefix(w1: seq<nat>, w2: seq<nat>, j: nat)
    requires j <= |w1|
    ensures Offset(w1 + w2, j) == Offset(w1, j)
  {
    if j > 0 {
      assert (w1 + w2)[1..] == w1[1..] + w2;
      OffsetPrefix(w1[1..], w2, j - 1);
    }
  }

  /** A field of a layout that follows another is shifted by the first
      layout's size. */
  lemma {:induction false} OffsetAppend(w1: seq<nat>, w2: seq<nat>, j: nat)
    requires j <= |w2|
    ensures Offset(w1 + w2, |w1| + j) == Size(w1) + Offset(w2, j)
  {
    if |w1| == 0 {
      assert w1 + w2 == w2;
    } else {
      assert (w1 + w2)[1..] == w1[1..] + w2;
      OffsetAppend(w1[1..], w2, j);
    }
  }

  lemma SizeAppend(w1: seq<nat>, w2: seq<nat>)
    ensures Size(w1 + w2) == Size(w1) + Size(w2)
  {
    OffsetAppend(w1, w2, |w2|);
  }

  /** The boundaries of a combined layout: those of the first part, and
      those of the second shifted by the first part's size. */
  lemma BoundaryAppend(w1: seq<nat>, w2: seq<nat>, n: nat)
    ensures AtBoundary(w1 + w2, n) <==>
      AtBoundary(w1, n) || (n >= Size(w1) && AtBoundary(w2, n - Size(w1)))
  {
    if AtBoundary(w1 + w2, n) {
      var j :| 0 <= j <= |w1 + w2| && Offset(w1 + w2, j) == n;
      if j <= |w1| {
        OffsetPrefix(w1, w2, j);
      } else {
        OffsetAppend(w1, w2, j - |w1|);
        OffsetMonotone(w2, 0, j - |w1|);
      }
    }
    if AtBoundary(w1, n) {
      var j :| 0 <= j <= |w1| && Offset(w1, j) == n;
      OffsetPrefix(w1, w2, j);
    }
    if n >= Size(w1) && AtBoundary(w2, n - Size(w1)) {
      var j :| 0 <= j <= |w2| && Offset(w2, j) == n - Size(w1);
      OffsetAppend(w1, w2, j);
    }
  }

  lemma ZeroFieldsAppend(w1: seq<nat>, w2: seq<nat>)
    ensures ZeroFields(w1 + w2) == ZeroFields(w1) + ZeroFields(w2)
  {
  }

  /** Zero fields flatten to zero bytes. */
  lemma {:induction false} FlattenZeroFields(widths: seq<nat>)
    ensures Flatten(ZeroFields(widths)) == Zeros(Size(widths))
  {
    if |widths| > 0 {
      assert ZeroFields(widths)[1..] == ZeroFields(widths[1..]);
      FlattenZeroFields(widths[1..]);
      assert Size(widths) == widths[0] + Size(widths[1..]);
    }
  }

  lemma FitsAppend(a: seq<seq<byte>>, w1: seq<nat>, b: seq<seq<byte>>, w2: seq<nat>)
    requires Fits(a, w1) && Fits(b, w2)
    ensures Fits(a + b, w1 + w2)
  {
  }

  /** A run of reads over two layouts in a row: the second runs on what the
      first leaves when the first completes, and its fields stay zero
      otherwise. */
  ghost predicate ReadsInTurn(buf: seq<byte>, w1: seq<nat>, w2: seq<nat>) {
    var r := ReadFields(buf, w1 + w2);
    var a := ReadFields(buf, w1);
    && (Size(w1) <= |buf| ==>
         var b := ReadFields(buf[Size(w1)..], w2);
         r == FieldRead(a.fields + b.fields, b.outcome))
    && (|buf| < Size(w1) ==> r == FieldRead(a.fields + ZeroFields(w2), a.outcome))
  }

  lemma {:induction false} ReadFieldsAppend(buf: seq<byte>, w1: seq<nat>, w2: seq<nat>)
    ensures ReadsInTurn(buf, w1, w2)
  {
    if |w1| == 0 {
      assert w1 + w2 == w2;
      assert buf[0..] == buf;
    } else if |buf| < w1[0] {
      ReadShortAppend(buf, w1, w2);
    } else {
      ReadFieldsAppend(buf[w1[0]..], w1[1..], w2);
      ReadAppendStep(buf, w1, w2);
    }
  }

  lemma ReadShortAppend(buf: seq<byte>, w1: seq<nat>, w2: seq<nat>)
    requires |w1| > 0 && |buf| < w1[0]
    ensures ReadsInTurn(buf, w1, w2)
  {
    HeadTail(w1, w2);
    FirstFieldMissing(buf, w1);
    ZeroFieldsAppend(w1, w2);
  }

  lemma ReadAppendStep(buf: seq<byte>, w1: seq<nat>, w2: seq<nat>)
    requires |w1| > 0 && w1[0] <= |buf|
    requires ReadsInTurn(buf[w1[0]..], w1[1..], w2)
    ensures ReadsInTurn(buf, w1, w2)
  {
    var t := buf[w1[0]..];
    var rt := ReadFields(t, w1[1..] + w2);
    var at := ReadFields(t, w1[1..]);
    HeadTail(w1, w2);
    ReadFieldsUnfold(buf, w1 + w2);
    ReadFieldsUnfold(buf, w1);
    assert ReadFields(buf, w1 + w2) == FieldRead([buf[..w1[0]]] + rt.fields, rt.outcome);
    assert ReadFields(buf, w1) == FieldRead([buf[..w1[0]]] + at.fields, at.outcome);
    assert Size(w1) == w1[0] + Size(w1[1..]);
    if Size(w1) <= |buf| {
      assert t[Size(w1[1..])..] == buf[Size(w1)..];
      ConsAppend(buf[..w1[0]], at.fields, ReadFields(buf[Size(w1)..], w2).fields);
    } else {
      ConsAppend(buf[..w1[0]], at.fields, ZeroFields(w2));
    }
  }

  lemma ConsAppend<T>(x: T, a: seq<T>, b: seq<T>)
    ensures [x] + (a + b) == ([x] + a) + b
  {
  }

  /** Reading a byte-at-a-time layout: each field is its byte while the
      input lasts and zero after, and the run never ends mid-field. */
  lemma ReadOnes(buf: seq<byte>, n: nat)
    ensures var r := ReadFields(buf, Ones(n));
      && (forall k | 0 <= k < n :: r.fields[k] == (if k < |buf| then [buf[k]] else [0]))
      && (r.outcome == Complete <==> n <= |buf|)
      && r.outcome != Truncated
  {
    ReadFieldsSpec(buf, Ones(n));
    OffsetOnes(n, n);
    OnesBoundary(n, |buf|);
    forall k | 0 <= k < n
      ensures FieldAt(buf, Ones(n), k) == (if k < |buf| then [buf[k]] else [0])
    {
      OnesFieldAt(buf, n, k);
    }
  }

  lemma OnesFieldAt(buf: seq<byte>, n: nat, k: nat)
    requires k < n
    ensures FieldAt(buf, Ones(n), k) == (if k < |buf| then [buf[k]] else [0])
  {
    OffsetOnes(n, k);
    OffsetOnes(n, k + 1);
    assert Zeros(1) == [0];
  }

  /** The pieces of a combined layout split into the pieces of its parts. */
  lemma FitsSplit(pieces: seq<seq<byte>>, w1: seq<nat>, w2: seq<nat>)
    requires Fits(pieces, w1 + w2)
    ensures Fits(pieces[..|w1|], w1) && Fits(pieces[|w1|..], w2)
  {
    assert forall k | 0 <= k < |w1| :: (w1 + w2)[k] == w1[k];
    assert forall k | 0 <= k < |w2| :: (w1 + w2)[|w1| + k] == w2[k];
  }
}

=== FILE: fmt.dfy ===
/** The WAVE format chunk (fmt.go): a little-endian chunk header followed
    by format tag, channel count, sample rate, byte rate and block align,
    optionally extended by the bits per sample of PCM data. */
module FmtChunks {
  import opened Binary
  import opened Errors
  import opened FourCCs
  import opened Constants
  import opened ChunkHeaders
  import opened Fields

  datatype Fmt = Fmt(header: Header, format: uint16, channels: uint16, samplesPerSec: uint32,
                     bytesPerSec: uint32, blockAlign: uint16)

  datatype PcmFormat = PcmFormat(fmt: Fmt, bitsPerSample: uint16)

  /** Widths of the fmt payload fields, in reading order. */
  const FmtWidths: seq<nat> := [2, 2, 4, 4, 2]

  /** Size of the fmt payload. */
  const FmtPayloadSize: nat := 14

  /** Size of an encoded fmt chunk: header plus payload. */
  const FmtBytesSize: nat := HeaderSizeBytes + FmtPayloadSize

  /** The payload fields, each written little-endian at its width. */
  function FmtFields(fc: Fmt): (r: seq<seq<byte>>)
    ensures Fits(r, FmtWidths)
  {
    [BytesOf(LittleEndian, fc.format, 2), BytesOf(LittleEndian, fc.channels, 2),
     BytesOf(LittleEndian, fc.samplesPerSec, 4), BytesOf(LittleEndian, fc.bytesPerSec, 4),
     BytesOf(LittleEndian, fc.blockAlign, 2)]
  }

  /** FMT.Bytes: the stored header as it is (its size is not recomputed),
      then the 14-byte payload. */
  function FmtBytes(fc: Fmt): (r: seq<byte>)
    ensures |r| == FmtBytesSize
    ensures r[..HeaderSizeBytes] == Bytes(fc.header)
  {
    FlattenLength(FmtFields(fc), FmtWidths);
    FmtOffsets();
    Bytes(fc.header) + Flatten(FmtFields(fc))
  }

  lemma FmtOffsets()
    ensures Offset(FmtWidths, 1) == 2 && Offset(FmtWidths, 2) == 4 && Offset(FmtWidths, 3) == 8
    ensures Offset(FmtWidths, 4) == 12 && Offset(FmtWidths, 5) == 14 && Size(FmtWidths) == FmtPayloadSize
  {
    OffsetStep(FmtWidths, 0);
    OffsetStep(FmtWidths, 1);
    OffsetStep(FmtWidths, 2);
    OffsetStep(FmtWidths, 3);
    OffsetStep(FmtWidths, 4);
  }

  /** A payload length ends the fmt fields exactly at a field boundary when
      it is one of the field offsets. */
  lemma FmtBoundaries(n: nat)
    ensures AtBoundary(FmtWidths, n) <==> n in {0, 2, 4, 8, 12, 14}
  {
    FmtOffsets();
    if n in {0, 2, 4, 8, 12, 14} {
      var j := if n == 0 then 0 else if n == 2 then 1 else if n == 4 then 2 else if n == 8 then 3 else if n == 12 then 4 else 5;
      assert Offset(FmtWidths, j) == n;
    }
  }

  /** Every FMT field is at its fixed little-endian place in the bytes. */
  lemma FmtLayout(fc: Fmt)
    ensures var r := FmtBytes(fc);
      Uint16Of(LittleEndian, r[8..10]) == fc.format && Uint16Of(LittleEndian, r[10..12]) == fc.channels
      && Uint32Of(LittleEndian, r[12..16]) == fc.samplesPerSec && Uint32Of(LittleEndian, r[16..20]) == fc.bytesPerSec
      && Uint16Of(LittleEndian, r[20..22]) == fc.blockAlign
  {
    var r := FmtBytes(fc);
    var fs := FmtFields(fc);
    ReadFlatten(fs, FmtWidths, []);
    assert Flatten(fs) + [] == r[HeaderSizeBytes..];
    var read := ReadFields(r[HeaderSizeBytes..], FmtWidths);
    FmtOffsets();
    FmtFieldSlices(r[HeaderSizeBytes..], read.fields);
    assert r[8..10] == r[HeaderSizeBytes..][0..2];
    assert r[10..12] == r[HeaderSizeBytes..][2..4];
    assert r[12..16] == r[HeaderSizeBytes..][4..8];
    assert r[16..20] == r[HeaderSizeBytes..][8..12];
    assert r[20..22] == r[HeaderSizeBytes..][12..14];
    Uint16Bytes(LittleEndian, fc.format);
    Uint16Bytes(LittleEndian, fc.channels);
    Uint32Bytes(LittleEndian, fc.samplesPerSec);
    Uint32Bytes(LittleEndian, fc.bytesPerSec);
    Uint16Bytes(LittleEndian, fc.blockAlign);
  }

  /** Field k of a full payload is its slice at the field's offset. */
  lemma FmtFieldSlices(buf: seq<byte>, fs: seq<seq<byte>>)
    requires |buf| >= FmtPayloadSize && fs == ReadFields(buf, FmtWidths).fields
    ensures fs[0] == buf[0..2] && fs[1] == buf[2..4] && fs[2] == buf[4..8]
    ensures fs[3] == buf[8..12] && fs[4] == buf[12..14]
  {
    ReadFieldsSpec(buf, FmtWidths);
    FmtOffsets();
  }

  /** The FMT value a run of payload reads leaves behind. */
  function FmtOf(header: Header, fs: seq<seq<byte>>): Fmt
    requires Fits(fs, FmtWidths)
  {
    Fmt(header, Uint16Of(LittleEndian, fs[0]), Uint16Of(LittleEndian, fs[1]), Uint32Of(LittleEndian, fs[2]),
        Uint32Of(LittleEndian, fs[3]), Uint16Of(LittleEndian, fs[4]))
  }

  /** EncodeFMTChunk: every argument stored verbatim, size included, under a
      little-endian header at start 0. */
  function EncodeFmtChunk(id: FourCC, size: uint32, format: uint16, channels: uint16, samplesPerSec: uint32,
                          bytesPerSec: uint32, blockAlign: uint16): (r: Fmt)
    ensures r.header == EncodeChunkHeader(id, size, LittleEndian)
    ensures r.header.size == size && r.header.order == LittleEndian && r.header.startPos == 0
    ensures r.format == format && r.channels == channels && r.samplesPerSec == samplesPerSec
    ensures r.bytesPerSec == bytesPerSec && r.blockAlign == blockAlign
  {
    Fmt(EncodeChunkHeader(id, size, LittleEndian), format, channels, samplesPerSec, bytesPerSec, blockAlign)
  }

  /** DecodeFMTChunk: fewer than 8 bytes give no chunk; otherwise the header
      (start 0, little-endian) and as many payload fields as the data holds.
      The partial chunk comes back with an error exactly when the data ends
      inside a field. */
  function DecodeFmtChunk(data: seq<byte>): (r: Decoded<Fmt>)
    ensures r.chunk.None? <==> |data| < HeaderSizeBytes
    ensures r.chunk.None? ==> r.err == Some(ShortData(HeaderSizeBytes))
    ensures r.chunk.Some? ==> r.chunk.value.header == DecodeChunkHeader(data[..HeaderSizeBytes], 0, LittleEndian)
    ensures r.chunk.Some? ==> (r.err.Some? <==> HeaderSizeBytes < |data| < FmtBytesSize && |data| - HeaderSizeBytes !in {2, 4, 8, 12})
    ensures r.chunk.Some? && r.err.Some? ==> r.err == Some(UnexpectedEOF)
  {
    if |data| < HeaderSizeBytes then Decoded(None, Some(ShortData(HeaderSizeBytes)))
    else
      var header := DecodeChunkHeader(data[..HeaderSizeBytes], 0, LittleEndian);
      var read := ReadFields(data[HeaderSizeBytes..], FmtWidths);
      ReadFieldsSpec(data[HeaderSizeBytes..], FmtWidths);
      FmtOffsets();
      FmtBoundaries(|data| - HeaderSizeBytes);
      Decoded(Some(FmtOf(header, read.fields)), Filtered(read.outcome))
  }

  /** Each decoded field is the little-endian value of its bytes when the
      data covers it, and zero when the data ends before it. */
  lemma DecodeFmtFields(data: seq<byte>)
    requires |data| >= HeaderSizeBytes
    ensures var fc := DecodeFmtChunk(data).chunk.value;
      && fc.format == (if |data| >= 10 then Uint16Of(LittleEndian, data[8..10]) else 0)
      && fc.channels == (if |data| >= 12 then Uint16Of(LittleEndian, data[10..12]) else 0)
      && fc.samplesPerSec == (if |data| >= 16 then Uint32Of(LittleEndian, data[12..16]) else 0)
      && fc.bytesPerSec == (if |data| >= 20 then Uint32Of(LittleEndian, data[16..20]) else 0)
      && fc.blockAlign == (if |data| >= 22 then Uint16Of(LittleEndian, data[20..22]) else 0)
  {
    var buf := data[HeaderSizeBytes..];
    var fs := ReadFields(buf, FmtWidths).fields;
    ReadFieldsSpec(buf, FmtWidths);
    FmtOffsets();
    assert fs[0] == FieldAt(buf, FmtWidths, 0);
    assert fs[1] == FieldAt(buf, FmtWidths, 1);
    assert fs[2] == FieldAt(buf, FmtWidths, 2);
    assert fs[3] == FieldAt(buf, FmtWidths, 3);
    assert fs[4] == FieldAt(buf, FmtWidths, 4);
    if |data| >= 10 { assert buf[0..2] == data[8..10]; }
    if |data| >= 12 { assert buf[2..4] == data[10..12]; }
    if |data| >= 16 { assert buf[4..8] == data[12..16]; }
    if |data| >= 20 { assert buf[8..12] == data[16..20]; }
    if |data| >= 22 { assert buf[12..14] == data[20..22]; }
  }

  /** Decoding the bytes of a little-endian chunk at start 0 gives it back
      without error. */
  lemma DecodeOfFmtBytes(fc: Fmt)
    requires fc.header.startPos == 0 && fc.header.order == LittleEndian
    ensures DecodeFmtChunk(FmtBytes(fc)) == Decoded(Some(fc), None)
  {
    var b := FmtBytes(fc);
    ReadFlatten(FmtFields(fc), FmtWidths, []);
    assert b[HeaderSizeBytes..] == Flatten(FmtFields(fc)) + [];
    DecodeOfBytes(fc.header);
    Uint16Bytes(LittleEndian, fc.format);
    Uint16Bytes(LittleEndian, fc.channels);
    Uint32Bytes(LittleEndian, fc.samplesPerSec);
    Uint32Bytes(LittleEndian, fc.bytesPerSec);
    Uint16Bytes(LittleEndian, fc.blockAlign);
  }

  /** Re-encoding what was decoded from 22 or more bytes gives the first 22. */
  lemma FmtBytesOfDecode(data: seq<byte>)
    requires |data| >= FmtBytesSize
    ensures FmtBytes(DecodeFmtChunk(data).chunk.value) == data[..FmtBytesSize]
  {
    var fc := DecodeFmtChunk(data).chunk.value;
    var buf := data[HeaderSizeBytes..];
    var fs := ReadFields(buf, FmtWidths).fields;
    FmtOffsets();
    FmtFieldSlices(buf, fs);
    BytesUint16(LittleEndian, fs[0]);
    BytesUint16(LittleEndian, fs[1]);
    BytesUint32(LittleEndian, fs[2]);
    BytesUint32(LittleEndian, fs[3]);
    BytesUint16(LittleEndian, fs[4]);
    assert FmtFields(fc) == fs;
    FlattenFmt(buf, fs);
    BytesOfDecode(data[..HeaderSizeBytes], 0, LittleEndian);
    assert data[..FmtBytesSize] == data[..HeaderSizeBytes] + buf[..FmtPayloadSize];
  }

  lemma FlattenFmt(buf: seq<byte>, fs: seq<seq<byte>>)
    requires |buf| >= FmtPayloadSize && |fs| == 5
    requires fs[0] == buf[0..2] && fs[1] == buf[2..4] && fs[2] == buf[4..8]
    requires fs[3] == buf[8..12] && fs[4] == buf[12..14]
    ensures Flatten(fs) == buf[..FmtPayloadSize]
  {
    var t4 := fs[4..];
    assert Flatten(t4) == fs[4] by { assert t4[1..] == []; }
    assert Flatten(fs[3..]) == fs[3] + fs[4] by { assert fs[3..][1..] == t4; }
    assert Flatten(fs[2..]) == fs[2] + (fs[3] + fs[4]) by { assert fs[2..][1..] == fs[3..]; }
    assert Flatten(fs[1..]) == fs[1] + (fs[2] + (fs[3] + fs[4])) by { assert fs[1..][1..] == fs[2..]; }
    assert buf[..FmtPayloadSize] == buf[0..2] + (buf[2..4] + (buf[4..8] + (buf[8..12] + buf[12..14])));
  }

  /** PCMFormat.Bytes: the FMT bytes, then the bits per sample little-endian. */
  function PcmBytes(p: PcmFormat): (r: seq<byte>)
    ensures |r| == FmtBytesSize + 2
    ensures r[..FmtBytesSize] == FmtBytes(p.fmt)
    ensures Uint16Of(LittleEndian, r[FmtBytesSize..]) == p.bitsPerSample
  {
    Uint16Bytes(LittleEndian, p.bitsPerSample);
    var r := FmtBytes(p.fmt) + BytesOf(LittleEndian, p.bitsPerSample, 2);
    assert r[FmtBytesSize..] == BytesOf(LittleEndian, p.bitsPerSample, 2);
    r
  }

  /** EncodePCMFormatChunkChunk: EncodeFMTChunk plus the bits per sample. */
  function EncodePcmFormatChunk(id: FourCC, size: uint32, format: uint16, channels: uint16, samplesPerSec: uint32,
                                bytesPerSec: uint32, blockAlign: uint16, bitsPerSample: uint16): (r: PcmFormat)
    ensures r.fmt == EncodeFmtChunk(id, size, format, channels, samplesPerSec, bytesPerSec, blockAlign)
    ensures r.bitsPerSample == bitsPerSample
  {
    PcmFormat(EncodeFmtChunk(id, size, format, channels, samplesPerSec, bytesPerSec, blockAlign), bitsPerSample)
  }

  /** DecodePCMFormatChunk: any error of the FMT decode is passed on without
      a chunk; data shorter than the re-encoded FMT (22 bytes) is refused;
      the bits per sample read afterwards is not filtered, so no byte after
      the FMT gives io.EOF and one byte gives io.ErrUnexpectedEOF. */
  function DecodePcmFormatChunk(data: seq<byte>): (r: Decoded<PcmFormat>)
    ensures r.chunk.Some? <==> |data| >= FmtBytesSize + 2
    ensures r.chunk.Some? <==> r.err.None?
    ensures r.chunk.Some? ==> r.chunk.value.fmt == DecodeFmtChunk(data).chunk.value
    ensures r.chunk.Some? ==> r.chunk.value.bitsPerSample == Uint16Of(LittleEndian, data[FmtBytesSize..FmtBytesSize + 2])
    ensures |data| == FmtBytesSize ==> r.err == Some(EOF)
    ensures |data| == FmtBytesSize + 1 ==> r.err == Some(UnexpectedEOF)
    ensures |data| < FmtBytesSize ==> r.err == (if DecodeFmtChunk(data).err.Some? then DecodeFmtChunk(data).err else Some(ShortData(FmtBytesSize)))
  {
    var f := DecodeFmtChunk(data);
    if f.err.Some? then Decoded(None, f.err)
    else
      var fc := f.chunk.value;
      var n := |FmtBytes(fc)|;
      if |data| < n then Decoded(None, Some(ShortData(n)))
      else
        var rest := data[n..];
        if |rest| == 0 then Decoded(None, Some(EOF))
        else if |rest| < 2 then Decoded(None, Some(UnexpectedEOF))
        else Decoded(Some(PcmFormat(fc, Uint16Of(LittleEndian, rest[..2]))), None)
  }

  /** Decoding the bytes of a little-endian PCM chunk at start 0 gives it
      back without error. */
  lemma DecodeOfPcmBytes(p: PcmFormat)
    requires p.fmt.header.startPos == 0 && p.fmt.header.order == LittleEndian
    ensures DecodePcmFormatChunk(PcmBytes(p)) == Decoded(Some(p), None)
  {
    var b := PcmBytes(p);
    DecodeOfFmtBytes(p.fmt);
    DecodeFmtPrefix(b, FmtBytes(p.fmt));
  }

  /** The FMT decode reads nothing past the first 22 bytes. */
  lemma DecodeFmtPrefix(data: seq<byte>, prefix: seq<byte>)
    requires |prefix| == FmtBytesSize && |data| >= FmtBytesSize && data[..FmtBytesSize] == prefix
    ensures DecodeFmtChunk(data) == DecodeFmtChunk(prefix)
  {
    var b1 := data[HeaderSizeBytes..];
    FmtOffsets();
    ReadFieldsPrefix(b1, FmtWidths, FmtPayloadSize);
    assert b1[..FmtPayloadSize] == prefix[HeaderSizeBytes..];
    assert data[..HeaderSizeBytes] == prefix[..HeaderSizeBytes];
  }

  /** Re-encoding what was decoded from 24 or more bytes gives the first 24. */
  lemma PcmBytesOfDecode(data: seq<byte>)
    requires |data| >= FmtBytesSize + 2
    ensures PcmBytes(DecodePcmFormatChunk(data).chunk.value) == data[..FmtBytesSize + 2]
  {
    var p := DecodePcmFormatChunk(data).chunk.value;
    FmtBytesOfDecode(data);
    BytesUint16(LittleEndian, data[FmtBytesSize..FmtBytesSize + 2]);
    assert data[..FmtBytesSize + 2] == data[..FmtBytesSize] + data[FmtBytesSize..FmtBytesSize + 2];
  }

  /** Exactly 8 bytes decode without error to a chunk with all fields 0;
      exactly 22 bytes are a complete FMT but not a PCM format. */
  lemma DecodeShortFmt()
    ensures var r := DecodeFmtChunk(Zeros(8));
      r.err.None? && r.chunk.Some? && r.chunk.value.format == 0 && r.chunk.value.channels == 0
      && r.chunk.value.samplesPerSec == 0 && r.chunk.value.bytesPerSec == 0 && r.chunk.value.blockAlign == 0
    ensures DecodePcmFormatChunk(Zeros(22)).chunk.None?
  {
    DecodeFmtFields(Zeros(8));
  }
}

=== FILE: fourcc.dfy ===
/** Four-character codes (fourcc.go). */
module FourCCs {
  import opened Binary
  import Strings

  /** A FourCC is a [4]byte. */
  type FourCC = s: seq<byte> | |s| == 4 witness [0, 0, 0, 0]

  /** ToUint32: the four bytes read big-endian. Writing the value back
      big-endian gives the code again, so distinct codes get distinct values. */
  function ToUint32(f: FourCC): (r: uint32)
    ensures BytesOf(BigEndian, r, 4) == f
  {
    FixedWidthValues(BigEndian, f);
    BigEndianBytesOfValue(f);
    Uint32Of(BigEndian, f)
  }

  /** String: the four bytes as they are, NULs included: the big-endian
      bytes of the code's integer value. */
  function String(f: FourCC): (r: seq<byte>)
    ensures |r| == 4
    ensures r == BytesOf(BigEndian, ToUint32(f), 4)
  {
    f[..]
  }

  /** String keeps every byte while trimming shortens the text exactly when
      the code starts or ends with a NUL. */
  lemma StringKeepsNuls(f: FourCC)
    ensures String(f) == f
    ensures |Strings.TrimNullChars(String(f))| < 4 <==> f[0] == 0 || f[3] == 0
  {
    var t := Strings.TrimNullChars(f);
    if f[0] != 0 && f[3] != 0 {
      Strings.NoNulEndsUnchanged(f);
    } else {
      assert |t| == 4 ==> t == f;
    }
  }
}

=== FILE: header.dfy ===
/** Chunk headers of the current library (header.go): identifier, payload
    size, start offset and the byte order of the size field. */
module ChunkHeaders {
  import opened Binary
  import opened FourCCs
  import opened Constants
  import Strings

  datatype Header = Header(id: uint32, size: uint32, startPos: uint32, order: ByteOrder)

  /** ID: the identifier's four bytes, NULs trimmed; the same text as the
      first four bytes the header encodes to. */
  function ID(h: Header): (r: seq<byte>)
    ensures |r| <= 4
    ensures r == Strings.TrimNullChars(Bytes(h)[..IdSizeBytes])
  {
    assert Bytes(h)[..IdSizeBytes] == BigEndianBytes(h.id, IdSizeBytes);
    Strings.TrimNullChars(BigEndianBytes(h.id, IdSizeBytes))
  }

  /** The room a chunk of the given payload size takes in a container, in
      unbounded arithmetic: header, payload and a pad byte when the size is odd. */
  function PaddedSize(size: nat): nat {
    size + HeaderSizeBytes + size % 2
  }

  /** FullSize: size + 8, rounded up to even, in uint32 arithmetic. It is
      the padded room of the chunk modulo 2^32, so it is always even. */
  function FullSize(h: Header): (r: uint32)
    ensures r == Wrap32(PaddedSize(h.size))
    ensures r % 2 == 0
  {
    var size := Wrap32(h.size + HeaderSizeBytes);
    RoundUpWraps(h.size, size);
    if size % 2 != 0 then Wrap32(size + 1) else size
  }

  /** Rounding the wrapped size + 8 up to even, and wrapping again, is
      wrapping the padded size. */
  lemma RoundUpWraps(size: nat, s: uint32)
    requires s == Wrap32(size + HeaderSizeBytes)
    ensures s % 2 == size % 2
    ensures s % 2 != 0 ==> Wrap32(s + 1) == Wrap32(PaddedSize(size))
    ensures s % 2 == 0 ==> s == Wrap32(PaddedSize(size))
    ensures Wrap32(PaddedSize(size)) % 2 == 0
  {
    Wrap32Parity(size + HeaderSizeBytes);
    Wrap32Add(size + HeaderSizeBytes, 1);
    Wrap32Parity(PaddedSize(size));
  }

  /** FullSize is the padded size modulo 2^32, so it is always even. */
  lemma FullSizeWraps(h: Header)
    ensures FullSize(h) == Wrap32(PaddedSize(h.size))
    ensures FullSize(h) % 2 == 0
  {
    Wrap32Parity(h.size + HeaderSizeBytes);
    Wrap32Add(h.size + HeaderSizeBytes, 1);
    Wrap32Parity(PaddedSize(h.size));
  }

  /** HasPadding: the chunk is followed by a pad byte, which is to say
      FullSize is size + 9 rather than size + 8 (both in uint32). */
  function HasPadding(h: Header): (r: bool)
    ensures r <==> FullSize(h) == Wrap32(h.size + 9)
    ensures !r <==> FullSize(h) == Wrap32(h.size + 8)
    ensures h.size + 9 < TwoTo32 ==> (r <==> FullSize(h) == h.size + 9)
    ensures h.size + 9 < TwoTo32 ==> (!r <==> FullSize(h) == h.size + 8)
  {
    FullSizeWraps(h);
    h.size % 2 != 0
  }

  /** Bytes: the identifier big-endian, then the size in the header's order. */
  function Bytes(h: Header): (r: seq<byte>)
    ensures |r| == HeaderSizeBytes
    ensures ValueOf(BigEndian, r[..IdSizeBytes]) == h.id
    ensures ValueOf(h.order, r[IdSizeBytes..]) == h.size
  {
    var r := BytesOf(BigEndian, h.id, IdSizeBytes) + BytesOf(h.order, h.size, SizeSizeBytes);
    Pow256Widths();
    ValueOfBytesOf(BigEndian, h.id, IdSizeBytes);
    ValueOfBytesOf(h.order, h.size, SizeSizeBytes);
    assert r[..IdSizeBytes] == BytesOf(BigEndian, h.id, IdSizeBytes);
    assert r[IdSizeBytes..] == BytesOf(h.order, h.size, SizeSizeBytes);
    r
  }

  /** EncodeChunkHeader: a header at start position 0 holding the given
      identifier, size and order. */
  function EncodeChunkHeader(id: FourCC, size: uint32, order: ByteOrder): (r: Header)
    ensures r.size == size && r.order == order && r.startPos == 0
    ensures BytesOf(BigEndian, r.id, IdSizeBytes) == id
    ensures ID(r) == Strings.TrimNullChars(id)
  {
    Header(ToUint32(id), size, 0, order)
  }

  /** DecodeChunkHeader: identifier big-endian from bytes 0..4, size in the
      given order from bytes 4..8, recorded at the given start position. */
  function DecodeChunkHeader(bytes: seq<byte>, startPos: uint32, order: ByteOrder): (r: Header)
    requires |bytes| == HeaderSizeBytes
    ensures r.startPos == startPos && r.order == order
  {
    Header(Uint32Of(BigEndian, bytes[..IdSizeBytes]), Uint32Of(order, bytes[IdSizeBytes..]), startPos, order)
  }

  /** decodeChunkHeader: the same from the first 8 bytes of a longer slice
      (a shorter slice makes Go panic). */
  function DecodeChunkHeaderPrefix(bytes: seq<byte>, startPos: uint32, order: ByteOrder): (r: Header)
    requires |bytes| >= HeaderSizeBytes
    ensures Bytes(r) == bytes[..HeaderSizeBytes]
    ensures r.startPos == startPos && r.order == order
  {
    BytesOfDecode(bytes[..HeaderSizeBytes], startPos, order);
    DecodeChunkHeader(bytes[..HeaderSizeBytes], startPos, order)
  }

  /** Decoding the bytes of a header at its own start position and order
      gives the header back. */
  lemma DecodeOfBytes(h: Header)
    ensures DecodeChunkHeader(Bytes(h), h.startPos, h.order) == h
  {
    var b := Bytes(h);
    var d := DecodeChunkHeader(b, h.startPos, h.order);
    FixedWidthValues(BigEndian, b[..IdSizeBytes]);
    FixedWidthValues(h.order, b[IdSizeBytes..]);
    Pow256Widths();
    ValueOfBytesOf(BigEndian, d.id, IdSizeBytes);
    ValueOfBytesOf(h.order, d.size, SizeSizeBytes);
  }

  /** Re-encoding a decoded header reproduces the 8 bytes. */
  lemma BytesOfDecode(bytes: seq<byte>, startPos: uint32, order: ByteOrder)
    requires |bytes| == HeaderSizeBytes
    ensures Bytes(DecodeChunkHeader(bytes, startPos, order)) == bytes
  {
    FixedWidthValues(BigEndian, bytes[..IdSizeBytes]);
    FixedWidthValues(order, bytes[IdSizeBytes..]);
    BytesOfValueOf(BigEndian, bytes[..IdSizeBytes]);
    BytesOfValueOf(order, bytes[IdSizeBytes..]);
    assert bytes == bytes[..IdSizeBytes] + bytes[IdSizeBytes..];
  }

  /** pad: one zero byte appended exactly when the length is odd. */
  function Pad(data: seq<byte>): (r: seq<byte>)
    ensures |r| % 2 == 0
    ensures |r| == |data| + |data| % 2
    ensures r[..|data|] == data
    ensures forall i | |data| <= i < |r| :: r[i] == 0
  {
    if |data| % 2 == 0 then data else data + [0]
  }

  /** Padding after an even-sized prefix pads only what follows it. */
  lemma PadAfterEven(a: seq<byte>, b: seq<byte>)
    requires |a| % 2 == 0
    ensures Pad(a + b) == a + Pad(b)
  {
    if |b| % 2 == 1 {
      assert (a + b) + [0] == a + (b + [0]);
    }
  }
}

=== FILE: legacy_containerheader.dfy ===
/** Container headers of the older generation (chunk/containerheader.go):
    the same 12-byte layout as the current library, decoded from a fixed
    12-byte array so that decoding cannot fail, and measured with the
    unpadded FullSize of the older header. */
module LegacyContainerHeaders {
  import opened Binary
  import opened Errors
  import opened FourCCs
  import opened Constants
  import opened ChunkHeaders
  import opened ContainerHeaders
  import opened LegacyHeaders
  import Strings

  /** DecodeContainerHeader: the chunk header from bytes 0..8 at start 0 and
      the format big-endian from bytes 8..12. The Go parameter is a
      [12]byte, so exactly 12 bytes are required and nothing can fail. */
  function LegacyDecodeContainerHeader(bytes: seq<byte>, order: ByteOrder): (r: ContainerHeader)
    requires |bytes| == ContainerHeaderSizeBytes
    ensures r.header == DecodeChunkHeader(bytes[..HeaderSizeBytes], 0, order)
    ensures BytesOf(BigEndian, r.format, FormatSizeBytes) == bytes[HeaderSizeBytes..]
  {
    var fbytes := bytes[HeaderSizeBytes..HeaderSizeBytes + FormatSizeBytes];
    assert fbytes == bytes[HeaderSizeBytes..];
    FixedWidthValues(BigEndian, fbytes);
    BytesOfValueOf(BigEndian, fbytes);
    ContainerHeader(DecodeChunkHeader(bytes[..HeaderSizeBytes], 0, order), Uint32Of(BigEndian, fbytes))
  }

  /** On 12 bytes the older decoder gives what the current one gives; the
      two differ only in that the current one also accepts longer input
      and rejects shorter input. */
  lemma LegacyDecodeAgrees(bytes: seq<byte>, order: ByteOrder)
    requires |bytes| == ContainerHeaderSizeBytes
    ensures DecodeContainerHeader(bytes, order) == Ok(LegacyDecodeContainerHeader(bytes, order))
  {
    var c := LegacyDecodeContainerHeader(bytes, order);
    var r := DecodeContainerHeader(bytes, order);
    assert bytes[..ContainerHeaderSizeBytes] == bytes;
    ContainerBytesInjective(r.value, c);
  }

  /** Two container headers with the same bytes and start are the same. */
  lemma ContainerBytesInjective(c: ContainerHeader, d: ContainerHeader)
    requires ContainerBytes(c) == ContainerBytes(d)
    requires c.header.startPos == d.header.startPos && c.header.order == d.header.order
    ensures c == d
  {
    var b := ContainerBytes(c);
    DecodeOfBytes(c.header);
    DecodeOfBytes(d.header);
    assert Bytes(c.header) == b[..HeaderSizeBytes] == Bytes(d.header);
  }

  /** EncodeContainerHeader takes the format from the pointed-to FourCC;
      decoding the 12 bytes of the result gives identifier, size and format
      back, all trimmed of NULs. */
  lemma LegacyEncodeDecode(id: FourCC, size: uint32, format: FourCC, order: ByteOrder)
    ensures var c := EncodeContainerHeader(id, size, format, order);
      var d := LegacyDecodeContainerHeader(ContainerBytes(c), order);
      && d == c
      && ID(d.header) == Strings.TrimNullChars(id)
      && d.header.size == size
      && Format(d) == Strings.TrimNullChars(format)
  {
    var c := EncodeContainerHeader(id, size, format, order);
    DecodeOfContainerBytes(c);
    LegacyDecodeAgrees(ContainerBytes(c), order);
  }
}

=== FILE: legacy_header.dfy ===
/** Chunk headers of the older generation (chunk/header.go). The header
    record and its 8-byte codec are the same as the current library's; what
    differs is FullSize, which adds the 8 header bytes and nothing for the
    pad byte, and the sort order used when chunks are moved. */
module LegacyHeaders {
  import opened Binary
  import opened FourCCs
  import opened Constants
  import opened ChunkHeaders
  import Strings

  /** FullSize: size + 8 in uint32 arithmetic, with no pad byte. */
  function LegacyFullSize(h: Header): (r: uint32)
    ensures r == Wrap32(h.size + HeaderSizeBytes)
    ensures Wrap32(r + h.size % 2) == FullSize(h)
  {
    Wrap32Add(h.size + HeaderSizeBytes, h.size % 2);
    Wrap32(h.size + HeaderSizeBytes)
  }

  /** The unpadded size falls one short of the padded one exactly for odd
      sizes, and wraps to 0 for the largest sizes. */
  lemma LegacyFullSizeUnpadded(h: Header)
    ensures h.size + 9 < TwoTo32 ==> FullSize(h) == LegacyFullSize(h) + h.size % 2
    ensures h.size + 9 < TwoTo32 ==> (LegacyFullSize(h) == FullSize(h) <==> h.size % 2 == 0)
    ensures h.size == 0xFFFF_FFF8 ==> LegacyFullSize(h) == 0
  {
    FullSizeWraps(h);
    if h.size + 9 < TwoTo32 {
      Wrap32Small(h.size + HeaderSizeBytes);
      Wrap32Small(PaddedSize(h.size));
    }
  }

  /** Bytes, EncodeChunkHeader and DecodeChunkHeader of the older header:
      8 bytes, identifier big-endian then size in the header's order; a
      decode records the start position it is given, and an encoded header
      starts at 0 and keeps identifier, size and order. */
  lemma LegacyCodec(id: FourCC, size: uint32, order: ByteOrder, startPos: uint32)
    ensures var h := EncodeChunkHeader(id, size, order);
      && h.startPos == 0
      && |Bytes(h)| == HeaderSizeBytes
      && Bytes(h)[..IdSizeBytes] == id
      && Bytes(h)[IdSizeBytes..] == BytesOf(order, size, SizeSizeBytes)
      && DecodeChunkHeader(Bytes(h), startPos, order) == h.(startPos := startPos)
  {
    var h := EncodeChunkHeader(id, size, order);
    var moved := h.(startPos := startPos);
    assert Bytes(moved) == Bytes(h);
    DecodeOfBytes(moved);
  }

  /** Start positions in ascending order. */
  ghost predicate SortedByStart(hs: seq<Header>) {
    forall i, j | 0 <= i < j < |hs| :: hs[i].startPos <= hs[j].startPos
  }

  /** h placed before the first header that starts after it. */
  function Insert(h: Header, hs: seq<Header>): (r: seq<Header>)
    requires SortedByStart(hs)
    ensures SortedByStart(r)
    ensures multiset(r) == multiset(hs) + multiset{h}
    ensures |r| == |hs| + 1
    ensures forall i | 0 <= i < |r| :: r[i] == h || r[i] in hs
  {
    if |hs| == 0 || h.startPos <= hs[0].startPos then
      [h] + hs
    else
      var rest := Insert(h, hs[1..]);
      assert hs == [hs[0]] + hs[1..];
      InsertAfterHead(hs[0], h, hs[1..], rest);
      [hs[0]] + rest
  }

  lemma InsertAfterHead(first: Header, h: Header, tail: seq<Header>, rest: seq<Header>)
    requires SortedByStart([first] + tail) && SortedByStart(rest)
    requires first.startPos < h.startPos
    requires forall i | 0 <= i < |rest| :: rest[i] == h || rest[i] in tail
    ensures SortedByStart([first] + rest)
  {
    forall i | 0 <= i < |rest|
      ensures first.startPos <= rest[i].startPos
    {
      if rest[i] != h {
        var k :| 0 <= k < |tail| && tail[k] == rest[i];
        assert ([first] + tail)[0] == first;
        assert ([first] + tail)[k + 1] == tail[k];
      }
    }
  }

  /** SortHeadersByStartPosAsc with sort.Sort: a rearrangement of the
      headers in ascending start order. sort.Sort is not stable, so among
      equal start positions this model fixes one order. */
  function SortByStartPos(hs: seq<Header>): (r: seq<Header>)
    ensures SortedByStart(r)
    ensures multiset(r) == multiset(hs)
    ensures |r| == |hs|
  {
    if |hs| == 0 then []
    else
      assert hs == [hs[0]] + hs[1..];
      Insert(hs[0], SortByStartPos(hs[1..]))
  }
}

=== FILE: legacy_read.dfy ===
/** The older container reader (reader/internal/read.go). It walks the
    chunks like the current one, but keeps chunks aligned by looking at the
    parity of the running offset (advanced by the unpadded FullSize) instead
    of the parity of each size. The reader is modelled as the byte
    sequence it would deliver and a position in it. */
module LegacyReader {
  import opened Binary
  import opened Errors
  import opened Constants
  import opened ChunkHeaders
  import opened ContainerHeaders
  import opened LegacyHeaders
  import opened LegacyContainerHeaders
  import Containers

  /** The offset after a chunk: advanced by the unpadded FullSize, plus one
      when the result is odd (uint32 arithmetic). */
  function NextOffset(offset: uint32, h: Header): uint32 {
    var next := Wrap32(offset + LegacyFullSize(h));
    if next % 2 != 0 then Wrap32(next + 1) else next
  }

  /** The stream position after a chunk: the 8 header bytes read, one byte
      skipped when the offset came out odd, then size bytes skipped. */
  function NextPosition(pos: nat, offset: uint32, h: Header): nat {
    var next := Wrap32(offset + LegacyFullSize(h));
    pos + HeaderSizeBytes + (if next % 2 != 0 then 1 else 0) + h.size
  }

  /** readChunkHeaders: read 8 bytes (stop when fewer remain), decode them
      at the running offset, then move offset and stream on. Nothing is
      found when fewer than 8 bytes remain, and every header found takes
      at least its own 8 bytes. */
  function ReadChunkHeaders(data: seq<byte>, pos: nat, offset: uint32, order: ByteOrder): (r: seq<Header>)
    ensures forall i | 0 <= i < |r| :: r[i].order == order
    ensures r == [] <==> |data| < pos + HeaderSizeBytes
    ensures r != [] ==> pos + HeaderSizeBytes * |r| <= |data|
    decreases |data| - pos
  {
    if |data| < pos + HeaderSizeBytes then []
    else
      var h := DecodeChunkHeader(data[pos..pos + HeaderSizeBytes], offset, order);
      [h] + ReadChunkHeaders(data, NextPosition(pos, offset, h), NextOffset(offset, h), order)
  }

  /** readContainerHeader and Read: io.ReadFull of 12 bytes fails with EOF
      on empty input and with UnexpectedEOF on 1 to 11 bytes; otherwise the
      container header is decoded and the chunks are walked from 12. */
  function Read(name: seq<char>, data: seq<byte>, order: ByteOrder): (r: Result<Containers.Container>)
    ensures r.Err? <==> |data| < ContainerHeaderSizeBytes
    ensures r.Err? ==> r.error == (if |data| == 0 then EOF else UnexpectedEOF)
    ensures r.Ok? ==> r.value.name == name && r.value.order == order
    ensures r.Ok? ==> ContainerBytes(r.value.header) == data[..ContainerHeaderSizeBytes]
    ensures r.Ok? ==> r.value.header.header.startPos == 0
  {
    if |data| == 0 then Err(EOF)
    else if |data| < ContainerHeaderSizeBytes then Err(UnexpectedEOF)
    else
      var bytes := data[..ContainerHeaderSizeBytes];
      LegacyDecodeAgrees(bytes, order);
      assert bytes[..ContainerHeaderSizeBytes] == bytes;
      var header := LegacyDecodeContainerHeader(bytes, order);
      Ok(Containers.Container(name, header, ReadChunkHeaders(data, ContainerHeaderSizeBytes, ContainerHeaderSizeBytes, order), order))
  }

  /** From an even offset, aligning on the parity of the offset is aligning
      on the parity of the size: one step of the older walk is one step of
      the current one. */
  lemma StepAgrees(pos: nat, offset: uint32, h: Header)
    requires offset % 2 == 0
    ensures NextOffset(offset, h) == Wrap32(offset + FullSize(h))
    ensures NextPosition(pos, offset, h) == pos + PaddedSize(h.size)
    ensures NextOffset(offset, h) % 2 == 0
  {
    UnpaddedParity(offset, h);
    PaddedNext(offset, h);
    Containers.EvenStep(offset, h);
  }

  /** The offset advanced by the unpadded size is odd exactly when the size
      is. */
  lemma UnpaddedParity(offset: uint32, h: Header)
    requires offset % 2 == 0
    ensures Wrap32(offset + LegacyFullSize(h)) == Wrap32(offset + h.size + HeaderSizeBytes)
    ensures Wrap32(offset + LegacyFullSize(h)) % 2 == h.size % 2
  {
    ShiftParity(offset, h.size + HeaderSizeBytes);
    EvenPlus(HeaderSizeBytes, h.size);
  }

  /** Wrapping the shift first changes neither the sum nor its parity. */
  lemma ShiftParity(o: int, d: int)
    requires o % 2 == 0
    ensures Wrap32(o + Wrap32(d)) == Wrap32(o + d)
    ensures Wrap32(o + d) % 2 == d % 2
  {
    Wrap32Add(d, o);
    Wrap32Parity(o + d);
    EvenPlus(o, d);
  }

  /** Bumping an odd result by one gives the padded advance. */
  lemma PaddedNext(offset: uint32, h: Header)
    requires Wrap32(offset + LegacyFullSize(h)) == Wrap32(offset + h.size + HeaderSizeBytes)
    requires Wrap32(offset + LegacyFullSize(h)) % 2 == h.size % 2
    ensures NextOffset(offset, h) == Wrap32(offset + FullSize(h))
  {
    var x := offset + h.size + HeaderSizeBytes;
    BumpWraps(x, h.size % 2);
    FullSizeWraps(h);
    Wrap32Add(PaddedSize(h.size), offset);
    assert x + h.size % 2 == offset + PaddedSize(h.size);
  }

  /** Adding the bit after wrapping is adding it before. */
  lemma BumpWraps(x: int, bit: int)
    requires bit == 0 || bit == 1
    ensures Wrap32(Wrap32(x) + bit) == Wrap32(x + bit)
    ensures bit == 0 ==> Wrap32(Wrap32(x) + bit) == Wrap32(x)
  {
    Wrap32Add(x, bit);
  }

  lemma EvenPlus(a: int, b: int)
    requires a % 2 == 0
    ensures (a + b) % 2 == b % 2
  {
  }

  /** Starting from an even offset, the older walk finds exactly the
      headers the current walk finds, with the same start positions. */
  lemma {:induction false} ReadChunkHeadersAgree(data: seq<byte>, pos: nat, offset: uint32, order: ByteOrder)
    requires offset % 2 == 0
    ensures ReadChunkHeaders(data, pos, offset, order) == Containers.ReadChunkHeaders(data, pos, offset, order)
    decreases |data| - pos
  {
    if pos + HeaderSizeBytes <= |data| {
      var h := DecodeChunkHeader(data[pos..pos + HeaderSizeBytes], offset, order);
      StepAgrees(pos, offset, h);
      ReadChunkHeadersAgree(data, pos + PaddedSize(h.size), Wrap32(offset + FullSize(h)), order);
      AgreeStep(data, pos, offset, order, h);
    }
  }

  /** When both walks agree after a header, they agree from it. */
  lemma AgreeStep(data: seq<byte>, pos: nat, offset: uint32, order: ByteOrder, h: Header)
    requires offset % 2 == 0 && Containers.HeaderAt(data, pos, offset, order, h)
    requires var pos', offset' := pos + PaddedSize(h.size), Wrap32(offset + FullSize(h));
      ReadChunkHeaders(data, pos', offset', order) == Containers.ReadChunkHeaders(data, pos', offset', order)
    ensures ReadChunkHeaders(data, pos, offset, order) == Containers.ReadChunkHeaders(data, pos, offset, order)
  {
    LegacyStep(data, pos, offset, order, h);
    StepAgrees(pos, offset, h);
    Containers.ReadChunkHeadersStep(data, pos, offset, order, h);
  }

  lemma LegacyStep(data: seq<byte>, pos: nat, offset: uint32, order: ByteOrder, h: Header)
    requires Containers.HeaderAt(data, pos, offset, order, h)
    ensures ReadChunkHeaders(data, pos, offset, order)
      == [h] + ReadChunkHeaders(data, NextPosition(pos, offset, h), NextOffset(offset, h), order)
  {
  }

  /** So Read finds the chunk list of the data: every header decoded from
      the 8 bytes at its position, recorded at that position, every start
      even, and the walk ending where fewer than 8 bytes remain. */
  lemma ReadFindsChunkList(name: seq<char>, data: seq<byte>, order: ByteOrder)
    requires |data| >= ContainerHeaderSizeBytes
    ensures Read(name, data, order).Ok?
    ensures var hs := Read(name, data, order).value.headers;
      && hs == Containers.ReadChunkHeaders(data, ContainerHeaderSizeBytes, ContainerHeaderSizeBytes, order)
      && Containers.IsChunkList(data, ContainerHeaderSizeBytes, ContainerHeaderSizeBytes, order, hs)
      && (forall i | 0 <= i < |hs| :: hs[i].startPos % 2 == 0)
  {
    ReadChunkHeadersAgree(data, ContainerHeaderSizeBytes, ContainerHeaderSizeBytes, order);
    Containers.ReadChunkHeadersIsChunkList(data, ContainerHeaderSizeBytes, ContainerHeaderSizeBytes, order);
    Containers.ReadChunkHeadersOrderAndParity(data, ContainerHeaderSizeBytes, ContainerHeaderSizeBytes, order);
  }

  /** 11 bytes cannot be read; 12 give no chunks; 20 zero bytes give one. */
  lemma ReadSmallInputs()
    ensures Read("testFile", Zeros(11), LittleEndian).Err?
    ensures var r := Read("testFile", Zeros(12), LittleEndian); r.Ok? && r.value.headers == []
    ensures var r := Read("testFile", Zeros(20), LittleEndian); r.Ok? && |r.value.headers| == 1
  {
    var hs := ReadChunkHeaders(Zeros(20), 12, 12, LittleEndian);
    assert |Zeros(20)| < NextPosition(12, 12, hs[0]) + 8;
  }

  /** Two back-to-back "test" chunks of size 12 after a zero container
      header: two headers, at 12 and 32. */
  lemma ReadTwoTestChunks()
    ensures var chunk := Bytes(EncodeChunkHeader([0x74, 0x65, 0x73, 0x74], 12, LittleEndian)) + Zeros(12);
      var r := Read("testFile", Zeros(12) + chunk + chunk, LittleEndian);
      && r.Ok? && |r.value.headers| == 2
      && r.value.headers[0].startPos == 12 && r.value.headers[1].startPos == 32
  {
    var h := EncodeChunkHeader([0x74, 0x65, 0x73, 0x74], 12, LittleEndian);
    var chunk := Bytes(h) + Zeros(12);
    var data := Zeros(12) + chunk + chunk;
    assert |data| == 52;
    assert data[12..20] == Bytes(h);
    assert data[32..40] == Bytes(h);
    DecodeOfBytes(h);
    TwoChunkWalk(data, h);
  }

  /** The walk over 52 bytes holding two 12-byte chunks at 12 and 32. */
  lemma TwoChunkWalk(data: seq<byte>, h: Header)
    requires |data| == 52 && h.size == 12 && h.order == LittleEndian
    requires DecodeChunkHeader(data[12..20], 12, LittleEndian) == h.(startPos := 12)
    requires DecodeChunkHeader(data[32..40], 32, LittleEndian) == h.(startPos := 32)
    ensures ReadChunkHeaders(data, 12, 12, LittleEndian) == [h.(startPos := 12), h.(startPos := 32)]
  {
    var h1 := h.(startPos := 12);
    var h2 := h.(startPos := 32);
    Wrap32Small(20);
    Wrap32Small(32);
    Wrap32Small(52);
    assert LegacyFullSize(h1) == 20 && LegacyFullSize(h2) == 20;
    LegacyStep(data, 12, 12, LittleEndian, h1);
    LegacyStep(data, 32, 32, LittleEndian, h2);
    assert NextPosition(12, 12, h1) == 32 && NextOffset(12, h1) == 32;
    assert NextPosition(32, 32, h2) == 52;
  }
}

=== FILE: riff_file.dfy ===
/** A RIFF file of the wav package (file.go): its header, the chunk
    headers found by scanning the file, and the edits that delete a chunk,
    append one and rewrite the size field. A file is the byte sequence it
    holds; an io.ReaderAt is the sequence read from and an io.WriterAt the
    sequence written to. */
module RiffFiles {
  import opened Binary
  import opened Errors
  import opened Constants
  import opened ChunkHeaders
  import opened LegacyHeaders
  import opened RiffHeaders
  import LegacyReader
  import Containers

  datatype RiffFile = RiffFile(name: seq<char>, header: RiffHeader, headers: seq<Header>)

  /* ---------------- Scanning the chunk headers ---------------- */

  /** readChunkHeaders as written, bounded by fuel: while the uint32 offset
      is below the file size, read 8 bytes there. A short read records
      nothing and moves the offset by the bytes read; a full one records
      the header and moves the offset by its unpadded FullSize, plus one
      when the result is odd, all modulo 2^32. */
  function ReadChunkHeadersAsWritten(data: seq<byte>, offset: uint32, fuel: nat): (r: seq<Header>)
    ensures |r| <= fuel
    ensures forall i | 0 <= i < |r| :: r[i].order == LittleEndian
    decreases fuel
  {
    if fuel == 0 || offset >= |data| then []
    else if |data| < offset + HeaderSizeBytes then
      ReadChunkHeadersAsWritten(data, Wrap32(offset + (|data| - offset)), fuel - 1)
    else
      var h := DecodeChunkHeader(data[offset..offset + HeaderSizeBytes], offset, LittleEndian);
      [h] + ReadChunkHeadersAsWritten(data, LegacyReader.NextOffset(offset, h), fuel - 1)
  }

  /** A chunk whose size is 0xFFFF_FFF8 has a FullSize of 0: the scan as
      written reads the same header again and again and never ends. */
  lemma {:induction false} ScanNeverAdvances(data: seq<byte>, fuel: nat)
    requires |data| == 20
    requires Uint32Of(LittleEndian, data[16..20]) == 0xFFFF_FFF8
    ensures var r := ReadChunkHeadersAsWritten(data, 12, fuel);
      |r| == fuel && forall i | 0 <= i < |r| :: r[i].startPos == 12
  {
    if fuel > 0 {
      var h := DecodeChunkHeader(data[12..20], 12, LittleEndian);
      StuckOffset(h);
      ScanNeverAdvances(data, fuel - 1);
    }
  }

  lemma StuckOffset(h: Header)
    requires h.size == 0xFFFF_FFF8
    ensures LegacyReader.NextOffset(12, h) == 12
  {
    Wrap32Small(12);
  }

  /** The file of that shape: a zero RIFF header and a "test" chunk header
      with size 0xFFFF_FFF8. */
  lemma EndlessScanExample(fuel: nat)
    ensures var data := Zeros(12) + [0x74, 0x65, 0x73, 0x74] + BytesOf(LittleEndian, 0xFFFF_FFF8, 4);
      |ReadChunkHeadersAsWritten(data, 12, fuel)| == fuel
  {
    var data := Zeros(12) + [0x74, 0x65, 0x73, 0x74] + BytesOf(LittleEndian, 0xFFFF_FFF8, 4);
    assert data[16..20] == BytesOf(LittleEndian, 0xFFFF_FFF8, 4);
    Uint32Bytes(LittleEndian, 0xFFFF_FFF8);
    ScanNeverAdvances(data, fuel);
  }

  /** The scan as intended: positions are unbounded, so the walk always
      ends. A chunk takes its header, its payload and a pad byte after an
      odd payload; fewer than 8 bytes left end the scan. */
  function ReadChunkHeaders(data: seq<byte>, pos: nat): (r: seq<Header>)
    ensures forall i | 0 <= i < |r| :: r[i].order == LittleEndian
    decreases |data| - pos
  {
    if |data| < pos + HeaderSizeBytes then []
    else
      var h := DecodeChunkHeader(data[pos..pos + HeaderSizeBytes], Wrap32(pos), LittleEndian);
      [h] + ReadChunkHeaders(data, pos + PaddedSize(h.size))
  }

  /** The intended scan is the little-endian container walk of the current
      library, so its result is a chunk list of the data. */
  lemma {:induction false} ReadChunkHeadersIsContainerWalk(data: seq<byte>, pos: nat)
    ensures ReadChunkHeaders(data, pos) == Containers.ReadChunkHeaders(data, pos, Wrap32(pos), LittleEndian)
    decreases |data| - pos
  {
    if pos + HeaderSizeBytes <= |data| {
      var h := DecodeChunkHeader(data[pos..pos + HeaderSizeBytes], Wrap32(pos), LittleEndian);
      var next := pos + PaddedSize(h.size);
      ReadChunkHeadersIsContainerWalk(data, next);
      ScanStep(data, pos, h);
      Containers.ReadChunkHeadersStep(data, pos, Wrap32(pos), LittleEndian, h);
      NextWrapped(pos, h);
      assert ReadChunkHeaders(data, pos) == Containers.ReadChunkHeaders(data, pos, Wrap32(pos), LittleEndian);
    } else {
      assert ReadChunkHeaders(data, pos) == [];
      assert Containers.ReadChunkHeaders(data, pos, Wrap32(pos), LittleEndian) == [];
    }
  }

  lemma ScanStep(data: seq<byte>, pos: nat, h: Header)
    requires Containers.HeaderAt(data, pos, Wrap32(pos), LittleEndian, h)
    ensures ReadChunkHeaders(data, pos) == [h] + ReadChunkHeaders(data, pos + PaddedSize(h.size))
  {
  }

  lemma NextWrapped(pos: nat, h: Header)
    ensures Wrap32(Wrap32(pos) + FullSize(h)) == Wrap32(pos + PaddedSize(h.size))
  {
    Containers.AdvanceWraps(Wrap32(pos), h, 0);
    Wrap32Add(pos, PaddedSize(h.size));
  }

  /** Every chunk the intended scan finds ends below 2^32. */
  ghost predicate NoWrap(hs: seq<Header>) {
    forall i | 0 <= i < |hs| :: hs[i].startPos + PaddedSize(hs[i].size) < TwoTo32
  }

  /** On a file under 4 GiB whose chunks all end below 2^32, the scan as
      written, given enough fuel, finds what the intended scan finds. */
  lemma {:induction false} AsWrittenAgrees(data: seq<byte>, pos: nat, fuel: nat)
    requires |data| < TwoTo32 && pos < TwoTo32 && pos % 2 == 0
    requires fuel > |data| - pos
    requires NoWrap(ReadChunkHeaders(data, pos))
    ensures ReadChunkHeadersAsWritten(data, pos, fuel) == ReadChunkHeaders(data, pos)
    decreases |data| - pos
  {
    Wrap32Small(pos);
    if pos >= |data| {
    } else if |data| < pos + HeaderSizeBytes {
      Wrap32Small(|data|);
      assert ReadChunkHeadersAsWritten(data, |data|, fuel - 1) == [];
    } else {
      var h := DecodeChunkHeader(data[pos..pos + HeaderSizeBytes], pos, LittleEndian);
      var hs := ReadChunkHeaders(data, pos);
      assert hs[0] == h;
      var next := pos + PaddedSize(h.size);
      assert next < TwoTo32;
      LegacyReader.StepAgrees(pos, pos, h);
      NextWrapped(pos, h);
      Wrap32Small(next);
      NoWrapTail(hs);
      assert hs[1..] == ReadChunkHeaders(data, next);
      AsWrittenAgrees(data, next, fuel - 1);
    }
  }

  lemma NoWrapTail(hs: seq<Header>)
    requires |hs| > 0 && NoWrap(hs)
    ensures NoWrap(hs[1..])
  {
    forall i | 0 <= i < |hs| - 1
      ensures hs[1..][i].startPos + PaddedSize(hs[1..][i].size) < TwoTo32
    {
      assert hs[1..][i] == hs[i + 1];
    }
  }

  /* ---------------- Looking up a chunk ---------------- */

  /** The first header of hs whose ID is id. */
  function FindHeader(hs: seq<Header>, id: seq<byte>): Option<Header>
    decreases |hs|
  {
    if |hs| == 0 then None
    else if ID(hs[0]) == id then Some(hs[0])
    else FindHeader(hs[1..], id)
  }

  /** GetHeaderByID: the first header with the given ID, or none. */
  function GetHeaderByID(rf: RiffFile, id: seq<byte>): (r: Option<Header>)
    ensures r.None? <==> forall j | 0 <= j < |rf.headers| :: ID(rf.headers[j]) != id
    ensures r.Some? ==> ID(r.value) == id && r.value in rf.headers
  {
    FindHeaderNone(rf.headers, id);
    assert FindHeader(rf.headers, id).Some? ==>
      ID(FindHeader(rf.headers, id).value) == id && FindHeader(rf.headers, id).value in rf.headers by {
      if FindHeader(rf.headers, id).Some? {
        FindHeaderFirst(rf.headers, id);
      }
    }
    FindHeader(rf.headers, id)
  }

  /** FindHeader answers none exactly when no header has the ID, and
      otherwise returns a header that has it with none before it. */
  lemma {:induction false} FindHeaderNone(hs: seq<Header>, id: seq<byte>)
    ensures FindHeader(hs, id).None? <==> forall j | 0 <= j < |hs| :: ID(hs[j]) != id
    decreases |hs|
  {
    if |hs| > 0 && ID(hs[0]) != id {
      FindHeaderNone(hs[1..], id);
      assert forall j | 1 <= j < |hs| :: hs[1..][j - 1] == hs[j];
    }
  }

  /** hs[i] is the first header of hs with the ID. */
  ghost predicate FirstWithID(hs: seq<Header>, i: int, id: seq<byte>) {
    && 0 <= i < |hs|
    && ID(hs[i]) == id
    && forall j | 0 <= j < i :: ID(hs[j]) != id
  }

  /** A header that is found is the first one with the ID. */
  lemma {:induction false} FindHeaderFirst(hs: seq<Header>, id: seq<byte>)
    requires FindHeader(hs, id).Some?
    ensures exists i :: FirstWithID(hs, i, id) && hs[i] == FindHeader(hs, id).value
    decreases |hs|
  {
    if ID(hs[0]) != id {
      var t := hs[1..];
      FindHeaderFirst(t, id);
      var i :| FirstWithID(t, i, id) && t[i] == FindHeader(t, id).value;
      FirstWithIDShift(hs, i, id);
      assert hs[i + 1] == t[i];
    } else {
      assert FirstWithID(hs, 0, id);
    }
  }

  lemma FirstWithIDShift(hs: seq<Header>, i: int, id: seq<byte>)
    requires |hs| > 0 && ID(hs[0]) != id && FirstWithID(hs[1..], i, id)
    ensures FirstWithID(hs, i + 1, id)
  {
    forall j | 0 < j < i + 1
      ensures ID(hs[j]) != id
    {
      assert hs[j] == hs[1..][j - 1];
    }
  }

  /** The lookup of a file: the first header with the given ID, or none
      when no header has it. */
  lemma GetHeaderByIDSpec(rf: RiffFile, id: seq<byte>)
    ensures GetHeaderByID(rf, id).None? <==> forall j | 0 <= j < |rf.headers| :: ID(rf.headers[j]) != id
    ensures GetHeaderByID(rf, id).Some? ==>
      exists i :: FirstWithID(rf.headers, i, id) && rf.headers[i] == GetHeaderByID(rf, id).value
  {
    FindHeaderNone(rf.headers, id);
    if GetHeaderByID(rf, id).Some? {
      FindHeaderFirst(rf.headers, id);
    }
  }

  /** An empty file has no header with the empty ID; a file holding one
      "test" header finds it. */
  lemma GetHeaderByIDExamples(rf: RiffFile)
    requires rf.headers == [Header(0x7465_7374, 0, 0, LittleEndian)]
    ensures GetHeaderByID(rf.(headers := []), []) == None
    ensures GetHeaderByID(rf, [0x74, 0x65, 0x73, 0x74]) == Some(rf.headers[0])
  {
    var t: seq<byte> := [0x74, 0x65, 0x73, 0x74];
    var h := rf.headers[0];
    assert BigEndianBytes(h.id, IdSizeBytes) == t;
    Strings.NoNulEndsUnchanged(t);
  }

  /* ---------------- Writing ---------------- */

  /** io.WriterAt on a growing buffer: b lands at off, a gap before off is
      zero-filled and every other byte is kept. Writing nothing changes
      nothing, wherever it is aimed. */
  function WriteAt(dst: seq<byte>, off: nat, b: seq<byte>): (r: seq<byte>)
    ensures |r| == if |b| == 0 || off + |b| <= |dst| then |dst| else off + |b|
    ensures |b| > 0 ==> r[off..off + |b|] == b
    ensures forall i | 0 <= i < |dst| && (i < off || off + |b| <= i) :: r[i] == dst[i]
    ensures forall i | |dst| <= i < |r| && i < off :: r[i] == 0
  {
    if |b| == 0 then dst
    else if off + |b| <= |dst| then dst[..off] + b + dst[off + |b|..]
    else if off <= |dst| then dst[..off] + b
    else dst + Zeros(off - |dst|) + b
  }

  /** What WriteAt leaves at each index: the written byte inside the
      target range, the old byte or a zero-filled gap byte outside it. */
  lemma WriteAtIndex(dst: seq<byte>, off: nat, b: seq<byte>, i: nat)
    requires i < |WriteAt(dst, off, b)|
    ensures WriteAt(dst, off, b)[i] == if off <= i < off + |b| then b[i - off] else if i < |dst| then dst[i] else 0
  {
  }

  /** The same for the whole buffer. */
  lemma WriteAtSpec(dst: seq<byte>, off: nat, b: seq<byte>)
    ensures var r := WriteAt(dst, off, b);
      (|b| > 0 ==> r[off..off + |b|] == b)
      && forall i | 0 <= i < |r| && !(off <= i < off + |b|) :: r[i] == (if i < |dst| then dst[i] else 0)
  {
    var r := WriteAt(dst, off, b);
    forall i | 0 <= i < |r|
      ensures r[i] == if off <= i < off + |b| then b[i - off] else if i < |dst| then dst[i] else 0
    {
      WriteAtIndex(dst, off, b, i);
    }
    if |b| > 0 {
      assert r[off..off + |b|] == b;
    }
  }

  /** Two writes back to back are one write of both. */
  lemma WriteAtAppend(dst: seq<byte>, off: nat, a: seq<byte>, b: seq<byte>)
    ensures WriteAt(WriteAt(dst, off, a), off + |a|, b) == WriteAt(dst, off, a + b)
  {
    if |a| == 0 {
      assert a + b == b;
    } else if |b| == 0 {
      assert a + b == a;
    } else {
      var x := WriteAt(WriteAt(dst, off, a), off + |a|, b);
      var y := WriteAt(dst, off, a + b);
      forall i | 0 <= i < |x|
        ensures x[i] == y[i]
      {
        WriteAtAppendAt(dst, off, a, b, i);
      }
    }
  }

  lemma WriteAtAppendAt(dst: seq<byte>, off: nat, a: seq<byte>, b: seq<byte>, i: nat)
    requires |a| > 0 && |b| > 0 && i < |WriteAt(WriteAt(dst, off, a), off + |a|, b)|
    ensures i < |WriteAt(dst, off, a + b)|
    ensures WriteAt(WriteAt(dst, off, a), off + |a|, b)[i] == WriteAt(dst, off, a + b)[i]
  {
    var w := WriteAt(dst, off, a);
    var x := WriteAt(w, off + |a|, b);
    var y := WriteAt(dst, off, a + b);
    WriteAtIndex(w, off + |a|, b, i);
    if i < |w| {
      WriteAtIndex(dst, off, a, i);
    }
    if i < |y| {
      WriteAtIndex(dst, off, a + b, i);
    }
    PointAgrees(dst, off, a, b, i, w, x, y);
  }

  /** The pointwise facts of the two writes and of the joined write agree
      at i; stated over plain sequences so that no write is unfolded. */
  lemma PointAgrees(dst: seq<byte>, off: nat, a: seq<byte>, b: seq<byte>, i: nat, w: seq<byte>, x: seq<byte>, y: seq<byte>)
    requires |a| > 0 && |b| > 0
    requires |w| == if off + |a| <= |dst| then |dst| else off + |a|
    requires |x| == if off + |a| + |b| <= |w| then |w| else off + |a| + |b|
    requires |y| == if off + |a| + |b| <= |dst| then |dst| else off + |a| + |b|
    requires i < |x|
    requires x[i] == if off + |a| <= i < off + |a| + |b| then b[i - off - |a|] else if i < |w| then w[i] else 0
    requires i < |w| ==> w[i] == if off <= i < off + |a| then a[i - off] else if i < |dst| then dst[i] else 0
    requires i < |y| ==> y[i] == if off <= i < off + |a| + |b| then (a + b)[i - off] else if i < |dst| then dst[i] else 0
    ensures i < |y| && x[i] == y[i]
  {
  }

  /** UpdateSize: the new size, 4 bytes little-endian, written at offset 4;
      the size field then reads back as the value. */
  function UpdateSize(dst: seq<byte>, size: uint32): (r: seq<byte>)
    ensures |r| == if |dst| < 8 then 8 else |dst|
    ensures Uint32Of(LittleEndian, r[IdSizeBytes..HeaderSizeBytes]) == size
  {
    Uint32Bytes(LittleEndian, size);
    var b := BytesOf(LittleEndian, size, SizeSizeBytes);
    WriteAtSpec(dst, IdSizeBytes, b);
    WriteAt(dst, IdSizeBytes, b)
  }

  /** UpdateSize changes nothing outside the size field (a buffer shorter
      than 8 bytes is zero-filled up to it). */
  lemma UpdateSizeKeepsOthers(dst: seq<byte>, size: uint32)
    ensures var r := UpdateSize(dst, size);
      forall i | 0 <= i < |r| && !(IdSizeBytes <= i < HeaderSizeBytes) :: r[i] == (if i < |dst| then dst[i] else 0)
  {
    WriteAtSpec(dst, IdSizeBytes, BytesOf(LittleEndian, size, SizeSizeBytes));
  }

  /** After UpdateSize the file's header decodes with the new size and the
      same identifier and format. */
  lemma UpdateSizeDecodes(dst: seq<byte>, size: uint32)
    requires |dst| >= RiffHeaderSizeBytes
    ensures var before := DecodeRiffHeader(dst).value;
      var after := DecodeRiffHeader(UpdateSize(dst, size)).value;
      after == before.(header := before.header.(size := size))
  {
    var r := UpdateSize(dst, size);
    UpdateSizeKeeps(dst, size);
    HeaderFields(dst);
    HeaderFields(r);
  }

  /** UpdateSize leaves the identifier and the format code alone. */
  lemma UpdateSizeKeeps(dst: seq<byte>, size: uint32)
    requires |dst| >= RiffHeaderSizeBytes
    ensures var r := UpdateSize(dst, size);
      |r| == |dst| && r[..IdSizeBytes] == dst[..IdSizeBytes]
      && r[HeaderSizeBytes..RiffHeaderSizeBytes] == dst[HeaderSizeBytes..RiffHeaderSizeBytes]
  {
    var r := UpdateSize(dst, size);
    UpdateSizeKeepsOthers(dst, size);
    assert r[..IdSizeBytes] == dst[..IdSizeBytes];
    assert r[HeaderSizeBytes..RiffHeaderSizeBytes] == dst[HeaderSizeBytes..RiffHeaderSizeBytes];
  }

  /** The RIFF header read field by field from the first 12 bytes. */
  function RiffHeaderOf(b: seq<byte>): RiffHeader
    requires |b| >= RiffHeaderSizeBytes
  {
    var header := Header(Uint32Of(BigEndian, b[..IdSizeBytes]), Uint32Of(LittleEndian, b[IdSizeBytes..HeaderSizeBytes]), 0, LittleEndian);
    NewRiffHeader(header, Uint32Of(BigEndian, b[HeaderSizeBytes..RiffHeaderSizeBytes]))
  }

  /** DecodeRiffHeader reads exactly those fields. */
  lemma HeaderFields(b: seq<byte>)
    requires |b| >= RiffHeaderSizeBytes
    ensures DecodeRiffHeader(b) == Ok(RiffHeaderOf(b))
  {
    var p := b[..HeaderSizeBytes];
    assert p[..HeaderSizeBytes][..IdSizeBytes] == b[..IdSizeBytes];
    assert p[..HeaderSizeBytes][IdSizeBytes..] == b[IdSizeBytes..HeaderSizeBytes];
  }

  /* ---------------- Deleting a chunk ---------------- */

  /** What a chunk move leaves behind: the written buffer, and the error
      that stopped the moves, if any (earlier writes stay). */
  datatype Moved = Moved(dst: seq<byte>, err: Option<Error>)

  /** The loop of DeleteChunk from index i on: every chunk that starts
      after `after` is read whole (FullSize bytes) from src and written at
      the running offset, which then grows by the bytes read, modulo 2^32.
      A read past the end of src fails with EOF. */
  function MoveChunks(hs: seq<Header>, i: nat, after: uint32, src: seq<byte>, dst: seq<byte>, offset: uint32): (r: Moved)
    requires i <= |hs|
    ensures r.err.Some? ==> r.err.value == EOF
    decreases |hs| - i
  {
    if i == |hs| then Moved(dst, None)
    else if hs[i].startPos <= after then MoveChunks(hs, i + 1, after, src, dst, offset)
    else
      var n := LegacyFullSize(hs[i]);
      if |src| < hs[i].startPos + n then Moved(dst, Some(EOF))
      else MoveChunks(hs, i + 1, after, src, WriteAt(dst, offset, ChunkAt(src, hs[i])), Wrap32(offset + n))
  }

  /** The FullSize bytes of a chunk, as read from src. */
  function ChunkAt(src: seq<byte>, h: Header): (r: seq<byte>)
    requires h.startPos + LegacyFullSize(h) <= |src|
    ensures |r| == LegacyFullSize(h)
  {
    src[h.startPos..h.startPos + LegacyFullSize(h)]
  }

  /** Every chunk from index i on that starts after `after` can be read
      whole from src. */
  ghost predicate Readable(hs: seq<Header>, i: nat, after: uint32, src: seq<byte>) {
    forall j | i <= j < |hs| && hs[j].startPos > after :: hs[j].startPos + LegacyFullSize(hs[j]) <= |src|
  }

  /** The bytes of the chunks after `after`, from index i on, in list order,
      end to end. */
  function Gathered(hs: seq<Header>, i: nat, after: uint32, src: seq<byte>): (r: seq<byte>)
    requires i <= |hs| && Readable(hs, i, after, src)
    decreases |hs| - i
  {
    if i == |hs| then []
    else if hs[i].startPos <= after then Gathered(hs, i + 1, after, src)
    else ChunkAt(src, hs[i]) + Gathered(hs, i + 1, after, src)
  }

  /** The moves fail exactly when some chunk after `after` runs past the end
      of src, and then with EOF. */
  lemma {:induction false} MoveChunksFails(hs: seq<Header>, i: nat, after: uint32, src: seq<byte>, dst: seq<byte>, offset: uint32)
    requires i <= |hs|
    ensures MoveChunks(hs, i, after, src, dst, offset).err.None? <==> Readable(hs, i, after, src)
    ensures MoveChunks(hs, i, after, src, dst, offset).err.Some? ==> MoveChunks(hs, i, after, src, dst, offset).err == Some(EOF)
    decreases |hs| - i
  {
    if i < |hs| {
      if hs[i].startPos <= after {
        MoveChunksFails(hs, i + 1, after, src, dst, offset);
      } else if hs[i].startPos + LegacyFullSize(hs[i]) <= |src| {
        MoveChunksFails(hs, i + 1, after, src, WriteAt(dst, offset, ChunkAt(src, hs[i])), Wrap32(offset + LegacyFullSize(hs[i])));
      }
    }
  }

  /** When every chunk can be read and the offset never wraps, the moves
      are one write of the gathered chunks at the starting offset. */
  lemma {:induction false} MoveChunksWrites(hs: seq<Header>, i: nat, after: uint32, src: seq<byte>, dst: seq<byte>, offset: uint32)
    requires i <= |hs| && Readable(hs, i, after, src)
    requires offset + |Gathered(hs, i, after, src)| < TwoTo32
    ensures MoveChunks(hs, i, after, src, dst, offset).dst == WriteAt(dst, offset, Gathered(hs, i, after, src))
    decreases |hs| - i
  {
    if i < |hs| {
      if hs[i].startPos <= after {
        MoveChunksWrites(hs, i + 1, after, src, dst, offset);
      } else {
        var chunk := ChunkAt(src, hs[i]);
        var rest := Gathered(hs, i + 1, after, src);
        var n := LegacyFullSize(hs[i]);
        Wrap32Small(offset + n);
        MoveChunksWrites(hs, i + 1, after, src, WriteAt(dst, offset, chunk), offset + n);
        WriteAtAppend(dst, offset, chunk, rest);
      }
    }
  }

  /** The outcome of DeleteChunk: the file (its headers now sorted), the
      written buffer, and either the new file size or the error. */
  datatype Deleted = Deleted(file: RiffFile, dst: seq<byte>, result: Result<uint32>)

  /** DeleteChunk: find the chunk; sort the headers by start; move every
      later chunk down to close the gap; write the RIFF size minus the
      deleted FullSize; return the in-memory FullSize minus the deleted
      one. A missing chunk is an error with nothing written. */
  function DeleteChunk(rf: RiffFile, id: seq<byte>, src: seq<byte>, dst: seq<byte>): (r: Deleted)
    ensures GetHeaderByID(rf, id).None? <==> r.result == Err(ChunkNotFound(id))
    ensures GetHeaderByID(rf, id).None? ==> r.dst == dst && r.file == rf
    ensures r.file.name == rf.name && r.file.header == rf.header
    ensures multiset(r.file.headers) == multiset(rf.headers)
  {
    var found := GetHeaderByID(rf, id);
    if found.None? then Deleted(rf, dst, Err(ChunkNotFound(id)))
    else DeleteFound(rf, found.value, src, dst)
  }

  /** DeleteChunk once the chunk h has been found: the moves run over the
      sorted headers from h's start. */
  function DeleteFound(rf: RiffFile, h: Header, src: seq<byte>, dst: seq<byte>): (r: Deleted)
    ensures r.file == rf.(headers := SortByStartPos(rf.headers))
    ensures r.result.Err? ==> r.result.error == EOF
  {
    var sorted := SortByStartPos(rf.headers);
    FinishDelete(rf, h, sorted, MoveChunks(sorted, 0, h.startPos, src, dst, h.startPos))
  }

  /** After the moves: an error is passed on as it is; otherwise the size
      field is rewritten and the new file size returned. */
  function FinishDelete(rf: RiffFile, h: Header, sorted: seq<Header>, moved: Moved): (r: Deleted)
    ensures r.file == rf.(headers := sorted)
    ensures r.result.Err? <==> moved.err.Some?
    ensures r.result.Err? ==> r.result.error == moved.err.value
  {
    if moved.err.Some? then Deleted(rf.(headers := sorted), moved.dst, Err(moved.err.value))
    else
      var riffSize := Wrap32(rf.header.header.size - LegacyFullSize(h));
      Deleted(rf.(headers := sorted), UpdateSize(moved.dst, riffSize), Ok(Wrap32(RiffFullSize(rf.header) - LegacyFullSize(h))))
  }

  /** A found chunk whose later chunks can all be read and moved without
      wrapping: the headers end up sorted, the gathered later chunks are
      written from the deleted chunk's start, the size field holds the old
      size minus the deleted FullSize, and the result is the file's
      FullSize minus it. */
  lemma DeleteChunkMoves(rf: RiffFile, id: seq<byte>, h: Header, src: seq<byte>, dst: seq<byte>)
    requires GetHeaderByID(rf, id) == Some(h)
    requires var sorted := SortByStartPos(rf.headers);
      Readable(sorted, 0, h.startPos, src) && h.startPos + |Gathered(sorted, 0, h.startPos, src)| < TwoTo32
    ensures var sorted := SortByStartPos(rf.headers);
      var r := DeleteChunk(rf, id, src, dst);
      && SortedByStart(r.file.headers)
      && r.result == Ok(Wrap32(RiffFullSize(rf.header) - LegacyFullSize(h)))
      && r.dst == UpdateSize(WriteAt(dst, h.startPos, Gathered(sorted, 0, h.startPos, src)),
                             Wrap32(rf.header.header.size - LegacyFullSize(h)))
  {
    DeleteChunkFound(rf, id, h, src, dst);
    FoundMoves(rf, h, src, dst);
  }

  lemma DeleteChunkFound(rf: RiffFile, id: seq<byte>, h: Header, src: seq<byte>, dst: seq<byte>)
    requires GetHeaderByID(rf, id) == Some(h)
    ensures DeleteChunk(rf, id, src, dst) == DeleteFound(rf, h, src, dst)
  {
  }

  lemma FoundMoves(rf: RiffFile, h: Header, src: seq<byte>, dst: seq<byte>)
    requires var sorted := SortByStartPos(rf.headers);
      Readable(sorted, 0, h.startPos, src) && h.startPos + |Gathered(sorted, 0, h.startPos, src)| < TwoTo32
    ensures var sorted := SortByStartPos(rf.headers);
      var r := DeleteFound(rf, h, src, dst);
      && SortedByStart(r.file.headers)
      && r.result == Ok(Wrap32(RiffFullSize(rf.header) - LegacyFullSize(h)))
      && r.dst == UpdateSize(WriteAt(dst, h.startPos, Gathered(sorted, 0, h.startPos, src)),
                             Wrap32(rf.header.header.size - LegacyFullSize(h)))
  {
    var sorted := SortByStartPos(rf.headers);
    var moved := MoveChunks(sorted, 0, h.startPos, src, dst, h.startPos);
    var w := WriteAt(dst, h.startPos, Gathered(sorted, 0, h.startPos, src));
    MoveChunksFails(sorted, 0, h.startPos, src, dst, h.startPos);
    MoveChunksWrites(sorted, 0, h.startPos, src, dst, h.startPos);
    FinishOk(rf, h, sorted, moved, w);
    assert DeleteFound(rf, h, src, dst) == FinishDelete(rf, h, sorted, moved);
  }

  lemma FinishOk(rf: RiffFile, h: Header, sorted: seq<Header>, moved: Moved, w: seq<byte>)
    requires moved.err.None? && moved.dst == w
    ensures var r := FinishDelete(rf, h, sorted, moved);
      && r.dst == UpdateSize(w, Wrap32(rf.header.header.size - LegacyFullSize(h)))
      && r.result == Ok(Wrap32(RiffFullSize(rf.header) - LegacyFullSize(h)))
  {
  }

  /** A chunk after the deleted one that cannot be read stops the deletion
      with EOF and no size update. */
  lemma DeleteChunkShortRead(rf: RiffFile, id: seq<byte>, src: seq<byte>, dst: seq<byte>)
    requires GetHeaderByID(rf, id).Some?
    requires !Readable(SortByStartPos(rf.headers), 0, GetHeaderByID(rf, id).value.startPos, src)
    ensures var h := GetHeaderByID(rf, id).value;
      var r := DeleteChunk(rf, id, src, dst);
      r.result == Err(EOF)
      && r.dst == MoveChunks(SortByStartPos(rf.headers), 0, h.startPos, src, dst, h.startPos).dst
  {
    var h := GetHeaderByID(rf, id).value;
    var sorted := SortByStartPos(rf.headers);
    var moved := MoveChunks(sorted, 0, h.startPos, src, dst, h.startPos);
    assert DeleteChunk(rf, id, src, dst) == FinishDelete(rf, h, sorted, moved);
    MoveChunksFails(sorted, 0, h.startPos, src, dst, h.startPos);
  }

  /* ---------------- Appending a chunk ---------------- */

  /** AddChunk: the reader's bytes, taken at most bufferSize at a time (1024
      when bufferSize is not positive), written one after the other from
      the file's FullSize; then the size field set to the old size plus the
      bytes written, modulo 2^32. The outcome does not depend on the buffer
      size. */
  method AddChunk(rf: RiffFile, input: seq<byte>, dst: seq<byte>, bufferSize: int) returns (out: seq<byte>)
    ensures out == UpdateSize(WriteAt(dst, RiffFullSize(rf.header), input), Wrap32(rf.header.header.size + |input|))
  {
    var start: nat := RiffFullSize(rf.header);
    var written, chunkSize := CopyChunk(input, dst, start, bufferSize);
    AddEnd(dst, start, input, rf.header.header.size, chunkSize);
    out := UpdateSize(written, Wrap32(rf.header.header.size + chunkSize));
  }

  /** The copy loop of AddChunk: reads of at most the buffer size (1024
      when the given size is not positive), each written where the last one
      ended, counting the bytes in uint32. */
  method CopyChunk(input: seq<byte>, dst: seq<byte>, start: nat, bufferSize: int) returns (out: seq<byte>, chunkSize: uint32)
    ensures out == WriteAt(dst, start, input)
    ensures chunkSize == Wrap32(|input|)
  {
    var size := if bufferSize <= 0 then 1024 else bufferSize;
    var offset := start;
    var consumed := 0;
    chunkSize := 0;
    out := dst;
    AddStart(dst, start, input);
    while consumed < |input|
      invariant 0 <= consumed <= |input|
      invariant offset == start + consumed
      invariant chunkSize == Wrap32(consumed)
      invariant out == WriteAt(dst, start, input[..consumed])
      decreases |input| - consumed
    {
      var n := if |input| - consumed < size then |input| - consumed else size;
      AddStep(dst, start, input, consumed, n);
      out := WriteAt(out, offset, input[consumed..consumed + n]);
      offset := offset + n;
      Wrap32Add(consumed, n);
      chunkSize := Wrap32(chunkSize + n);
      consumed := consumed + n;
    }
    assert input[..consumed] == input;
  }

  lemma AddStart(dst: seq<byte>, start: nat, input: seq<byte>)
    ensures WriteAt(dst, start, input[..0]) == dst && Wrap32(0) == 0
  {
    assert input[..0] == [];
  }

  /** One read of n bytes extends the single write by those bytes. */
  lemma AddStep(dst: seq<byte>, start: nat, input: seq<byte>, consumed: nat, n: nat)
    requires consumed + n <= |input|
    ensures WriteAt(WriteAt(dst, start, input[..consumed]), start + consumed, input[consumed..consumed + n])
      == WriteAt(dst, start, input[..consumed + n])
  {
    SliceJoin(input, consumed, n);
    WriteAtAppend(dst, start, input[..consumed], input[consumed..consumed + n]);
  }

  lemma SliceJoin(s: seq<byte>, i: nat, n: nat)
    requires i + n <= |s|
    ensures |s[..i]| == i && s[..i] + s[i..i + n] == s[..i + n]
  {
  }

  lemma AddEnd(dst: seq<byte>, start: nat, input: seq<byte>, size: uint32, chunkSize: int)
    requires chunkSize == Wrap32(|input|)
    ensures Wrap32(size + chunkSize) == Wrap32(size + |input|)
  {
    Wrap32Add(|input|, size);
  }
}

=== FILE: riffheader.dfy ===
/** The RIFF header of the wav package (riffheader.go): a little-endian
    chunk header followed by a big-endian format code, kept together with
    the code's NUL-trimmed text. */
module RiffHeaders {
  import opened Binary
  import opened Errors
  import opened Constants
  import opened ChunkHeaders
  import opened ContainerHeaders
  import opened LegacyHeaders
  import Strings

  /** RiffHeaderSizeBytes: the chunk header plus the format code. The wav
      package's constant file is not part of this model; the value is the
      container header size. */
  const RiffHeaderSizeBytes: nat := ContainerHeaderSizeBytes

  datatype RiffHeader = RiffHeader(header: Header, formatVal: seq<byte>, format: uint32)

  /** convertFormat: the code written big-endian into a 32-byte zeroed
      buffer and trimmed of NULs, which is the trimmed 4-byte code. */
  function ConvertFormat(format: uint32): (r: seq<byte>)
    ensures |r| <= FormatSizeBytes
    ensures r == Strings.TrimNullChars(BigEndianBytes(format, FormatSizeBytes))
  {
    var val := BigEndianBytes(format, FormatSizeBytes) + Zeros(28);
    Strings.TrimIgnoresTrailingNuls(BigEndianBytes(format, FormatSizeBytes), 28);
    Strings.TrimNullChars(val)
  }

  /** NewRiffHeader: the text of the format is the text a container header
      with the same code reports. */
  function NewRiffHeader(header: Header, format: uint32): (r: RiffHeader)
    ensures r.header == header && r.format == format
    ensures r.formatVal == Format(ContainerHeader(header, format))
  {
    RiffHeader(header, ConvertFormat(format), format)
  }

  /** isValidRiffHeader as written: the length is converted to uint32
      before the comparison, so it is compared modulo 2^32. */
  function IsValidRiffHeaderAsWritten(length: nat): (r: bool)
    ensures r ==> IsValidRiffHeader(length)
  {
    Wrap32(length) >= RiffHeaderSizeBytes
  }

  /** The intended check: at least 12 bytes. */
  predicate IsValidRiffHeader(length: nat) {
    length >= RiffHeaderSizeBytes
  }

  /** The check as written never lets a short input through, and agrees with
      the intended one below 2^32 bytes; a 2^32-byte input, long enough by
      far, is rejected. */
  lemma ValidityCheckWraps(length: nat)
    ensures IsValidRiffHeaderAsWritten(length) ==> IsValidRiffHeader(length)
    ensures length < TwoTo32 ==> (IsValidRiffHeaderAsWritten(length) <==> IsValidRiffHeader(length))
    ensures length == TwoTo32 ==> IsValidRiffHeader(length) && !IsValidRiffHeaderAsWritten(length)
  {
    if length < TwoTo32 {
      Wrap32Small(length);
    }
  }

  /** DecodeRiffHeader: fails with InvalidRiffHeader on fewer than 12
      bytes; otherwise the chunk header little-endian at start 0 and the
      format big-endian from bytes 8..12. */
  function DecodeRiffHeader(bytes: seq<byte>): (r: Result<RiffHeader>)
    ensures r.Err? <==> |bytes| < RiffHeaderSizeBytes
    ensures r.Err? ==> r.error == InvalidRiffHeader
    ensures r.Ok? ==> r.value.header.startPos == 0 && r.value.header.order == LittleEndian
    ensures r.Ok? ==> ContainerBytes(ContainerHeader(r.value.header, r.value.format)) == bytes[..RiffHeaderSizeBytes]
    ensures r.Ok? ==> r.value.formatVal == Strings.TrimNullChars(bytes[HeaderSizeBytes..RiffHeaderSizeBytes])
  {
    if !IsValidRiffHeader(|bytes|) then Err(InvalidRiffHeader)
    else
      var chunk := DecodeChunkHeaderPrefix(bytes[..HeaderSizeBytes], 0, LittleEndian);
      var fbytes := bytes[HeaderSizeBytes..HeaderSizeBytes + FormatSizeBytes];
      FixedWidthValues(BigEndian, fbytes);
      BytesOfValueOf(BigEndian, fbytes);
      var c := ContainerHeader(chunk, Uint32Of(BigEndian, fbytes));
      assert ContainerBytes(c) == bytes[..HeaderSizeBytes] + fbytes;
      assert bytes[..RiffHeaderSizeBytes] == bytes[..HeaderSizeBytes] + fbytes;
      Ok(NewRiffHeader(chunk, Uint32Of(BigEndian, fbytes)))
  }

  /** The same decoder with the length check as written. */
  function DecodeRiffHeaderAsWritten(bytes: seq<byte>): (r: Result<RiffHeader>)
    ensures |bytes| < TwoTo32 ==> r == DecodeRiffHeader(bytes)
    ensures r.Ok? ==> r == DecodeRiffHeader(bytes)
  {
    ValidityCheckWraps(|bytes|);
    if !IsValidRiffHeaderAsWritten(|bytes|) then Err(InvalidRiffHeader)
    else DecodeRiffHeader(bytes)
  }

  /** A RIFF header is a little-endian container header: decoding either
      way gives the same chunk header and format code. */
  lemma DecodeRiffHeaderAgrees(bytes: seq<byte>)
    ensures DecodeRiffHeader(bytes).Ok? <==> DecodeContainerHeader(bytes, LittleEndian).Ok?
    ensures DecodeRiffHeader(bytes).Ok? ==>
      var r := DecodeRiffHeader(bytes).value;
      ContainerHeader(r.header, r.format) == DecodeContainerHeader(bytes, LittleEndian).value
  {
    if |bytes| >= RiffHeaderSizeBytes {
      var r := DecodeRiffHeader(bytes).value;
      var c := DecodeContainerHeader(bytes, LittleEndian).value;
      SameContainerBytes(ContainerHeader(r.header, r.format), c);
    }
  }

  lemma SameContainerBytes(c: ContainerHeader, d: ContainerHeader)
    requires ContainerBytes(c) == ContainerBytes(d)
    requires c.header.startPos == 0 && d.header.startPos == 0
    requires c.header.order == d.header.order
    ensures c == d
  {
    DecodeOfContainerBytes(c);
    DecodeOfContainerBytes(d);
  }

  /** The 12 bytes of a little-endian container header at start 0 decode
      to a RIFF header with its chunk header, code and code text. */
  lemma DecodeRiffHeaderOfBytes(c: ContainerHeader)
    requires c.header.startPos == 0 && c.header.order == LittleEndian
    ensures DecodeRiffHeader(ContainerBytes(c)) == Ok(RiffHeader(c.header, Format(c), c.format))
  {
    var bytes := ContainerBytes(c);
    assert bytes[..RiffHeaderSizeBytes] == bytes;
    var r := DecodeRiffHeader(bytes).value;
    SameContainerBytes(ContainerHeader(r.header, r.format), c);
  }

  /** Twelve zero bytes decode to an empty header with an empty format. */
  lemma DecodeZeroRiffHeader()
    ensures DecodeRiffHeader(Zeros(RiffHeaderSizeBytes)).Ok?
    ensures var r := DecodeRiffHeader(Zeros(RiffHeaderSizeBytes)).value;
      r.header.size == 0 && r.header.id == 0 && r.formatVal == []
  {
    var z := Zeros(RiffHeaderSizeBytes);
    var r := DecodeRiffHeader(z).value;
    var c := ContainerHeader(Header(0, 0, 0, LittleEndian), 0);
    DecodeRiffHeaderOfBytes(c);
    ZeroContainerBytes(c);
    Strings.AllNulTrimsToEmpty(BigEndianBytes(0, FormatSizeBytes));
  }

  lemma ZeroContainerBytes(c: ContainerHeader)
    requires c == ContainerHeader(Header(0, 0, 0, LittleEndian), 0)
    ensures ContainerBytes(c) == Zeros(RiffHeaderSizeBytes)
  {
    var b := ContainerBytes(c);
    forall i | 0 <= i < RiffHeaderSizeBytes
      ensures b[i] == 0
    {
      assert b == BytesOf(BigEndian, 0, 4) + BytesOf(LittleEndian, 0, 4) + BytesOf(BigEndian, 0, 4);
    }
  }

  /** FullSize: size + 12 in uint32 arithmetic. It is the unpadded chunk
      size plus the format code, and never pads: its parity is the size's. */
  function RiffFullSize(rh: RiffHeader): (r: uint32)
    ensures r == Wrap32(LegacyFullSize(rh.header) + FormatSizeBytes)
    ensures rh.header.size + RiffHeaderSizeBytes < TwoTo32 ==> r == rh.header.size + RiffHeaderSizeBytes
    ensures r % 2 == rh.header.size % 2
  {
    RiffSizeWraps(rh.header.size);
    Wrap32(rh.header.size + RiffHeaderSizeBytes)
  }

  /** size + 8 + 4 in uint32 arithmetic: one wrap at the end, the parity of
      size, and no wrap below 2^32. */
  lemma RiffSizeWraps(size: nat)
    ensures Wrap32(Wrap32(size + HeaderSizeBytes) + FormatSizeBytes) == Wrap32(size + RiffHeaderSizeBytes)
    ensures Wrap32(size + RiffHeaderSizeBytes) % 2 == size % 2
    ensures size + RiffHeaderSizeBytes < TwoTo32 ==> Wrap32(size + RiffHeaderSizeBytes) == size + RiffHeaderSizeBytes
  {
    Wrap32Add(size + HeaderSizeBytes, FormatSizeBytes);
    RiffSizeParity(size);
    if size + RiffHeaderSizeBytes < TwoTo32 {
      Wrap32Small(size + RiffHeaderSizeBytes);
    }
  }

  lemma RiffSizeParity(size: nat)
    ensures Wrap32(size + RiffHeaderSizeBytes) % 2 == size % 2
  {
    Wrap32Parity(size + RiffHeaderSizeBytes);
  }
}

=== FILE: strings.dfy ===
/** NUL stripping of identifiers (strings.go). Go's string(b) conversion
    keeps the bytes as they are, so a Go string is a byte sequence here and
    `trim` is the same function as `trimNullChars`. */
module Strings {
  import opened Binary

  /** Number of NUL bytes at the front of s. */
  function LeadingNuls(s: seq<byte>): (n: nat)
    ensures n <= |s|
    ensures forall i | 0 <= i < n :: s[i] == 0
    ensures n == |s| || s[n] != 0
  {
    if |s| == 0 || s[0] != 0 then 0 else 1 + LeadingNuls(s[1..])
  }

  /** Number of NUL bytes at the back of s. */
  function TrailingNuls(s: seq<byte>): (n: nat)
    ensures n <= |s|
    ensures forall i | |s| - n <= i < |s| :: s[i] == 0
    ensures n == |s| || s[|s| - 1 - n] != 0
  {
    if |s| == 0 || s[|s| - 1] != 0 then 0 else 1 + TrailingNuls(s[..|s| - 1])
  }

  /** bytes.Trim(data, "\x00"): the input without its leading and trailing
      NUL bytes. The result is the contiguous slice of the input that starts
      after the leading NULs; it begins and ends with a non-NUL byte, and
      every input byte outside it is NUL. */
  function TrimNullChars(s: seq<byte>): (r: seq<byte>)
    ensures |r| <= |s|
    ensures LeadingNuls(s) + |r| <= |s| && r == s[LeadingNuls(s)..LeadingNuls(s) + |r|]
    ensures |r| == 0 || (r[0] != 0 && r[|r| - 1] != 0)
    ensures forall i | 0 <= i < |s| && !(LeadingNuls(s) <= i < LeadingNuls(s) + |r|) :: s[i] == 0
  {
    var t := s[LeadingNuls(s)..];
    var r := t[..|t| - TrailingNuls(t)];
    assert |r| > 0 ==> r[0] == s[LeadingNuls(s)];
    r
  }

  /** Trimming an already trimmed value changes nothing. */
  lemma TrimIdempotent(s: seq<byte>)
    ensures TrimNullChars(TrimNullChars(s)) == TrimNullChars(s)
  {
    var r := TrimNullChars(s);
    if |r| > 0 {
      NoNulEndsUnchanged(r);
    }
  }

  /** A value whose first and last bytes are not NUL is returned unchanged,
      interior NULs included. */
  lemma NoNulEndsUnchanged(s: seq<byte>)
    requires |s| > 0 && s[0] != 0 && s[|s| - 1] != 0
    ensures TrimNullChars(s) == s
  {
    var r := TrimNullChars(s);
    assert LeadingNuls(s) == 0;
    assert s[|s| - 1] != 0;
  }

  /** Exactly the all-NUL inputs (the empty one included) trim to "". */
  lemma AllNulTrimsToEmpty(s: seq<byte>)
    ensures TrimNullChars(s) == [] <==> forall i | 0 <= i < |s| :: s[i] == 0
  {
    if TrimNullChars(s) != [] {
      assert s[LeadingNuls(s)] != 0;
    }
  }

  /** A non-empty slice that starts and ends with a non-NUL byte and has
      only NUL bytes around it is the trimmed value. */
  lemma TrimUnique(s: seq<byte>, i: nat, r: seq<byte>)
    requires |r| > 0 && i + |r| <= |s| && r == s[i..i + |r|]
    requires r[0] != 0 && r[|r| - 1] != 0
    requires forall k | 0 <= k < |s| && !(i <= k < i + |r|) :: s[k] == 0
    ensures TrimNullChars(s) == r
  {
    var q := TrimNullChars(s);
    assert s[i] != 0;
    assert forall k | 0 <= k < i :: s[k] == 0;
    assert LeadingNuls(s) == i;
    var last := i + |r| - 1;
    assert s[last] != 0;
    assert forall k | last < k < |s| :: s[k] == 0;
    assert |q| > 0 ==> s[i + |q| - 1] != 0;
    assert |q| == |r|;
  }

  /** Appending NUL bytes does not change the trimmed value. */
  lemma TrimIgnoresTrailingNuls(s: seq<byte>, n: nat)
    ensures TrimNullChars(s + Zeros(n)) == TrimNullChars(s)
  {
    var t := s + Zeros(n);
    var r := TrimNullChars(s);
    if |r| == 0 {
      AllNulTrimsToEmpty(s);
      AllNulTrimsToEmpty(t);
    } else {
      var i := LeadingNuls(s);
      assert forall k | 0 <= k < |t| && !(i <= k < i + |r|) :: t[k] == 0 by {
        forall k | 0 <= k < |t| && !(i <= k < i + |r|)
          ensures t[k] == 0
        {
          if k < |s| {
            assert t[k] == s[k];
          }
        }
      }
      assert r == t[i..i + |r|];
      TrimUnique(t, i, r);
    }
  }
}
